=== FILE: README.md ===
# Aviation crash explorer: filters and derived data

A Dafny model of the data side of the VI-Project crash visualisation. This is the part that
turns the semicolon-separated crash table into records and decides which records each view
shows. It also covers what the views compute from those records:

- **Parsing.** Every page finds its columns by header-name search. It reads coordinates,
  counts and weather numbers with its own `parseFloat`-based parsers. It splits the weather
  description into condition tags, and keeps rows with in-range coordinates and a year.
- **The shared filter engine** (`SharedFilters` in `js/shared-filters.js`). It holds a
  filter state: the year, aboard and fatality-percentage windows and the selected weather
  groups. It computes the data bounds and updates the state from the sliders and checkboxes.
  Every change is pushed to its listeners as the filtered records, in registration order.
  The engine is modelled as a value: each operation returns the new engine together with the
  list of listener calls it makes.
- **The graphs page** (`js/graphs.js`). It has its own `filterData`. From the filtered
  records it builds:
  - the zero-filled year series for crashes or fatalities;
  - the top-25 year bars;
  - the weather-tag bars, restricted to the selected groups' keywords;
  - the scatter matrix, with its Pearson correlation cells.
- **The graphs section** (`test/js/graphs-section.js`). The same charts, drawn from the
  shared engine's records. It uses slightly different chart-control rules, and the model
  relates the two sets of rules.
- **The scatterplot page** (`js/scatterplot.js`). The weather-description classifier, the
  legend, the five plotted variables, and the axis extent rule.
- **The map page** (`mapfilter.js`; `js/mapfilter.js` is a copy with the same behaviour).
  It has a global `filters` object, a filter chain in `drawDots`, condition checkboxes that
  need a verbatim tag, a route toggle, and dual sliders that write `filters` through keys
  derived from element ids.

The model states where the pages agree and where they differ:

- The graphs page and the map page always apply their aboard and percentage windows.
  Records without those numbers vanish there. The shared engine ignores those windows when
  the data has no such values.
- A `NaN` aboard count passes the graphs page's window but not the shared engine's.
- An unknown weather group is skipped by the graphs page. In the shared engine it hides
  every record.

Conventions:

- Numbers are exact reals, and record fields that may be `null`, `NaN` or a number are a
  three-way datatype.
- `new Date(s).getFullYear()` is a parameter (`YearOf`).
- The chart-value formatting of a correlation is a parameter.

Modules, one per file:

| file | module |
|---|---|
| `wrappers.dfy` | Wrappers |
| `seqs.dfy` | Seqs |
| `text.dfy` | Text |
| `numbers.dfy` | Numbers |
| `conditions.dfy` | Conditions |
| `weather_columns.dfy` | WeatherColumns |
| `records.dfy` | Records |
| `sliders.dfy` | Sliders |
| `shared_filters.dfy` | SharedFilters |
| `graphs_filter.dfy` | GraphsFilter |
| `aggregates.dfy` | Aggregates |
| `scatter.dfy` | Scatter |
| `correlation.dfy` | Correlation |
| `chart_controls.dfy` | ChartControls |
| `map_filter.dfy` | MapFilter |

## Model

| member | source | states |
|---|---|---|
| Text.Lower | js/shared-filters.js:122-153 | `toLowerCase`: same length, each character mapped by the ASCII lower-case map |
| Text.Split | js/shared-filters.js:192-194 | `split(/[;,]/)`: at least one piece, and no piece contains a separator; how the separators cut the text is stated by `Text.SplitAt` and `Text.SplitCount` |
| Text.SplitAt | js/shared-filters.js:192-194 | a `;` or `,` ends the first piece: a separator-free `p` followed by a separator and `t` splits into `p` and then the pieces of `t` |
| Text.SplitCount | js/shared-filters.js:192-194 | there is exactly one more piece than there are separators in the text |
| Text.SplitJoin | js/shared-filters.js:192-194 | splitting a `;`-joined list of separator-free pieces gives the pieces back (round trip) |
| Text.Collapse | js/shared-filters.js:197 | `replace(/\s+/g, " ")`: the result has no whitespace run and no whitespace other than single spaces; it keeps the first and last ink; that each run becomes one space is stated by `Text.CollapseJoin` |
| Text.CollapseNormal | js/shared-filters.js:197 | collapsing text that is already normal changes nothing |
| Text.CollapseJoin | js/shared-filters.js:197 | a whitespace run between two pieces of ink becomes one space and the ink on either side is collapsed on its own: `Collapse(a + w + b) == Collapse(a) + " " + Collapse(b)` |
| Text.SortedDistinct | mapfilter.js:348-353 | `Array.from(new Set(xs)).sort()`: strictly sorted, with exactly the elements of the input |
| Text.StrLess | mapfilter.js:353 | the default `sort()` order: only a non-empty string is above another, and a proper prefix is below the longer string |
| Text.StrLessTotal | mapfilter.js:353 | two different strings are ordered one way or the other |
| Text.StrLessTrans | mapfilter.js:353 | the order is transitive |
| Numbers.ParseFloat | js/shared-filters.js:157-163 | `parseFloat` on stripped text: never `null`; `NaN` exactly when no number starts after the optional minus; non-negative without a minus |
| Numbers.ParseDecimal | js/shared-filters.js:159-163 | `ip.fp` reads as `ip + fp/10^len(fp)`, and `-ip.fp` as its negation |
| Numbers.ParseShowNat | js/shared-filters.js:199-204 | printing a natural number and parsing it back gives the number, with or without a minus (round trip) |
| Numbers.ParseOptCoord | js/shared-filters.js:165-175 | start coordinates: `null` exactly for a missing value or one with nothing left after the strip; otherwise the coordinate parse |
| Numbers.ParseCoord | js/shared-filters.js:157-163 | lat/lon: never `null`; `NaN` for a missing value; without a comma, `parseFloat` of the digits, dots and minus signs of the text |
| Numbers.ParseCount | js/shared-filters.js:199-211 | aboard/fatal: `null` exactly for a missing value or one with no digit, dot or minus in it; otherwise `parseFloat` of the digits, dots and minus signs of the text, so whitespace and every comma are ignored |
| Numbers.ParseCountAsCoord | js/shared-filters.js:199-204 | the count parser is the start-coordinate parser applied after deleting every comma |
| Numbers.ParseNum | js/scatterplot.js:32-38 | `parseNum`: `null` for `null`; a number only when `parseFloat` of the comma-to-dot stripped text yields one; otherwise `null` |
| Numbers.ParseCountUntrimmed | js/graphs.js:971-972 | the graphs page parses counts without `trim()`, and the result equals the trimmed count parse on every input |
| Numbers.ParseNumAgreesWithCoord | js/graphs.js:931-937 | on text with at most one comma, `parseNum` and the start-coordinate parser agree |
| Numbers.CommaFreeParsersAgree | js/shared-filters.js:165-211 | without commas, the coordinate, count and `parseNum` parsers all agree |
| Numbers.CoordOfTwoCommas | js/shared-filters.js:157-163 | the coordinate parser reads `a,b,c` as `a.bc`: only the first comma becomes a point |
| Numbers.CountOfTwoCommas | js/shared-filters.js:199-204 | the count parser reads `a,b,c` as the integer `abc`: every comma is a thousands separator |
| Numbers.ParseNumOfTwoCommas | js/scatterplot.js:32-38 | `parseNum` reads `a,b,c` as `a.b`: the three parsers disagree on the same text |
| Conditions.SplitTags | js/graphs.js:970 | the graphs page's tags are non-empty, trimmed and free of separators; `Conditions.SplitTagsAt` states which tags they are |
| Conditions.SplitTagsAt | js/graphs.js:970 | a separator ends a tag: the tags of `p + sep + t` are the trimmed `p` (dropped when blank) followed by the tags of `t` |
| Conditions.ParseConditions | js/shared-filters.js:191-197 | every condition tag is non-empty, trimmed, separator-free and space-normal; `Conditions.ParseConditionsAt` and `Conditions.ParseConditionsJoinsWords` state which tags they are |
| Conditions.ParseConditionsAt | js/shared-filters.js:191-197 | a `;` or `,` ends a condition: the conditions of `p + sep + t` are `p` trimmed and whitespace-collapsed (dropped when blank) followed by the conditions of `t` |
| Conditions.ParseConditionsJoinsWords | js/shared-filters.js:191-197 | whitespace is not a separator: two words joined by any whitespace run stay one tag, and its condition is the two words joined by one space |
| Conditions.ParseJoinedTags | js/shared-filters.js:191-197 | parsing the `;`-join of a list of tags gives back that list (round trip) |
| Conditions.SplitJoinedTags | js/graphs.js:969-970 | the graphs page's split also recovers a joined list of tags |
| Conditions.ParseConditionsIdempotent | js/shared-filters.js:191-197 | re-parsing the joined tags of a cell gives the same tags |
| Conditions.EmptyCellNoTags | js/shared-filters.js:191-197 | an empty or missing weather cell has no tags |
| Conditions.GroupKeywords | js/shared-filters.js:82-89 | exactly the six groups have keywords, and each has at least one |
| Conditions.RainyIsRain | js/shared-filters.js:85 | the `heavy rain` keyword is redundant: the rainy group matches exactly the tags containing `rain` |
| Conditions.MatchIgnoresCase | js/shared-filters.js:100 | matching a keyword against the lower-cased tags is matching against the tags themselves, case ignored |
| WeatherColumns.DetectWeatherCols | js/scatterplot.js:40-52 | a weather column is detected exactly when the broad or the exact search finds one, and it is one of the keys |
| WeatherColumns.FallbackUnused | js/scatterplot.js:44-50 | a fallback `find` whose test implies the first one never changes the result |
| WeatherColumns.DetectUsesBroadSearchOnly | js/scatterplot.js:40-52 | every exact-name fallback of `detectCols` is redundant: detection equals the broad searches alone |
| WeatherColumns.TempAvg | js/scatterplot.js:65-67 | missing exactly when both temperatures are; the midpoint of both when both are present; otherwise the one present |
| Records.Cell | js/shared-filters.js:157-211 | a cell is present exactly when its column was detected and the row has it |
| Records.DetectColumns | js/shared-filters.js:121-153 | no latitude/date column exactly when no key mentions `lat`/`date`; a detected aboard column is an aboard-like key |
| Records.AboardColIsAbo | js/shared-filters.js:136-138 | the `aboard` alternative adds nothing to the `abo` search |
| Records.FatalColIsFatOrDeath | js/shared-filters.js:139-143 | the `fatal` alternative adds nothing to the `fat`/`death` search |
| Records.StartLatColIsStartOrOrig | js/shared-filters.js:144-148 | the `origin` alternative adds nothing to the `orig` search |
| Records.FatalPct | js/shared-filters.js:213-216 | defined exactly for a positive aboard count and a numeric fatal count; `pct * aboard == fatal * 100`; within 0..100 when fatal ≤ aboard |
| Records.ParseRecord | js/shared-filters.js:156-229 | coordinates from the coordinate parser; aboard and fatal from the every-comma count parser; the year is `yearOf` of a non-empty date, and there is no year without one; start coordinates from the start-coordinate parser; tags well formed; percentage consistent |
| Records.ParseRecordConditions | js/shared-filters.js:191-197 | a parsed record's conditions are the tags `ParseConditions` reads from its row's weather description (empty without the column) |
| Records.ParseRows | js/shared-filters.js:156 | one parsed record per row, in order |
| Records.Accept | js/shared-filters.js:230-235 | a passing record has a truthy year and no `NaN` coordinate, numeric coordinates in range; with both coordinates `null` it passes exactly when its year is truthy |
| Records.ParseMapRecord | mapfilter.js:134-217 | the map record is the shared record without weather cells, and passes the row filter exactly when the shared one does |
| Records.LoadShared | js/shared-filters.js:156-235 | exactly the parsed rows passing the row filter, every copy, in table order |
| Records.AcceptedIsWellFormed | js/shared-filters.js:230-235 | a parsed row passing the row filter has in-range numeric coordinates, a truthy year and a consistent percentage |
| Records.LoadedWellFormed | js/shared-filters.js:156-235 | every record the shared engine loads is well formed |
| Records.ParseFloatEmpty | js/shared-filters.js:157-162 | a missing coordinate parses as `NaN` |
| Records.NoLatColumnLoadsNothing | js/shared-filters.js:122-235 | without a latitude column every row is dropped |
| Records.NoDateColumnLoadsNothing | js/shared-filters.js:124-235 | without a date column every row is dropped |
| Records.GraphsCoord | js/graphs.js:954-965 | a graphs coordinate is `null` exactly when its column is missing |
| Records.Measure | js/graphs.js:975-981 | the temperature is the average rule on the `parseNum` of maximum and minimum, missing exactly when both are `null`; precipitation, wind, cloud and pressure are each `parseNum` of their detected column |
| Records.ParseGraphsRecord | js/graphs.js:952-982 | coordinates `null` without a column, else the first-comma parse; aboard and fatal equal the shared count parse (untrimmed); the year is `yearOf` of a non-empty date, and there is none without one; tags from the graphs split; a consistent percentage; the measurements of `Measure`; no summary and no start coordinates |
| Records.LoadGraphs | js/graphs.js:911-983 | an empty table loads nothing; otherwise exactly the parsed rows passing the row filter, every copy, in table order |
| Records.NullCoordinatesPass | js/graphs.js:983 | a record with `null` coordinates passes the row filter exactly when its year is truthy |
| Records.GraphsKeepsRowsWithoutCoordinates | js/graphs.js:954-983 | without coordinate columns the graphs page keeps every row with a year, while the shared engine keeps none |
| Sliders.OrderYears | js/shared-filters.js:373-383 | the year handler's window is ordered, ends at the end thumb, and starts at the start thumb when the thumbs are in order |
| Sliders.OrderRange | js/shared-filters.js:419-429 | the same ordering for the aboard and percentage windows |
| Sliders.CapStart | js/graphs.js:834-841 | the start-thumb handler caps the start at the end |
| Sliders.RaiseEnd | js/graphs.js:842-849 | the end-thumb handler raises the end to the start |
| Sliders.EndBelowStartHandlersDiffer | mapfilter.js:525-546 | with the end below the start, the shared handler collapses to the end value, the map's end handler to the start value |
| Sliders.Clamp01 | js/shared-filters.js:301-305 | the click position as a fraction is clamped to 0..1, unchanged inside |
| Sliders.NearestShared | js/shared-filters.js:325-333 | the chosen thumb is no farther than the other; on a tie the end thumb is chosen exactly when the click is past the start |
| Sliders.NearestMap | mapfilter.js:459-462 | the map's choice is also nearest, prefers the start on a tie, and differs from the shared choice exactly on a tie past the start |
| Sliders.Round | js/shared-filters.js:310 | `Math.round` lands within half a unit |
| Sliders.ValueFromPct | js/shared-filters.js:307-313 | a fraction in 0..1 sets a value within the slider's range, its ends at 0 and 1 |
| SharedFilters.Merge | js/shared-filters.js:49 | `Object.assign`: each supplied field takes the supplied value and each field not supplied keeps its value; an empty update changes nothing |
| SharedFilters.MergeIdempotent | js/shared-filters.js:48-51 | applying the same update twice is applying it once |
| SharedFilters.MergeThen | js/shared-filters.js:48-51 | two updates in turn are one combined update, the later winning |
| SharedFilters.GetFiltered | js/shared-filters.js:54-112 | a record is shown exactly when it is loaded and every clause admits it; each admitted record keeps all its copies, in the original order |
| SharedFilters.AdmitsWider | js/shared-filters.js:58-108 | a record admitted under narrower windows and more groups is admitted under wider ones |
| SharedFilters.WiderShowsMore | js/shared-filters.js:54-112 | widening the windows or unchecking groups never hides a shown record |
| SharedFilters.AboardWindowIgnoredWithoutData | js/shared-filters.js:63-69 | without aboard data the aboard window has no effect |
| SharedFilters.FatalWindowIgnoredWithoutData | js/shared-filters.js:72-78 | without percentage data the percentage window has no effect |
| SharedFilters.UnknownGroupHidesAll | js/shared-filters.js:94-96 | selecting a group outside the six hides every record |
| SharedFilters.GroupsIgnoreCase | js/shared-filters.js:100 | the group test ignores the case of the record's tags |
| SharedFilters.NumValues | js/shared-filters.js:242 | `filter(v => v != null && !isNaN(v))`: exactly the numbers of the column |
| SharedFilters.NumValuesNonEmpty | js/shared-filters.js:243 | there are aboard values exactly when some record has a numeric count |
| SharedFilters.YearWindow | js/shared-filters.js:238-240 | the year window spans every record's year and both ends are attained; it is empty for no data |
| SharedFilters.ComputeBounds | js/shared-filters.js:238-250 | the bounds span the data's years and aboard counts with attained ends; the flags say whether any number exists; the old aboard bounds are kept without data |
| SharedFilters.AboardSpan | js/shared-filters.js:242-247 | the aboard minimum and maximum are attained values bounding every numeric count, or the defaults when there is none |
| SharedFilters.Notify | js/shared-filters.js:43-45 | every listener, in registration order, receives the current filtered records once |
| SharedFilters.NotifyLoop | js/shared-filters.js:44 | the `forEach` loop makes the same calls as the reference notification |
| SharedFilters.AddListener | js/shared-filters.js:34-40 | the listener is appended and called once with the filtered records exactly when data is loaded |
| SharedFilters.UpdateFilters | js/shared-filters.js:48-51 | the state is merged, nothing else changes, and every listener receives the new filtered records |
| SharedFilters.UpdateFiltersIdempotent | js/shared-filters.js:48-51 | repeating an update leaves the same engine and makes the same calls |
| SharedFilters.ToggleGroup | js/shared-filters.js:507-514 | checking adds the group and unchecking removes it; nothing else changes; listeners are notified |
| SharedFilters.CheckingNarrows | js/shared-filters.js:81-109 | checking a group never shows a record that was hidden |
| SharedFilters.UncheckingWidens | js/shared-filters.js:81-109 | unchecking a group never hides a record that was shown |
| SharedFilters.ToggleRoundTrip | js/shared-filters.js:507-514 | checking then unchecking an unselected group restores the engine |
| SharedFilters.UpdateYears | js/shared-filters.js:373-383 | the year handler stores `OrderYears(start, end)`: the thumbs as they are when ordered, and when the start thumb has crossed the end thumb both ends become the end thumb's year; the rest of the state is unchanged |
| SharedFilters.UpdateAboard | js/shared-filters.js:394-429 | the aboard handler, which exists only with aboard data, stores `OrderRange(start, end)`, so a start thumb past the end thumb is pulled back to it, and is the `updateFilters` call that notifies every listener |
| SharedFilters.UpdateFatal | js/shared-filters.js:443-476 | the percentage handler, which exists only with percentage data, stores `OrderRange(start, end)`, so a start thumb past the end thumb is pulled back to it, and is the `updateFilters` call that notifies every listener |
| SharedFilters.InitialState | js/shared-filters.js:253-258 | `init` sets the year and aboard windows to the data bounds and the percentage window to 0..100, and keeps the selected groups and the route flag |
| SharedFilters.Start | js/shared-filters.js:237-264 | after loading: data and bounds set, the state reset, the count listener registered, and every call carries the filtered records |
| SharedFilters.Init | js/shared-filters.js:115-269 | an empty table (the `crashData[0]` failure) changes nothing; otherwise the loaded records, the bounds computed from them, the state `init()` sets from those bounds, the count listener, the number of calls, and the same step as `Start` on the loaded records |
| SharedFilters.AdmitsAtInit | js/shared-filters.js:54-112 | under the initial state a record within the bounds is shown exactly when it has the numbers the bounds require |
| SharedFilters.StartShowsCompleteRecords | js/shared-filters.js:237-264 | right after loading, the shown records are exactly the loaded records with an aboard count and an in-range percentage where the data has them |
| SharedFilters.InitShowsCompleteRecords | js/shared-filters.js:115-264 | the same for the whole `init` from the table |
| GraphsFilter.FilterData | js/graphs.js:146-178 | a record is shown exactly when it is loaded and the graphs clauses admit it; each admitted record keeps all its copies, in the original order |
| GraphsFilter.AsState | js/graphs.js:134-144 | the graphs filters read as a shared state keep the selected groups |
| GraphsFilter.GraphsAdmitsShared | js/graphs.js:146-178 | with known groups and no `NaN` numbers, a record the graphs page shows is one the shared engine shows |
| GraphsFilter.SharedAdmitsGraphs | js/graphs.js:149-151 | when the data has aboard and percentage values and the start year is positive, the converse holds |
| GraphsFilter.GraphsWithinShared | js/graphs.js:146-178 | under those conditions the graphs page's records are a subsequence of the shared engine's |
| GraphsFilter.GraphsAgreesWithShared | js/graphs.js:146-178 | with both kinds of data present, the two filters give the same records |
| GraphsFilter.NaNAboardDiverges | js/graphs.js:150 | a `NaN` aboard count passes the graphs window but fails the shared one |
| GraphsFilter.UnknownGroupSkipped | js/graphs.js:163-165 | an unknown group changes nothing on the graphs page |
| GraphsFilter.MissingAboardHidden | js/graphs.js:150 | with no aboard counts at all, the graphs page shows nothing |
| GraphsFilter.GraphsWiderShowsMore | js/graphs.js:146-178 | widening the graphs windows or unchecking groups never hides a shown record |
| Aggregates.YearSeries | js/graphs.js:216-232 | one bar per year of the window, in order, each holding that year's crash count or fatality sum |
| Aggregates.SeriesSum | js/graphs.js:221-232 | the series sums to the window's total |
| Aggregates.WindowCountsAll | js/graphs.js:221-225 | when every record's year is in the window, the crash counts add up to the number of records |
| Aggregates.SeriesCountsShownRecords | test/js/graphs-section.js:88-93 | the crash series over the state's window sums to the number of shown records |
| Aggregates.Insert | js/graphs.js:242 | inserting into a descending list keeps it descending and adds exactly the bar |
| Aggregates.SortDesc | js/graphs.js:242 | the sort is descending and a permutation of its input |
| Aggregates.InsertStable | js/graphs.js:242 | bars of equal value keep their relative order through one insertion |
| Aggregates.SortStable | js/graphs.js:242 | the sort is stable: the bars of each value appear in their original order |
| Aggregates.Top | js/graphs.js:242 | `slice(0, n)` of the sort: at most `n` bars, descending, drawn from the input, none left out higher than one kept, and exactly the first bars of the stable descending sort, so ties are cut in input order |
| Aggregates.TopKeepsFirstTies | js/graphs.js:242 | of the bars with any one value, `Top` keeps the ones the input lists first |
| Aggregates.TopYears | test/js/graphs-section.js:109 | the years bar chart: the top 25 of the series (all when fewer), descending, drawn from the series, no bar left out higher than one kept, and the first 25 of the stable descending sort, so tied years are kept in series order |
| Aggregates.AllowedKeywords | test/js/graphs-section.js:255-259 | a keyword is allowed exactly when some selected known group lists it |
| Aggregates.Bump | test/js/graphs-section.js:268-269 | the table gains `w` at the key (created at 0 when absent); every other key is unchanged; keys stay distinct |
| Aggregates.AddTagsLookup | test/js/graphs-section.js:264-270 | after one record's tags, a counted key holds its old total plus the record's weight for each occurrence |
| Aggregates.Tally | test/js/graphs-section.js:261-272 | the weather table has distinct keys |
| Aggregates.TallyMeaning | test/js/graphs-section.js:261-272 | a key is in the table exactly when it is allowed and some record has it, and its total is the summed weight of its occurrences |
| Aggregates.TaggedRecords | test/js/graphs-section.js:262-269 | each record contributes its trimmed lower-cased tags with weight 1 or its fatal count |
| Aggregates.WeatherBars | test/js/graphs-section.js:274-277 | the top 25 labelled tally entries (all when fewer), descending, each a capitalised entry, no entry left out higher than one kept, and the first 25 of the stable descending sort, so tied entries are kept in tally order |
| Aggregates.WeatherChart | test/js/graphs-section.js:254-279 | at most 25 bars, highest first; every bar is a counted key some shown record's tag falls under, labelled with the key capitalised and valued at the key's reference total |
| Scatter.MentionsAny | js/scatterplot.js:22-28 | a literal alternation matches exactly when one word occurs |
| Scatter.FirstFiring | js/scatterplot.js:22-29 | no category exactly when no rule fires; otherwise a rule's category |
| Scatter.FirstFiringAt | js/scatterplot.js:22-29 | the first rule that fires decides the category |
| Scatter.Categorize | js/scatterplot.js:19-20 | an empty or missing description is `Other` |
| Scatter.CategorizeFirstMatch | js/scatterplot.js:19-30 | a description gets the category of the first rule it matches |
| Scatter.CategorizeOther | js/scatterplot.js:19-30 | a description is `Other` exactly when no rule matches |
| Scatter.ThunderstormRainIsSevere | js/scatterplot.js:22-23 | `thunderstorm rain` is severe, not rain: rule order matters |
| Scatter.RainIsSevereOrRain | js/scatterplot.js:22-23 | a description mentioning rain is severe or rain |
| Scatter.CloudyAlternativeRedundant | js/scatterplot.js:27 | the `cloudy` alternative adds nothing to `cloud` |
| Scatter.CategoryName | js/scatterplot.js:19-30 | every category prints as one of the eight names |
| Scatter.CategoryNameInjective | js/scatterplot.js:19-30 | distinct categories print differently |
| Scatter.Legend | js/scatterplot.js:77 | the legend is strictly sorted and lists exactly the names of the categories present |
| Scatter.ColumnSample | js/scatterplot.js:64-71 | precipitation, wind, cloud and pressure are each `parseNum` of their detected column (`null` without one); the temperature is the average rule on maximum and minimum |
| Scatter.MeasuredSample | js/graphs.js:356-375 | the graphs matrix plots the five measurements its records carry |
| Scatter.SharedSample | test/js/graphs-section.js:329-341 | for a shared record, each value is `parseNum` of its raw `Precipitation`, `Wind_Max`, `Cloud_Cover` or `Pressure` cell, and the temperature is the average rule on `Temp_Max` and `Temp_Min`; nothing without raw cells |
| Scatter.GraphsRecordsKeepSample | js/graphs.js:975-981 | the graphs page's stored measurements equal what the scatterplot page computes from the same row |
| Scatter.SharedSampleMatchesColumns | test/js/graphs-section.js:329-341 | with the six fixed column names detected, the graphs section and the scatterplot page compute the same values |
| Scatter.Plotted | test/js/graphs-section.js:342 | a sample is kept exactly when one of its five values is present; every copy is kept, in order |
| Scatter.CellSamples | js/scatterplot.js:118 | a cell's points are exactly the samples with both of its values, every copy, in sample order |
| Scatter.PlottedKeepsEveryCell | test/js/graphs-section.js:342-413 | dropping samples without any value loses no point of any cell |
| Scatter.XValues | test/js/graphs-section.js:412-413 | one value per point, in order, the point's value of the variable |
| Scatter.Present | js/scatterplot.js:97 | exactly the present values |
| Scatter.Extent | js/scatterplot.js:97-99 | the axis domain is a proper interval containing every value; `[0, 1]` when there are none |
| Scatter.ExtentOfSpreadValues | js/scatterplot.js:98 | with two different values the domain ends are attained values |
| Scatter.ExtentOfConstant | js/scatterplot.js:99 | a single distinct value `c` gives the domain `[c - 1, c + 1]` |
| Correlation.Pearson | test/js/graphs-section.js:388-402 | a defined correlation has a positive product under the root |
| Correlation.PearsonCorr | test/js/graphs-section.js:388-402 | the loop gives the reference result, which is NaN exactly for no pairs or a constant side |
| Correlation.Accumulate | js/graphs.js:420-427 | the loop accumulates the cross sum and both sums of squared deviations |
| Correlation.SqDevZero | js/graphs.js:428 | the squared deviations vanish exactly when every value equals the mean |
| Correlation.SpreadZero | js/graphs.js:428 | zero spread around the mean exactly for a constant list |
| Correlation.PearsonNaN | js/graphs.js:415-429 | the correlation is NaN exactly for an empty sample or a constant side |
| Correlation.CellText | js/graphs.js:450 | the cell text is empty exactly for NaN |
| Correlation.BlankCell | test/js/graphs-section.js:411-425 | a correlation cell is blank exactly when it has no pairs or one side is constant |
| ChartControls.Initial | test/js/graphs-section.js:6-8 | the section starts on the line chart, the years axis and crashes |
| ChartControls.SectionUpdate | test/js/graphs-section.js:54-80 | the disabled flags fit the chart; the weather axis under a line chart, and only then, falls back to years |
| ChartControls.SectionSelectChart | test/js/graphs-section.js:43-51 | choosing a chart records it and leaves the controls consistent |
| ChartControls.SectionClickBottom | test/js/graphs-section.js:32-40 | a bottom-axis click takes effect exactly when its button is enabled |
| ChartControls.SectionClickAxis | test/js/graphs-section.js:22-29 | a value-axis click always takes effect |
| ChartControls.PageUpdate | js/graphs.js:716-737 | the graphs page's button update keeps the chart and the value axis |
| ChartControls.PageSelectChart | js/graphs.js:739-746 | choosing a chart on the graphs page records it |
| ChartControls.PageClickBottom | js/graphs.js:748-759 | a bottom-axis click keeps the chart and value axis |
| ChartControls.PageClickAxis | js/graphs.js:794-805 | a value-axis click takes effect exactly when its buttons are enabled |
| ChartControls.SelectChartAgrees | js/graphs.js:716-746 | both pages leave the same controls after choosing a chart |
| ChartControls.ClickBottomKeepsConsistent | test/js/graphs-section.js:32-40 | bottom-axis clicks keep the controls consistent, and both pages agree on them |
| ChartControls.ClickAxisKeepsConsistent | test/js/graphs-section.js:22-29 | value-axis clicks keep the controls consistent on both pages |
| ChartControls.AxisClickUnderMatrixDiffers | test/js/graphs-section.js:22-29 | under the matrix the section's value-axis buttons still switch, the graphs page's do not |
| ChartControls.Render | test/js/graphs-section.js:82-119 | with the groups read from the state: the line chart draws the window's year series; the years bar chart its top 25; the weather bars, exactly for a bar chart on the weather axis, are the weather chart of the shown records for those groups; the matrix, exactly for the matrix chart, is drawn from the shown records against all data |
| ChartControls.YearBarsInWindow | test/js/graphs-section.js:107-110 | the years bar chart holds the 25 highest years of the window (all when the window is shorter), highest first, each at its year's total; no year left out is higher than one drawn, and tied years are kept in year order, being a prefix of the stable descending sort |
| ChartControls.WeatherOnlyAsBars | test/js/graphs-section.js:54-113 | with consistent controls the weather axis is drawn only as bars or not at all |
| MapFilter.ChainIsConjunction | mapfilter.js:630-657 | the four filters applied in turn keep exactly the records all clauses admit |
| MapFilter.DrawDots | mapfilter.js:626-673 | nothing is drawn for `{}`; otherwise the dots are exactly the admitted records in order, and the routes exactly the dots with start coordinates when routes are on |
| MapFilter.DotsAreFiltered | js/mapfilter.js:532-546 | the copy's dots are the records the single conjunction admits |
| MapFilter.MapRecords | mapfilter.js:134-228 | exactly the parsed rows passing the row filter, every copy, in table order |
| MapFilter.AllTags | mapfilter.js:348-352 | the collected tags are exactly those of some record |
| MapFilter.ConditionList | mapfilter.js:348-353 | the checkbox list is strictly sorted and holds exactly the tags that occur |
| MapFilter.InitFilters | mapfilter.js:240-360 | the initial filters take the year sliders' values, span the smallest to the largest aboard count (0 to 0 without any), 0 to 100 percent, show routes, and hold an empty condition selection exactly when there are conditions to list |
| MapFilter.LoadMap | mapfilter.js:88-132 | no page exactly for an empty table or a missing lat/lon/date column; otherwise the records are the accepted map rows, the condition list is their sorted distinct tags, with the initial filters and data flags derived from them |
| MapFilter.MissingColumnDrawsNothing | js/mapfilter.js:112-115 | with a missing column the page stops and `drawDots` draws nothing |
| MapFilter.InitialDots | mapfilter.js:626-657 | initially the dots are exactly the records in the year window with an aboard count and a percentage in 0..100 |
| MapFilter.InitialAdmits | js/mapfilter.js:536-541 | the same, one record at a time |
| MapFilter.NoAboardShowsNothing | mapfilter.js:633-638 | when no record has an aboard count, the map shows nothing |
| MapFilter.ToggleRoutes | mapfilter.js:338-344 | the toggle flips whether routes are shown |
| MapFilter.ToggleTwice | mapfilter.js:335-345 | toggling twice restores the filters; the dots never change; routes vanish or return as the filtered dots with start coordinates |
| MapFilter.CheckCondition | mapfilter.js:375-379 | the checked condition is in the selection exactly when checked; the others and the rest of the filters are unchanged |
| MapFilter.CheckNarrows | mapfilter.js:650-656 | checking a condition keeps exactly the dots that carry it verbatim |
| MapFilter.CheckAdmits | js/mapfilter.js:544-546 | under one more checked condition a record is admitted exactly when it was and carries the condition |
| MapFilter.UncheckUndoes | mapfilter.js:375-379 | checking and unchecking an unchecked condition restores the filters |
| MapFilter.UpdateYear | mapfilter.js:387-399 | the year window stored is `OrderYears(start, end)`, so a start thumb past the end thumb moves to the end thumb's year; the rest is unchanged |
| MapFilter.UpdateYearStable | mapfilter.js:387-399 | repeating the handler on its own result changes nothing |
| MapFilter.CrossedYearsShowOneYear | mapfilter.js:387-399 | with the thumbs crossed only the end year is shown |
| MapFilter.WiderYearsShowMore | mapfilter.js:630-632 | a wider year window never hides a dot |
| MapFilter.StripPrefix | mapfilter.js:532 | `replace(/^start/, "")`: the prefix is removed when present, the text kept otherwise |
| MapFilter.SetByKey | mapfilter.js:532-543 | `filters[key] = v` sets exactly the named window property |
| MapFilter.SliderKeys | mapfilter.js:605-622 | the four slider ids derive the keys `aboardStart`, `aboardEnd`, `fatalStart`, `fatalEnd` |
| MapFilter.AboardThumbs | mapfilter.js:523-546 | with aboard data the aboard thumbs store the capped start or raised end; without it they change nothing |
| MapFilter.FatalThumbs | mapfilter.js:523-546 | the same for the percentage thumbs |
| MapFilter.FromState | mapfilter.js:294-302 | a shared state read as map filters is never `{}` |
| MapFilter.MapWithinShared | mapfilter.js:630-646 | without checked conditions the map's dots are a subsequence of the shared engine's records |
| MapFilter.MapAgreesWithShared | mapfilter.js:630-646 | with aboard and percentage data present the two agree |
| MapFilter.MissingAboardDiverges | mapfilter.js:633-638 | without aboard data a record without a count is shown by the shared engine but not by the map |

## Left out

- Floating point: numbers are exact reals. IEEE rounding, overflow to `Infinity`, `Math.sqrt` and `toFixed` are not modelled. A defined correlation is kept as its numerator and the product under the root, and the cell's number formatting is a parameter.
- `new Date(s).getFullYear()` is the parameter `YearOf`; date parsing is not modelled.
- `toLowerCase` and `toUpperCase` map ASCII letters only.
- `Object.keys` order is taken to be the header order, as `d3.dsv` produces it.
- The DOM is not modelled, and neither is anything drawn: SVG, scales, `nice()`, tick placement, z-index, labels, the map projection, route curve geometry, tooltips, resize timers, and the scatterplot page's draw and redraw.
- `parseInt`/`parseFloat` of slider element values are not modelled: handlers receive the thumb values as numbers.
- For an empty table the shared engine keeps `+Infinity`/`-Infinity` year bounds. The model uses an empty window (`yearMin > yearMax`) instead; both admit no record.
- `Array.isArray(d.conditions)` always holds: every page builds `conditions` as an array.
- The initial `active`/`disabled` button flags come from the HTML and are parameters of `ChartControls.Initial`.
- The initial year slider values on the map page come from the HTML and are parameters of `MapFilter.InitFilters`.
- The map page's `filters.conditionsSelected` is `undefined` when no record has a tag. It is modelled as `None`, and the checkbox operations require a selection.
- MapFilter.SetByKey: only the four keys the slider ids derive are modelled; other keys are never written.
- Scatter.MeasuredSample: it takes the graphs page's stored numbers as they are. The graphs matrix re-reads them through `detectCols`, the `temp` key fallback and `parseNum` of their printed form, which gives back the same number only for plain decimal notation.
- The graphs matrix's temperature fallback to any key containing `temp` (js/graphs.js lines 336-342 and 363-369) is not modelled: every graphs record already carries `Temp_Avg`.
- `render()` of the graphs page (js/graphs.js lines 180-285) is modelled through the graphs section's `render`, which computes the same series and bars. The graphs page reads its weather groups from the checked boxes, the section from the state.
- Text.StrLess: compares characters as Unicode scalar values; JavaScript's default `sort()` compares UTF-16 code units, so a character above U+FFFF sorts after one in U+E000..U+FFFF here and before it in JavaScript.
- Aggregates.Tally: keeps keys in first-seen order. `Object.entries` puts integer-like keys such as "1" or "20" first, in ascending order. That order breaks ties in the stable sort and so decides which tied entries survive `slice(0, 25)`.
- Aggregates.WeatherChart: states which bars can appear and their values, not how many; the count is the number of distinct counted keys, capped at 25.
- `js/menu-hint.js`, `js/map-section.js`, `test/js/navigation.js`, `test/js/scroll-hint.js` and `test/js/filter-dropdown.js` are page plumbing and are not part of this model.

=== FILE: aggregates.dfy ===
/**
 * The chart data derived from the filtered records: the zero-filled per-year series (crash
 * count or fatality sum), bar lists sorted by descending value and cut to the top 25, and
 * the weather-tag tally behind the weather bar chart.
 */
module Aggregates {
  import opened Wrappers
  import opened Seqs
  import opened Text
  import opened Numbers
  import opened Conditions
  import opened Records
  import opened SharedFilters

  /** The vertical axis: crash count or fatality sum. */
  datatype Axis = Crashes | Fatalities

  /** `d.fatal || 0`: null and NaN count as zero. */
  function FatalOrZero(n: Num): real {
    if n.Val? then n.v else 0.0
  }

  /** What one record adds to its year or tag. */
  function Weight(axis: Axis, r: Record): real {
    if axis == Crashes then 1.0 else FatalOrZero(r.fatal)
  }

  /** `rollup(...).get(y) || 0`: the total weight of the records dated in year `y`. */
  function YearTotal(xs: seq<Record>, y: int, axis: Axis): real
    decreases |xs|
  {
    if |xs| == 0 then 0.0
    else YearTotal(xs[..|xs| - 1], y, axis) + (if xs[|xs| - 1].year == Some(y) then Weight(axis, xs[|xs| - 1]) else 0.0)
  }

  /** The total weight of the records dated within `[s, e]`. */
  function WindowTotal(xs: seq<Record>, s: int, e: int, axis: Axis): real
    decreases |xs|
  {
    if |xs| == 0 then 0.0
    else
      var x := xs[|xs| - 1];
      WindowTotal(xs[..|xs| - 1], s, e, axis) + (if x.year.Some? && s <= x.year.value <= e then Weight(axis, x) else 0.0)
  }

  /** A bar's label: a year or a weather tag. */
  datatype Label = YearLabel(year: int) | TagLabel(text: string)

  /** A bar: its label and its height. */
  datatype Bar = Bar(name: Label, value: real)

  /** The heights of a list of bars. */
  function Values(bs: seq<Bar>): (r: seq<real>)
    ensures |r| == |bs| && forall i :: 0 <= i < |bs| ==> r[i] == bs[i].value
  {
    seq(|bs|, i requires 0 <= i < |bs| => bs[i].value)
  }

  /**
   * The year series: one bar per year from `start` to `end` inclusive, ascending, each the
   * total for its year and zero where no record falls.
   */
  function YearSeries(xs: seq<Record>, start: int, end: int, axis: Axis): (r: seq<Bar>)
    ensures |r| == if start <= end then end - start + 1 else 0
    ensures forall i :: 0 <= i < |r| ==> r[i].name == YearLabel(start + i)
    ensures forall i :: 0 <= i < |r| ==> r[i].value == YearTotal(xs, start + i, axis)
  {
    if end < start then []
    else seq(end - start + 1, i requires 0 <= i < end - start + 1 => Bar(YearLabel(start + i), YearTotal(xs, start + i, axis)))
  }

  /** The window `[s, e]` totals the window `[s, e - 1]` plus year `e`. */
  lemma {:induction false} WindowStep(xs: seq<Record>, s: int, e: int, axis: Axis)
    requires s <= e
    ensures WindowTotal(xs, s, e, axis) == WindowTotal(xs, s, e - 1, axis) + YearTotal(xs, e, axis)
    decreases |xs|
  {
    if |xs| > 0 {
      WindowStep(xs[..|xs| - 1], s, e, axis);
    }
  }

  /** An empty window totals zero. */
  lemma {:induction false} EmptyWindow(xs: seq<Record>, s: int, axis: Axis)
    ensures WindowTotal(xs, s, s - 1, axis) == 0.0
    decreases |xs|
  {
    if |xs| > 0 {
      EmptyWindow(xs[..|xs| - 1], s, axis);
    }
  }

  /** The series' bars add up to the total of every record dated within the window. */
  lemma {:induction false} SeriesSum(xs: seq<Record>, start: int, end: int, axis: Axis)
    requires start <= end + 1
    ensures Sum(Values(YearSeries(xs, start, end, axis))) == WindowTotal(xs, start, end, axis)
    decreases end - start
  {
    if end < start {
      EmptyWindow(xs, start, axis);
    } else {
      var r := YearSeries(xs, start, end, axis);
      var p := YearSeries(xs, start, end - 1, axis);
      assert Values(r) == Values(p) + [YearTotal(xs, end, axis)];
      SumConcat(Values(p), [YearTotal(xs, end, axis)]);
      SeriesSum(xs, start, end - 1, axis);
      WindowStep(xs, start, end, axis);
    }
  }

  /** When every record is dated inside the window, the count-mode window total is the record count. */
  lemma {:induction false} WindowCountsAll(xs: seq<Record>, s: int, e: int)
    requires forall i :: 0 <= i < |xs| ==> xs[i].year.Some? && s <= xs[i].year.value <= e
    ensures WindowTotal(xs, s, e, Crashes) == |xs| as real
    decreases |xs|
  {
    if |xs| > 0 {
      WindowCountsAll(xs[..|xs| - 1], s, e);
    }
  }

  /**
   * The crash-count series over the state's year window adds up to the number of records the
   * views show: every shown record is dated, and dated within the window.
   */
  lemma SeriesCountsShownRecords(st: State, b: Bounds, data: seq<Record>)
    requires st.yearStart <= st.yearEnd
    requires forall i :: 0 <= i < |data| ==> YearTruthy(data[i].year)
    ensures Sum(Values(YearSeries(GetFiltered(st, b, data), st.yearStart, st.yearEnd, Crashes)))
         == |GetFiltered(st, b, data)| as real
  {
    var shown := GetFiltered(st, b, data);
    forall i | 0 <= i < |shown|
      ensures shown[i].year.Some? && st.yearStart <= shown[i].year.value <= st.yearEnd
    {
      assert shown[i] in shown;
      var k :| 0 <= k < |data| && data[k] == shown[i];
    }
    WindowCountsAll(shown, st.yearStart, st.yearEnd);
    SeriesSum(shown, st.yearStart, st.yearEnd, Crashes);
  }

  // ---------------------------------------------------------------------------------------
  // Descending sort and the top 25

  /** Descending by value. */
  predicate SortedDesc(bs: seq<Bar>) {
    forall i, j :: 0 <= i < j < |bs| ==> bs[i].value >= bs[j].value
  }

  /** Insert `x` before the first bar it is at least as high as. */
  function Insert(x: Bar, ys: seq<Bar>): (r: seq<Bar>)
    requires SortedDesc(ys)
    ensures SortedDesc(r)
    ensures forall b :: b in r <==> b in ys || b == x
    ensures multiset(r) == multiset(ys) + multiset{x}
    decreases |ys|
  {
    if |ys| == 0 then [x]
    else if x.value >= ys[0].value then
      HeadIsHighest(ys);
      ConsSorted(x, ys);
      [x] + ys
    else
      var rest := Insert(x, ys[1..]);
      assert ys == [ys[0]] + ys[1..];
      HeadIsHighest(ys);
      ConsSorted(ys[0], rest);
      [ys[0]] + rest
  }

  /** The first bar of a descending list is the highest. */
  lemma HeadIsHighest(ys: seq<Bar>)
    requires SortedDesc(ys) && |ys| > 0
    ensures forall b :: b in ys ==> b.value <= ys[0].value
  {
    forall b | b in ys
      ensures b.value <= ys[0].value
    {
      var j :| 0 <= j < |ys| && ys[j] == b;
    }
  }

  /** A bar at least as high as every bar of a descending list can go in front. */
  lemma ConsSorted(h: Bar, rest: seq<Bar>)
    requires SortedDesc(rest)
    requires forall b :: b in rest ==> b.value <= h.value
    ensures SortedDesc([h] + rest)
  {
    var r := [h] + rest;
    forall i, j | 0 <= i < j < |r|
      ensures r[i].value >= r[j].value
    {
      assert r[j] == rest[j - 1];
      if i > 0 {
        assert r[i] == rest[i - 1];
      } else {
        assert rest[j - 1] in rest;
      }
    }
  }

  /**
   * `sort((a, b) => b.value - a.value)`: a stable sort by descending value. Each bar is
   * inserted into the sorted rest, ahead of the bars of equal value that follow it.
   */
  function SortDesc(xs: seq<Bar>): (r: seq<Bar>)
    ensures SortedDesc(r)
    ensures multiset(r) == multiset(xs)
    decreases |xs|
  {
    if |xs| == 0 then []
    else
      assert xs == [xs[0]] + xs[1..];
      Insert(xs[0], SortDesc(xs[1..]))
  }

  function HasValue(v: real): Bar -> bool {
    (b: Bar) => b.value == v
  }

  /** Inserting keeps `x` ahead of the bars of its value and the others in their order. */
  lemma {:induction false} InsertStable(x: Bar, ys: seq<Bar>, v: real)
    requires SortedDesc(ys)
    ensures Filter(Insert(x, ys), HasValue(v)) == (if x.value == v then [x] else []) + Filter(ys, HasValue(v))
    decreases |ys|
  {
    if |ys| == 0 {
      FilterCons(x, [], HasValue(v));
    } else if x.value >= ys[0].value {
      FilterCons(x, ys, HasValue(v));
    } else {
      InsertStable(x, ys[1..], v);
      InsertBelowHead(x, ys, v);
    }
  }

  /** A bar lower than the head is inserted into the tail. */
  lemma InsertUnderHead(x: Bar, ys: seq<Bar>)
    requires SortedDesc(ys) && |ys| > 0 && x.value < ys[0].value
    ensures SortedDesc(ys[1..])
    ensures Insert(x, ys) == [ys[0]] + Insert(x, ys[1..])
  {
  }

  /** Inserting below the head: the head, higher than `x`, is never a bar of `x`'s value. */
  lemma InsertBelowHead(x: Bar, ys: seq<Bar>, v: real)
    requires SortedDesc(ys) && |ys| > 0 && x.value < ys[0].value
    requires Filter(Insert(x, ys[1..]), HasValue(v)) == (if x.value == v then [x] else []) + Filter(ys[1..], HasValue(v))
    ensures Filter(Insert(x, ys), HasValue(v)) == (if x.value == v then [x] else []) + Filter(ys, HasValue(v))
  {
    var tail := ys[1..];
    InsertUnderHead(x, ys);
    assert ys == [ys[0]] + tail;
    SameHead(ys[0], Insert(x, tail), tail, if x.value == v then [x] else [], HasValue(v));
  }

  /**
   * Putting the same bar in front of two lists keeps a relation between their filtered forms,
   * provided the extra bars `pre` vanish whenever the head passes.
   */
  lemma SameHead(h: Bar, a: seq<Bar>, b: seq<Bar>, pre: seq<Bar>, hv: Bar -> bool)
    requires Filter(a, hv) == pre + Filter(b, hv)
    requires hv(h) ==> pre == []
    ensures Filter([h] + a, hv) == pre + Filter([h] + b, hv)
  {
    FilterCons(h, a, hv);
    FilterCons(h, b, hv);
    if hv(h) {
      assert pre + Filter(b, hv) == Filter(b, hv);
    } else {
      assert [] + Filter(b, hv) == Filter(b, hv);
    }
  }

  /** The sort is stable: among bars of the same value, the input order is kept. */
  lemma {:induction false} SortStable(xs: seq<Bar>, v: real)
    ensures Filter(SortDesc(xs), HasValue(v)) == Filter(xs, HasValue(v))
    decreases |xs|
  {
    if |xs| > 0 {
      SortStable(xs[1..], v);
      InsertStable(xs[0], SortDesc(xs[1..]), v);
    }
  }

  /**
   * `sort(...).slice(0, n)`: the `n` highest bars, descending. No bar left out is higher
   * than a bar kept.
   */
  function Top(xs: seq<Bar>, n: nat): (r: seq<Bar>)
    ensures |r| == if n < |xs| then n else |xs|
    ensures SortedDesc(r)
    ensures multiset(r) <= multiset(xs)
    ensures forall b, a :: b in xs && b !in r && a in r ==> b.value <= a.value
    ensures r == SortDesc(xs)[..|r|]
  {
    var s := SortDesc(xs);
    PrefixKeepsHighest(s, xs, |Take(s, n)|);
    Take(s, n)
  }

  /**
   * Ties are cut in input order: of the bars with any one value, `Top` keeps the first ones
   * the input lists.
   */
  lemma TopKeepsFirstTies(xs: seq<Bar>, n: nat, v: real)
    ensures var kept := Filter(Top(xs, n), HasValue(v));
      |kept| <= |Filter(xs, HasValue(v))| && kept == Filter(xs, HasValue(v))[..|kept|]
  {
    var s := SortDesc(xs);
    var r := Top(xs, n);
    assert s == r + s[|r|..];
    FilterConcat(r, s[|r|..], HasValue(v));
    SortStable(xs, v);
  }

  /** The first `k` bars of a descending reordering of `xs` are the highest of `xs`. */
  lemma PrefixKeepsHighest(s: seq<Bar>, xs: seq<Bar>, k: nat)
    requires SortedDesc(s) && multiset(s) == multiset(xs) && k <= |s|
    ensures multiset(s[..k]) <= multiset(xs)
    ensures forall b, a :: b in xs && b !in s[..k] && a in s[..k] ==> b.value <= a.value
  {
    PrefixMultiset(s, k);
    forall b, a | b in xs && b !in s[..k] && a in s[..k]
      ensures b.value <= a.value
    {
      assert b in multiset(s);
      PrefixIsHighest(s, k, b, a);
    }
  }

  /** A prefix's elements are among the whole list's. */
  lemma PrefixMultiset(s: seq<Bar>, n: nat)
    requires n <= |s|
    ensures multiset(s[..n]) <= multiset(s)
  {
    assert s == s[..n] + s[n..];
  }

  /** In a descending list, a bar outside the first `n` is no higher than one inside them. */
  lemma PrefixIsHighest(s: seq<Bar>, n: nat, b: Bar, a: Bar)
    requires SortedDesc(s) && n <= |s|
    requires b in s && b !in s[..n] && a in s[..n]
    ensures b.value <= a.value
  {
    var k :| 0 <= k < |s| && s[k] == b;
    var i :| 0 <= i < n && s[..n][i] == a;
    assert forall j :: 0 <= j < n ==> s[..n][j] == s[j];
  }

  /** The years bar list: the top 25 of the year series. */
  function TopYears(series: seq<Bar>): (r: seq<Bar>)
    ensures |r| == if 25 < |series| then 25 else |series|
    ensures SortedDesc(r)
    ensures multiset(r) <= multiset(series)
    ensures forall b :: b in r ==> b in series
    ensures forall b, a :: b in series && b !in r && a in r ==> b.value <= a.value
    ensures r == SortDesc(series)[..|r|]
  {
    var r := Top(series, 25);
    forall b | b in r
      ensures b in series
    {
      assert b in multiset(r);
    }
    r
  }

  // ---------------------------------------------------------------------------------------
  // Weather-tag tally

  /** `cond.trim().toLowerCase()`: the key a tag is counted under. */
  function TagKey(t: string): string {
    Lower(Trim(t))
  }

  /** The keywords of the group, or none for a name outside the six. */
  function KeywordsOf(g: string): seq<string> {
    GroupKeywords(g).GetOr([])
  }

  /** `allowed.concat(groupMap[g])` over the selected groups, in order; unknown groups add nothing. */
  function AllowedKeywords(groups: seq<string>): (r: seq<string>)
    ensures forall k :: k in r <==> exists i :: 0 <= i < |groups| && k in KeywordsOf(groups[i])
    decreases |groups|
  {
    if |groups| == 0 then []
    else
      var p := groups[..|groups| - 1];
      var r := AllowedKeywords(p) + KeywordsOf(groups[|groups| - 1]);
      assert forall i :: 0 <= i < |p| ==> p[i] == groups[i];
      r
  }

  /** A key is counted when non-empty and, if any keyword is allowed, one of them. */
  predicate Counted(allowed: seq<string>, k: string) {
    |k| > 0 && (|allowed| == 0 || k in allowed)
  }

  /** A tally entry: `conditionCounts[key]`. */
  datatype Entry = Entry(key: string, value: real)

  /** `conditionCounts[k]`, absent when never set. */
  function Lookup(t: seq<Entry>, k: string): Option<real>
    decreases |t|
  {
    if |t| == 0 then None
    else if t[0].key == k then Some(t[0].value)
    else Lookup(t[1..], k)
  }

  /** No key twice. */
  predicate KeysDistinct(t: seq<Entry>) {
    forall i, j :: 0 <= i < j < |t| ==> t[i].key != t[j].key
  }

  /** Create the entry at 0 if absent, then add `w`; a new key goes last. */
  function Bump(t: seq<Entry>, k: string, w: real): (r: seq<Entry>)
    ensures forall q :: Lookup(r, q) == if q == k then Some(Lookup(t, k).GetOr(0.0) + w) else Lookup(t, q)
    ensures KeysDistinct(t) ==> KeysDistinct(r)
    decreases |t|
  {
    if |t| == 0 then [Entry(k, w)]
    else if t[0].key == k then [Entry(k, t[0].value + w)] + t[1..]
    else
      var rest := Bump(t[1..], k, w);
      assert KeysDistinct(t) ==> forall j :: 0 <= j < |rest| ==> rest[j].key != t[0].key by {
        if KeysDistinct(t) {
          HeadNotInTail(t);
          forall j | 0 <= j < |rest|
            ensures rest[j].key != t[0].key
          {
            KeyPresent(rest, j);
          }
        }
      }
      [t[0]] + rest
  }

  /** A key held at some position can be looked up. */
  lemma {:induction false} KeyPresent(t: seq<Entry>, j: nat)
    requires j < |t|
    ensures Lookup(t, t[j].key).Some?
    decreases |t|
  {
    if j > 0 && t[0].key != t[j].key {
      KeyPresent(t[1..], j - 1);
    }
  }

  /** With distinct keys, the head's key is not found again in the tail. */
  lemma HeadNotInTail(t: seq<Entry>)
    requires |t| > 0 && KeysDistinct(t)
    ensures Lookup(t[1..], t[0].key).None?
  {
    assert forall m :: 0 <= m < |t[1..]| ==> t[1..][m] == t[m + 1];
    LookupAbsent(t[1..], t[0].key);
  }

  /** A key held at no position is not found. */
  lemma {:induction false} LookupAbsent(t: seq<Entry>, k: string)
    requires forall m :: 0 <= m < |t| ==> t[m].key != k
    ensures Lookup(t, k).None?
    decreases |t|
  {
    if |t| > 0 {
      assert forall m :: 0 <= m < |t[1..]| ==> t[1..][m] == t[m + 1];
      LookupAbsent(t[1..], k);
    }
  }

  /** A record as the tally sees it: the keys of its tags, in order, and the weight each adds. */
  datatype Tagged = Tagged(tags: seq<string>, w: real)

  /** The keys of a record's tags. */
  function KeysOf(tags: seq<string>): (r: seq<string>)
    ensures |r| == |tags| && forall i :: 0 <= i < |tags| ==> r[i] == TagKey(tags[i])
  {
    seq(|tags|, i requires 0 <= i < |tags| => TagKey(tags[i]))
  }

  /** What the tags falling under key `k` add, `w` each. */
  function TagTotal(tags: seq<string>, k: string, w: real): real
    decreases |tags|
  {
    if |tags| == 0 then 0.0
    else TagTotal(tags[..|tags| - 1], k, w) + (if tags[|tags| - 1] == k then w else 0.0)
  }

  /** Some tag falls under key `k`. */
  predicate HasKey(tags: seq<string>, k: string) {
    exists i :: 0 <= i < |tags| && tags[i] == k
  }

  /** One record's tags, counted in order, each adding `w`. */
  function AddTags(t: seq<Entry>, tags: seq<string>, allowed: seq<string>, w: real): (r: seq<Entry>)
    ensures KeysDistinct(t) ==> KeysDistinct(r)
    decreases |tags|
  {
    if |tags| == 0 then t
    else
      var t1 := AddTags(t, tags[..|tags| - 1], allowed, w);
      var k := tags[|tags| - 1];
      if Counted(allowed, k) then Bump(t1, k, w) else t1
  }

  /** Counting a record's tags adds `w` under each counted key once per tag falling under it. */
  lemma {:induction false} AddTagsLookup(t: seq<Entry>, tags: seq<string>, allowed: seq<string>, w: real, k: string)
    ensures Lookup(AddTags(t, tags, allowed, w), k) == TagsLookup(t, tags, allowed, w, k)
    decreases |tags|
  {
    if |tags| > 0 {
      AddTagsLookup(t, tags[..|tags| - 1], allowed, w, k);
      AddTagsLookupStep(t, tags, allowed, w, k);
    }
  }

  /** What counting `tags` leaves under `k`: the old value plus the tags' total, if any falls under it. */
  function TagsLookup(t: seq<Entry>, tags: seq<string>, allowed: seq<string>, w: real, k: string): Option<real> {
    if Counted(allowed, k) && HasKey(tags, k) then Some(Lookup(t, k).GetOr(0.0) + TagTotal(tags, k, w))
    else Lookup(t, k)
  }

  /** One more tag: the lookup of the longer list follows from that of its prefix. */
  lemma AddTagsLookupStep(t: seq<Entry>, tags: seq<string>, allowed: seq<string>, w: real, k: string)
    requires |tags| > 0
    requires Lookup(AddTags(t, tags[..|tags| - 1], allowed, w), k) == TagsLookup(t, tags[..|tags| - 1], allowed, w, k)
    ensures Lookup(AddTags(t, tags, allowed, w), k) == TagsLookup(t, tags, allowed, w, k)
  {
    var p := tags[..|tags| - 1];
    var last := tags[|tags| - 1];
    var t1 := AddTags(t, p, allowed, w);
    HasKeySnoc(tags, k);
    assert TagTotal(tags, k, w) == TagTotal(p, k, w) + (if last == k then w else 0.0);
    if last != k {
      assert Lookup(AddTags(t, tags, allowed, w), k) == Lookup(t1, k);
    } else if Counted(allowed, k) {
      assert Lookup(AddTags(t, tags, allowed, w), k) == Some(Lookup(t1, k).GetOr(0.0) + w);
      if !HasKey(p, k) {
        NoKeyNoTotal(p, k, w);
      }
    } else {
      assert AddTags(t, tags, allowed, w) == t1;
    }
  }

  /** Some tag falls under `k` exactly when some earlier tag does or the last one does. */
  lemma HasKeySnoc(tags: seq<string>, k: string)
    requires |tags| > 0
    ensures HasKey(tags, k) <==> HasKey(tags[..|tags| - 1], k) || tags[|tags| - 1] == k
  {
    var p := tags[..|tags| - 1];
    if HasKey(tags, k) && tags[|tags| - 1] != k {
      var i :| 0 <= i < |tags| && tags[i] == k;
      assert p[i] == tags[i];
    }
    if HasKey(p, k) {
      var i :| 0 <= i < |p| && p[i] == k;
      assert tags[i] == p[i];
    }
  }

  /** Tags with nothing under `k` add nothing under `k`. */
  lemma {:induction false} NoKeyNoTotal(tags: seq<string>, k: string, w: real)
    requires !HasKey(tags, k)
    ensures TagTotal(tags, k, w) == 0.0
    decreases |tags|
  {
    if |tags| > 0 {
      HasKeySnoc(tags, k);
      NoKeyNoTotal(tags[..|tags| - 1], k, w);
    }
  }

  /** The tally over all records: `conditionCounts`, keys in first-seen order. */
  function Tally(xs: seq<Tagged>, allowed: seq<string>): (r: seq<Entry>)
    ensures KeysDistinct(r)
    decreases |xs|
  {
    if |xs| == 0 then []
    else
      var x := xs[|xs| - 1];
      AddTags(Tally(xs[..|xs| - 1], allowed), x.tags, allowed, x.w)
  }

  /** Some record has a tag falling under key `k`. */
  predicate AnyHasKey(xs: seq<Tagged>, k: string) {
    exists i :: 0 <= i < |xs| && HasKey(xs[i].tags, k)
  }

  /** The reference total for key `k`: each record's weight once per tag falling under `k`. */
  function KeyTotal(xs: seq<Tagged>, k: string): real
    decreases |xs|
  {
    if |xs| == 0 then 0.0
    else KeyTotal(xs[..|xs| - 1], k) + TagTotal(xs[|xs| - 1].tags, k, xs[|xs| - 1].w)
  }

  /**
   * The tally holds key `k` exactly when `k` is counted and some tag falls under it, and then
   * its value is the reference total: the number of such tags, or their records' fatalities.
   */
  lemma {:induction false} TallyMeaning(xs: seq<Tagged>, allowed: seq<string>, k: string)
    ensures Lookup(Tally(xs, allowed), k).Some? <==> Counted(allowed, k) && AnyHasKey(xs, k)
    ensures Lookup(Tally(xs, allowed), k).Some? ==> Lookup(Tally(xs, allowed), k).value == KeyTotal(xs, k)
    decreases |xs|
  {
    if |xs| > 0 {
      var p := xs[..|xs| - 1];
      var x := xs[|xs| - 1];
      TallyMeaning(p, allowed, k);
      AddTagsLookup(Tally(p, allowed), x.tags, allowed, x.w, k);
      AnyHasKeySnoc(xs, k);
      if !AnyHasKey(p, k) {
        NoneHasKeyNoTotal(p, k);
      }
      if !HasKey(x.tags, k) {
        NoKeyNoTotal(x.tags, k, x.w);
      }
    }
  }

  /** Some record has a tag under `k` exactly when an earlier one does or the last one does. */
  lemma AnyHasKeySnoc(xs: seq<Tagged>, k: string)
    requires |xs| > 0
    ensures AnyHasKey(xs, k) <==> AnyHasKey(xs[..|xs| - 1], k) || HasKey(xs[|xs| - 1].tags, k)
  {
    var p := xs[..|xs| - 1];
    if AnyHasKey(xs, k) && !HasKey(xs[|xs| - 1].tags, k) {
      var i :| 0 <= i < |xs| && HasKey(xs[i].tags, k);
      assert p[i] == xs[i];
    }
    if AnyHasKey(p, k) {
      var i :| 0 <= i < |p| && HasKey(p[i].tags, k);
      assert xs[i] == p[i];
    }
  }

  /** With no tag under `k` anywhere, the reference total is zero. */
  lemma {:induction false} NoneHasKeyNoTotal(xs: seq<Tagged>, k: string)
    requires !AnyHasKey(xs, k)
    ensures KeyTotal(xs, k) == 0.0
    decreases |xs|
  {
    if |xs| > 0 {
      var p := xs[..|xs| - 1];
      AnyHasKeySnoc(xs, k);
      NoneHasKeyNoTotal(p, k);
      NoKeyNoTotal(xs[|xs| - 1].tags, k, xs[|xs| - 1].w);
    }
  }

  /** The records as the tally sees them, weighted for the axis. */
  function TaggedRecords(records: seq<Record>, axis: Axis): (r: seq<Tagged>)
    ensures |r| == |records|
    ensures forall i :: 0 <= i < |records| ==> r[i] == Tagged(KeysOf(records[i].conditions), Weight(axis, records[i]))
  {
    seq(|records|, i requires 0 <= i < |records| => Tagged(KeysOf(records[i].conditions), Weight(axis, records[i])))
  }

  /** Each tally entry as a bar labelled with its key capitalised, in tally order. */
  function Labelled(t: seq<Entry>): (r: seq<Bar>)
    ensures |r| == |t|
    ensures forall i :: 0 <= i < |t| ==> r[i] == Bar(TagLabel(Capitalize(t[i].key)), t[i].value)
  {
    seq(|t|, i requires 0 <= i < |t| => Bar(TagLabel(Capitalize(t[i].key)), t[i].value))
  }

  /** The weather bars: the labelled tally entries, top 25. */
  function WeatherBars(t: seq<Entry>): (r: seq<Bar>)
    ensures |r| == if 25 < |t| then 25 else |t|
    ensures SortedDesc(r)
    ensures multiset(r) <= multiset(Labelled(t))
    ensures forall b, a :: b in Labelled(t) && b !in r && a in r ==> b.value <= a.value
    ensures r == SortDesc(Labelled(t))[..|r|]
    ensures forall b :: b in r ==> exists i :: 0 <= i < |t| && b == Bar(TagLabel(Capitalize(t[i].key)), t[i].value)
  {
    var bars := Labelled(t);
    var r := Top(bars, 25);
    forall b | b in r
      ensures b in bars
    {
      assert b in multiset(r);
    }
    r
  }

  /**
   * The weather bar chart for the records shown and the selected groups. Every bar is a
   * counted key some record's tag falls under, labelled with the key capitalised and valued at
   * the key's reference total; at most 25 bars, highest first.
   */
  function WeatherChart(records: seq<Record>, groups: seq<string>, axis: Axis): (r: seq<Bar>)
    ensures |r| <= 25 && SortedDesc(r)
    ensures forall b :: b in r ==> exists k ::
      && Counted(AllowedKeywords(groups), k) && AnyHasKey(TaggedRecords(records, axis), k)
      && b == Bar(TagLabel(Capitalize(k)), KeyTotal(TaggedRecords(records, axis), k))
  {
    var xs := TaggedRecords(records, axis);
    var allowed := AllowedKeywords(groups);
    var t := Tally(xs, allowed);
    var r := WeatherBars(t);
    forall b | b in r
      ensures exists k :: Counted(allowed, k) && AnyHasKey(xs, k) && b == Bar(TagLabel(Capitalize(k)), KeyTotal(xs, k))
    {
      var i :| 0 <= i < |t| && b == Bar(TagLabel(Capitalize(t[i].key)), t[i].value);
      EntryLookup(t, i);
      TallyMeaning(xs, allowed, t[i].key);
    }
    r
  }

  /** With distinct keys, each entry is what its key looks up. */
  lemma {:induction false} EntryLookup(t: seq<Entry>, i: nat)
    requires KeysDistinct(t) && i < |t|
    ensures Lookup(t, t[i].key) == Some(t[i].value)
    decreases |t|
  {
    if i > 0 {
      assert t[0].key != t[i].key;
      assert KeysDistinct(t[1..]) by {
        assert forall a, b :: 0 <= a < b < |t[1..]| ==> t[1..][a] == t[a + 1] && t[1..][b] == t[b + 1];
      }
      EntryLookup(t[1..], i - 1);
    }
  }
}

=== FILE: chart_controls.dfy ===
/**
 * The chart controls of the graphs pages: which chart is shown, the bottom axis (years or
 * weather), the value axis (crashes or fatalities), and which buttons are disabled. Two
 * copies exist: the graphs section marks buttons disabled with a class and checks the class
 * on bottom-axis clicks; the graphs page disables the buttons themselves, so a disabled
 * button ignores every click.
 */
module ChartControls {
  import opened Records
  import opened SharedFilters
  import opened Aggregates

  datatype Chart = LineChart | BarChart | ScatterMatrix

  datatype BottomAxis = YearsAxis | WeatherAxis

  /** The current choices and the disabled state of the weather, years and value-axis buttons. */
  datatype Controls = Controls(
    chart: Chart, bottom: BottomAxis, axis: Axis,
    weatherOff: bool, yearsOff: bool, axisOff: bool)

  /** What the page starts with, before any button state is set. */
  function Initial(weatherOff: bool, yearsOff: bool, axisOff: bool): (c: Controls)
    ensures c.chart == LineChart && c.bottom == YearsAxis && c.axis == Crashes
  {
    Controls(LineChart, YearsAxis, Crashes, weatherOff, yearsOff, axisOff)
  }

  /** The buttons each chart disables: all for the matrix, none for bars, weather for lines. */
  predicate FlagsFit(c: Controls) {
    match c.chart
    case ScatterMatrix => c.weatherOff && c.yearsOff && c.axisOff
    case BarChart => !c.weatherOff && !c.yearsOff && !c.axisOff
    case LineChart => c.weatherOff && !c.yearsOff && !c.axisOff
  }

  /**
   * The controls agree with the chart, and the weather axis is never selected under a line
   * chart: only the matrix, which draws no bottom axis, may keep it while it is disabled.
   */
  predicate Consistent(c: Controls) {
    FlagsFit(c) && (c.bottom == WeatherAxis ==> c.chart != LineChart)
  }

  /**
   * The graphs section's `updateButtonStates()`: set the flags for the chart; under a line
   * chart a selected weather axis falls back to years.
   */
  function SectionUpdate(c: Controls): (r: Controls)
    ensures Consistent(r)
    ensures r.chart == c.chart && r.axis == c.axis
    ensures r.bottom != c.bottom <==> c.chart == LineChart && c.bottom == WeatherAxis
  {
    match c.chart
    case ScatterMatrix => c.(weatherOff := true, yearsOff := true, axisOff := true)
    case BarChart => c.(weatherOff := false, yearsOff := false, axisOff := false)
    case LineChart =>
      var r := c.(weatherOff := true, yearsOff := false, axisOff := false);
      if c.bottom == WeatherAxis then r.(bottom := YearsAxis) else r
  }

  /** A chart-type click in the graphs section: remember the chart, then update the buttons. */
  function SectionSelectChart(c: Controls, t: Chart): (r: Controls)
    ensures Consistent(r) && r.chart == t && r.axis == c.axis
  {
    SectionUpdate(c.(chart := t))
  }

  /** A bottom-axis click in the graphs section: ignored on a button marked disabled. */
  function SectionClickBottom(c: Controls, b: BottomAxis): (r: Controls)
    ensures r.chart == c.chart && r.axis == c.axis
    ensures r.bottom == b <==> c.bottom == b || Enabled(c, b)
  {
    if Enabled(c, b) then c.(bottom := b) else c
  }

  predicate Enabled(c: Controls, b: BottomAxis) {
    if b == WeatherAxis then !c.weatherOff else !c.yearsOff
  }

  /** A value-axis click in the graphs section: the handler checks no flag. */
  function SectionClickAxis(c: Controls, a: Axis): (r: Controls)
    ensures r.axis == a && r.chart == c.chart && r.bottom == c.bottom
  {
    c.(axis := a)
  }

  /**
   * The graphs page's `updateButtonStates(chartType)`: set the flags for the chart, then, if
   * the weather button is selected and disabled, click the years button, which does
   * something only when that button is enabled.
   */
  function PageUpdate(c: Controls, t: Chart): (r: Controls)
    ensures r.axis == c.axis && r.chart == c.chart
  {
    var flags := match t
      case ScatterMatrix => c.(weatherOff := true, yearsOff := true, axisOff := true)
      case BarChart => c.(weatherOff := false, yearsOff := false, axisOff := false)
      case LineChart => c.(weatherOff := true, yearsOff := false, axisOff := false);
    if flags.bottom == WeatherAxis && flags.weatherOff then PageClickBottom(flags, YearsAxis)
    else flags
  }

  /** A chart-type click on the graphs page: the chart is remembered and the buttons updated. */
  function PageSelectChart(c: Controls, t: Chart): (r: Controls)
    ensures r.chart == t
  {
    PageUpdate(c.(chart := t), t)
  }

  /** A bottom-axis click on the graphs page: a disabled button fires no click. */
  function PageClickBottom(c: Controls, b: BottomAxis): (r: Controls)
    ensures r.chart == c.chart && r.axis == c.axis
  {
    if Enabled(c, b) then c.(bottom := b) else c
  }

  /** A value-axis click on the graphs page: ignored while the value-axis buttons are disabled. */
  function PageClickAxis(c: Controls, a: Axis): (r: Controls)
    ensures r.chart == c.chart && r.bottom == c.bottom
    ensures r.axis == a <==> c.axis == a || !c.axisOff
  {
    if c.axisOff then c else c.(axis := a)
  }

  /** Both pages leave the same controls after choosing a chart, whatever the state before. */
  lemma SelectChartAgrees(c: Controls, t: Chart)
    ensures PageSelectChart(c, t) == SectionSelectChart(c, t)
  {
  }

  /** Bottom-axis clicks keep the controls consistent on both pages. */
  lemma ClickBottomKeepsConsistent(c: Controls, b: BottomAxis)
    requires Consistent(c)
    ensures Consistent(SectionClickBottom(c, b))
    ensures PageClickBottom(c, b) == SectionClickBottom(c, b)
  {
  }

  /** Value-axis clicks keep the controls consistent on both pages. */
  lemma ClickAxisKeepsConsistent(c: Controls, a: Axis)
    requires Consistent(c)
    ensures Consistent(SectionClickAxis(c, a)) && Consistent(PageClickAxis(c, a))
  {
  }

  /**
   * The pages differ on one click: under the scatter matrix the graphs section's value-axis
   * buttons still switch the axis, the graphs page's do not.
   */
  lemma AxisClickUnderMatrixDiffers(c: Controls)
    requires Consistent(c) && c.chart == ScatterMatrix && c.axis == Crashes
    ensures SectionClickAxis(c, Fatalities).axis == Fatalities
    ensures PageClickAxis(c, Fatalities).axis == Crashes
  {
  }

  /** What the graphs section draws. */
  datatype View =
    | LineView(series: seq<Bar>)
    | YearBars(bars: seq<Bar>)
    | WeatherView(bars: seq<Bar>)
    | MatrixView(shown: seq<Record>, all: seq<Record>)

  /**
   * `render(filtered)`: the zero-filled year series over the state's window, for the value
   * axis; drawn as a line, as the top 25 years, as the weather bars of the selected groups,
   * or the matrix of the records shown against the whole data.
   */
  function Render(c: Controls, st: State, filtered: seq<Record>, all: seq<Record>, groups: seq<string>): (v: View)
    requires forall g :: g in groups <==> g in st.conditionsSelected
    ensures c.chart == LineChart ==> v == LineView(YearSeries(filtered, st.yearStart, st.yearEnd, c.axis))
    ensures v.WeatherView? <==> c.chart == BarChart && c.bottom == WeatherAxis
    ensures v.MatrixView? <==> c.chart == ScatterMatrix
    ensures v.YearBars? ==> v.bars == TopYears(YearSeries(filtered, st.yearStart, st.yearEnd, c.axis))
    ensures v.WeatherView? ==> v.bars == WeatherChart(filtered, groups, c.axis)
    ensures v.MatrixView? ==> v == MatrixView(filtered, all)
  {
    var series := YearSeries(filtered, st.yearStart, st.yearEnd, c.axis);
    match c.chart
    case LineChart => LineView(series)
    case BarChart =>
      (match c.bottom
       case YearsAxis => YearBars(TopYears(series))
       case WeatherAxis => WeatherView(WeatherChart(filtered, groups, c.axis)))
    case ScatterMatrix => MatrixView(filtered, all)
  }

  /**
   * The years bar chart: the 25 highest years of the state's window (all of them when the
   * window is shorter), highest first, each valued at its year's total; no year left out is
   * higher than one drawn.
   */
  lemma YearBarsInWindow(c: Controls, st: State, filtered: seq<Record>, all: seq<Record>, groups: seq<string>)
    requires forall g :: g in groups <==> g in st.conditionsSelected
    requires c.chart == BarChart && c.bottom == YearsAxis
    ensures Render(c, st, filtered, all, groups).YearBars?
    ensures var bars := Render(c, st, filtered, all, groups).bars;
      var window := if st.yearStart <= st.yearEnd then st.yearEnd - st.yearStart + 1 else 0;
      && |bars| == (if 25 < window then 25 else window)
      && SortedDesc(bars)
      && (forall b :: b in bars ==> b.name.YearLabel? && st.yearStart <= b.name.year <= st.yearEnd
                                     && b.value == YearTotal(filtered, b.name.year, c.axis))
      && (forall b, a :: b in YearSeries(filtered, st.yearStart, st.yearEnd, c.axis) && b !in bars && a in bars ==>
            b.value <= a.value)
      && bars == SortDesc(YearSeries(filtered, st.yearStart, st.yearEnd, c.axis))[..|bars|]
  {
    TopOfWindow(filtered, st.yearStart, st.yearEnd, c.axis);
  }

  /** The top 25 of a window's year series, as `YearBarsInWindow` states it. */
  lemma TopOfWindow(filtered: seq<Record>, start: int, end: int, axis: Axis)
    ensures var bars := TopYears(YearSeries(filtered, start, end, axis));
      var window := if start <= end then end - start + 1 else 0;
      && |bars| == (if 25 < window then 25 else window)
      && SortedDesc(bars)
      && (forall b :: b in bars ==> b.name.YearLabel? && start <= b.name.year <= end
                                     && b.value == YearTotal(filtered, b.name.year, axis))
      && (forall b, a :: b in YearSeries(filtered, start, end, axis) && b !in bars && a in bars ==>
            b.value <= a.value)
      && bars == SortDesc(YearSeries(filtered, start, end, axis))[..|bars|]
  {
    var series := YearSeries(filtered, start, end, axis);
    SeriesBarsInWindow(filtered, start, end, axis);
    var bars := TopYears(series);
    assert forall b :: b in bars ==> b in series;
  }

  /** Every bar of a window's year series is a year of the window, valued at its total. */
  lemma SeriesBarsInWindow(filtered: seq<Record>, start: int, end: int, axis: Axis)
    ensures forall b :: b in YearSeries(filtered, start, end, axis) ==>
      b.name.YearLabel? && start <= b.name.year <= end && b.value == YearTotal(filtered, b.name.year, axis)
  {
    var series := YearSeries(filtered, start, end, axis);
    forall b | b in series
      ensures b.name.YearLabel? && start <= b.name.year <= end
      ensures b.value == YearTotal(filtered, b.name.year, axis)
    {
      var i :| 0 <= i < |series| && series[i] == b;
    }
  }

  /** Under consistent controls a line chart never shows weather, and a weather view is a bar chart. */
  lemma WeatherOnlyAsBars(c: Controls, st: State, filtered: seq<Record>, all: seq<Record>, groups: seq<string>)
    requires forall g :: g in groups <==> g in st.conditionsSelected
    requires Consistent(c) && c.bottom == WeatherAxis
    ensures Render(c, st, filtered, all, groups).WeatherView? || Render(c, st, filtered, all, groups).MatrixView?
  {
  }
}

=== FILE: conditions.dfy ===
/**
 * Weather-condition tags of a crash record and the six condition groups the filter panels offer.
 *
 * A record's free-text weather column is split on `;` and `,`, each piece trimmed, empty pieces
 * dropped, and (on the shared and map pages) inner whitespace collapsed. A group such as
 * `rainy` matches a record when some tag, lower-cased, contains one of the group's keywords.
 */
module Conditions {
  import opened Wrappers
  import opened Seqs
  import opened Text

  /** No whitespace at either end. */
  predicate Trimmed(t: string) {
    |t| == 0 || (!IsSpace(t[0]) && !IsSpace(t[|t| - 1]))
  }

  /** No `;` or `,`. */
  predicate SepFree(t: string) {
    forall c :: c in t ==> !IsSep(c)
  }

  /** A normalised tag: non-empty, no surrounding or doubled whitespace, no separator. */
  predicate IsTag(t: string) {
    |t| > 0 && Trimmed(t) && SpacesNormal(t) && SepFree(t)
  }

  /** `Boolean(s)` on a string. */
  predicate NonEmpty(s: string) {
    |s| > 0
  }

  /** `.map(s => s.trim())`. */
  function TrimEach(xs: seq<string>): (r: seq<string>)
    ensures |r| == |xs|
    ensures forall i :: 0 <= i < |xs| ==> r[i] == Trim(xs[i])
  {
    seq(|xs|, i requires 0 <= i < |xs| => Trim(xs[i]))
  }

  /** `.map(s => s.replace(/\s+/g, " ").trim())`. */
  function NormalizeEach(xs: seq<string>): (r: seq<string>)
    ensures |r| == |xs|
    ensures forall i :: 0 <= i < |xs| ==> r[i] == Trim(Collapse(xs[i]))
  {
    seq(|xs|, i requires 0 <= i < |xs| => Trim(Collapse(xs[i])))
  }

  /** The graphs page's tags: split, trim each piece, drop the empty ones. */
  function SplitTags(s: string): (r: seq<string>)
    ensures forall i :: 0 <= i < |r| ==> |r[i]| > 0 && Trimmed(r[i]) && SepFree(r[i])
  {
    var pieces := Split(s);
    TrimmedPieces(pieces);
    KeepNonEmpty(TrimEach(pieces));
    Filter(TrimEach(pieces), NonEmpty)
  }

  /** Trimmed separator-free pieces stay separator-free and have no whitespace at the ends. */
  lemma TrimmedPieces(pieces: seq<string>)
    requires forall i :: 0 <= i < |pieces| ==> SepFree(pieces[i])
    ensures forall i :: 0 <= i < |pieces| ==> Trimmed(TrimEach(pieces)[i]) && SepFree(TrimEach(pieces)[i])
  {
    forall i | 0 <= i < |pieces|
      ensures Trimmed(Trim(pieces[i])) && SepFree(Trim(pieces[i]))
    {
      TrimChars(pieces[i]);
    }
  }

  /** Dropping the empty strings leaves non-empty ones with the shape the others had. */
  lemma KeepNonEmpty(xs: seq<string>)
    requires forall i :: 0 <= i < |xs| ==> Trimmed(xs[i]) && SepFree(xs[i])
    ensures forall i :: 0 <= i < |Filter(xs, NonEmpty)| ==>
      |Filter(xs, NonEmpty)[i]| > 0 && Trimmed(Filter(xs, NonEmpty)[i]) && SepFree(Filter(xs, NonEmpty)[i])
  {
    FilterMembers(xs, NonEmpty);
    var r := Filter(xs, NonEmpty);
    forall i | 0 <= i < |r|
      ensures Trimmed(r[i]) && SepFree(r[i])
    {
      assert r[i] in xs;
    }
  }

  /** The shared and map pages' tags: `SplitTags`, then whitespace runs collapsed and trimmed. */
  function ParseConditions(s: string): (r: seq<string>)
    ensures forall i :: 0 <= i < |r| ==> IsTag(r[i])
  {
    var tags := SplitTags(s);
    forall i | 0 <= i < |tags|
      ensures IsTag(Trim(Collapse(tags[i])))
    {
      NormalizedIsTag(tags[i]);
    }
    NormalizeEach(tags)
  }

  /** Trimming keeps a contiguous run of the characters. */
  lemma TrimChars(s: string)
    ensures forall c :: c in Trim(s) ==> c in s
  {
    var i := TrimOffset(s);
    forall c | c in Trim(s)
      ensures c in s
    {
      var k :| 0 <= k < |Trim(s)| && Trim(s)[k] == c;
      assert s[i + k] == c;
    }
  }

  /** Collapsing only introduces plain spaces. */
  lemma {:induction false} CollapseChars(s: string)
    ensures forall c :: c in Collapse(s) ==> c in s || c == ' '
    decreases |s|
  {
    if |s| > 0 {
      if IsSpace(s[0]) {
        var t := TrimStart(s);
        CollapseChars(t);
        forall c | c in t
          ensures c in s
        {
          var k :| 0 <= k < |t| && t[k] == c;
          assert s[|s| - |t| + k] == c;
        }
      } else {
        CollapseChars(s[1..]);
      }
    }
  }

  /** A trimmed string with normal whitespace still has normal whitespace. */
  lemma TrimNormal(s: string)
    requires SpacesNormal(s)
    ensures SpacesNormal(Trim(s))
  {
    var i := TrimOffset(s);
    var t := Trim(s);
    assert forall k :: 0 <= k < |t| ==> t[k] == s[i + k];
  }

  /** Trimming a string that starts with a non-space keeps it non-empty. */
  lemma TrimKeepsInk(s: string)
    requires |s| > 0 && !IsSpace(s[0])
    ensures |Trim(s)| > 0
  {
    var i := TrimOffset(s);
    assert i == 0;
  }

  /** A trimmed, non-empty, separator-free piece normalises to a tag. */
  lemma NormalizedIsTag(t: string)
    requires |t| > 0 && !IsSpace(t[0])
    requires forall c :: c in t ==> !IsSep(c)
    ensures IsTag(Trim(Collapse(t)))
  {
    var c := Collapse(t);
    var r := Trim(c);
    TrimKeepsInk(c);
    TrimNormal(c);
    assert Trimmed(r);
    assert SepFree(r) by {
      TrimChars(c);
      CollapseChars(t);
      forall ch | ch in r
        ensures !IsSep(ch)
      {
        assert ch in c;
      }
    }
  }

  /** Tags are their own trims. */
  lemma TrimEachOfTags(ts: seq<string>)
    requires forall i :: 0 <= i < |ts| ==> IsTag(ts[i])
    ensures TrimEach(ts) == ts
  {
    forall i | 0 <= i < |ts|
      ensures Trim(ts[i]) == ts[i]
    {
      TrimOfTrimmed(ts[i]);
    }
  }

  /** Tags are already normalised. */
  lemma NormalizeEachOfTags(ts: seq<string>)
    requires forall i :: 0 <= i < |ts| ==> IsTag(ts[i])
    ensures NormalizeEach(ts) == ts
  {
    forall i | 0 <= i < |ts|
      ensures Trim(Collapse(ts[i])) == ts[i]
    {
      CollapseNormal(ts[i]);
      TrimOfTrimmed(ts[i]);
    }
  }

  /** On cells that are joined tags, the graphs page reads back exactly those tags. */
  lemma SplitJoinedTags(ts: seq<string>)
    requires |ts| >= 1
    requires forall i :: 0 <= i < |ts| ==> IsTag(ts[i])
    ensures SplitTags(Join(ts)) == ts
  {
    SplitJoin(ts);
    TrimEachOfTags(ts);
    FilterKeepsAll(ts, NonEmpty);
  }

  /** Tags joined with `;` read back as exactly the same tags on the shared and map pages. */
  lemma ParseJoinedTags(ts: seq<string>)
    requires |ts| >= 1
    requires forall i :: 0 <= i < |ts| ==> IsTag(ts[i])
    ensures ParseConditions(Join(ts)) == ts
  {
    SplitJoinedTags(ts);
    NormalizeEachOfTags(ts);
  }

  /** Parsing is a normalisation: re-joining and re-parsing its tags changes nothing. */
  lemma ParseConditionsIdempotent(s: string)
    requires |ParseConditions(s)| >= 1
    ensures ParseConditions(Join(ParseConditions(s))) == ParseConditions(s)
  {
    ParseJoinedTags(ParseConditions(s));
  }

  /** The tag a raw piece gives: the trimmed piece, or none when it is blank. */
  function PieceTag(p: string): seq<string> {
    if Trim(p) == "" then [] else [Trim(p)]
  }

  /**
   * A `;` and a `,` both end a tag on the graphs page: the piece before the first separator
   * gives its tag (none when blank), and the rest is split on its own.
   */
  lemma SplitTagsAt(p: string, c: char, t: string)
    requires IsSep(c) && SepFree(p)
    ensures SplitTags(p + [c] + t) == PieceTag(p) + SplitTags(t)
  {
    SplitAt(p, c, t);
    var pieces := Split(t);
    assert TrimEach([p] + pieces) == [Trim(p)] + TrimEach(pieces);
    FilterConcat([Trim(p)], TrimEach(pieces), NonEmpty);
  }

  /** The tag a raw piece gives on the shared and map pages: trimmed and collapsed, none when blank. */
  function PieceCondition(p: string): seq<string> {
    if Trim(p) == "" then [] else [Trim(Collapse(Trim(p)))]
  }

  /**
   * The same on the shared and map pages, where the piece's tag also has its whitespace runs
   * collapsed.
   */
  lemma ParseConditionsAt(p: string, c: char, t: string)
    requires IsSep(c) && SepFree(p)
    ensures ParseConditions(p + [c] + t) == PieceCondition(p) + ParseConditions(t)
  {
    var whole := p + [c] + t;
    SplitTagsAt(p, c, t);
    NormalizedTags(whole);
    NormalizedTags(t);
    NormalizeConcat(PieceTag(p), SplitTags(t));
    PieceNormalized(p);
  }

  /** Normalising a piece's graphs-page tag gives its shared-page tag. */
  lemma PieceNormalized(p: string)
    ensures NormalizeEach(PieceTag(p)) == PieceCondition(p)
  {
    var n := NormalizeEach(PieceTag(p));
    if Trim(p) == "" {
      assert |n| == 0;
    } else {
      assert PieceTag(p) == [Trim(p)];
      assert |n| == 1 && n[0] == Trim(Collapse(Trim(p)));
    }
  }

  /** Normalising tags one by one distributes over concatenation. */
  lemma NormalizeConcat(h: seq<string>, r: seq<string>)
    ensures NormalizeEach(h + r) == NormalizeEach(h) + NormalizeEach(r)
  {
    var l, a, b := NormalizeEach(h + r), NormalizeEach(h), NormalizeEach(r);
    NormalizeFront(h, r);
    NormalizeBack(h, r);
    assert forall i :: 0 <= i < |l| ==> l[i] == (a + b)[i];
  }

  /** The front of a normalised concatenation is the normalised front. */
  lemma NormalizeFront(h: seq<string>, r: seq<string>)
    ensures forall i :: 0 <= i < |h| ==> NormalizeEach(h + r)[i] == NormalizeEach(h)[i]
  {
    var hr := h + r;
    assert forall i :: 0 <= i < |h| ==> hr[i] == h[i];
  }

  /** The back of a normalised concatenation is the normalised back. */
  lemma NormalizeBack(h: seq<string>, r: seq<string>)
    ensures forall i :: 0 <= i < |r| ==> NormalizeEach(h + r)[|h| + i] == NormalizeEach(r)[i]
  {
    var hr := h + r;
    assert forall i :: 0 <= i < |r| ==> hr[|h| + i] == r[i];
  }

  /** The shared and map pages normalise the graphs page's tags. */
  lemma NormalizedTags(s: string)
    ensures ParseConditions(s) == NormalizeEach(SplitTags(s))
  {
  }

  /** Two words separated by a whitespace run form one piece, with nothing trimmed off. */
  lemma WordsOnePiece(a: string, w: string, b: string)
    requires IsTag(a) && IsTag(b)
    requires |w| > 0 && forall i :: 0 <= i < |w| ==> IsSpace(w[i])
    ensures SplitTags(a + w + b) == [a + w + b]
  {
    var s := a + w + b;
    assert SepFree(s) by {
      forall ch | ch in s
        ensures !IsSep(ch)
      {
        if ch in w {
          var i :| 0 <= i < |w| && w[i] == ch;
        }
      }
    }
    SplitNoSep(s);
    assert s[0] == a[0] && s[|s| - 1] == b[|b| - 1];
    TrimOfTrimmed(s);
    assert TrimEach([s]) == [s];
    assert Filter([s], NonEmpty) == [s];
  }

  /**
   * Two words separated by a whitespace run form one tag. The shared and map pages reduce the
   * run to one space; the graphs page keeps it as it is.
   */
  lemma ParseConditionsJoinsWords(a: string, w: string, b: string)
    requires IsTag(a) && IsTag(b)
    requires |w| > 0 && forall i :: 0 <= i < |w| ==> IsSpace(w[i])
    ensures SplitTags(a + w + b) == [a + w + b]
    ensures ParseConditions(a + w + b) == [a + " " + b]
  {
    WordsOnePiece(a, w, b);
    NormalizedTags(a + w + b);
    assert NormalizeEach([a + w + b]) == [Trim(Collapse(a + w + b))];
    CollapseJoin(a, w, b);
    CollapseNormal(a);
    CollapseNormal(b);
    var j := a + " " + b;
    assert j[0] == a[0] && j[|j| - 1] == b[|b| - 1];
    TrimOfTrimmed(j);
  }

  /** An empty weather cell has no tags. */
  lemma EmptyCellNoTags()
    ensures ParseConditions("") == [] && SplitTags("") == []
  {
    SplitNoSep("");
    assert TrimEach([""]) == [Trim("")];
    TrimOfTrimmed("");
  }

  /**
   * The condition groups' keywords. A group name outside the six has none, and the filters
   * treat it as failing (shared filters) or skip it (graphs page).
   */
  function GroupKeywords(g: string): (r: Option<seq<string>>)
    ensures r.Some? <==> g in {"clear", "foggy", "rainy", "cloudy", "snowy", "windy"}
    ensures r.Some? ==> |r.value| >= 1
  {
    match g
    case "clear" => Some(["clear"])
    case "foggy" => Some(["fog"])
    case "rainy" => Some(["rain", "heavy rain"])
    case "cloudy" => Some(["mostly cloudy", "overcast", "partly cloudy"])
    case "snowy" => Some(["snow"])
    case "windy" => Some(["windy", "storm-level winds", "thunderstorms"])
    case _ => None
  }

  /** `tags.some(cond => cond.toLowerCase().includes(kw))`. */
  predicate SomeTagContains(tags: seq<string>, kw: string) {
    exists i :: 0 <= i < |tags| && Contains(Lower(tags[i]), kw)
  }

  /** Some keyword of the list is contained in some tag. */
  predicate MatchesAny(tags: seq<string>, kws: seq<string>) {
    exists j :: 0 <= j < |kws| && SomeTagContains(tags, kws[j])
  }

  /**
   * The `rainy` group's second keyword adds nothing: every tag containing `heavy rain`
   * contains `rain`, so the group matches exactly the records with a tag containing `rain`.
   */
  lemma RainyIsRain(tags: seq<string>)
    ensures MatchesAny(tags, GroupKeywords("rainy").value) <==> SomeTagContains(tags, "rain")
  {
    var kws := GroupKeywords("rainy").value;
    if SomeTagContains(tags, kws[1]) {
      var i :| 0 <= i < |tags| && Contains(Lower(tags[i]), "heavy rain");
      ContainsAt("heavy rain", "rain", 6);
      ContainsTrans(Lower(tags[i]), "heavy rain", "rain");
    }
    assert SomeTagContains(tags, "rain") ==> SomeTagContains(tags, kws[0]);
  }

  /** Matching ignores the case of the tags. */
  lemma MatchIgnoresCase(tags: seq<string>, kw: string)
    ensures SomeTagContains(tags, kw) <==> SomeTagContains(LowerEach(tags), kw)
  {
    forall i | 0 <= i < |tags|
      ensures Lower(LowerEach(tags)[i]) == Lower(tags[i])
    {
      LowerIdempotent(tags[i]);
    }
  }

  /** Every tag lower-cased. */
  function LowerEach(xs: seq<string>): (r: seq<string>)
    ensures |r| == |xs|
    ensures forall i :: 0 <= i < |xs| ==> r[i] == Lower(xs[i])
  {
    seq(|xs|, i requires 0 <= i < |xs| => Lower(xs[i]))
  }

  /** Lower-casing twice is lower-casing once. */
  lemma LowerIdempotent(s: string)
    ensures Lower(Lower(s)) == Lower(s)
  {
    assert forall i :: 0 <= i < |s| ==> LowerChar(LowerChar(s[i])) == LowerChar(s[i]);
  }
}

=== FILE: correlation.dfy ===
/**
 * The scatter matrix's correlation cells: `pearsonCorr` over the x and y values of one cell,
 * and the text shown for its result. The square root is not taken: a defined correlation is
 * kept as its numerator and the product under the root, and the model decides exactly when
 * the result is NaN.
 */
module Correlation {
  import opened Seqs

  /** `d3.mean(xs)` over a non-empty list of numbers. */
  function Mean(xs: seq<real>): real
    requires |xs| > 0
  {
    Sum(xs) / (|xs| as real)
  }

  /** The sum of squared deviations from `m`, accumulated front to back as the loop does. */
  function SqDev(xs: seq<real>, m: real): real
    decreases |xs|
  {
    if |xs| == 0 then 0.0
    else SqDev(xs[..|xs| - 1], m) + Mul(xs[|xs| - 1] - m, xs[|xs| - 1] - m)
  }

  /** A product of two numbers, kept as a function so squares and cross terms are treated alike. */
  function Mul(x: real, y: real): real {
    x * y
  }

  /** The sum of products of deviations from `mx` and `my`. */
  function CrossDev(xs: seq<real>, ys: seq<real>, mx: real, my: real): real
    requires |xs| == |ys|
    decreases |xs|
  {
    if |xs| == 0 then 0.0
    else CrossDev(xs[..|xs| - 1], ys[..|ys| - 1], mx, my) + Mul(xs[|xs| - 1] - mx, ys[|ys| - 1] - my)
  }

  /** NaN, or the correlation `num / Math.sqrt(den)`. */
  datatype Corr = NaN | Ratio(num: real, den: real)

  /** Every element of `xs` is the same. */
  predicate Constant(xs: seq<real>) {
    forall i, j :: 0 <= i < |xs| && 0 <= j < |xs| ==> xs[i] == xs[j]
  }

  /**
   * The reference definition: NaN for no pairs, and NaN when either sum of squared
   * deviations is zero (`(den1 && den2) ? ... : NaN`).
   */
  function Pearson(xs: seq<real>, ys: seq<real>): (r: Corr)
    requires |xs| == |ys|
    ensures r.Ratio? ==> r.den > 0.0
  {
    if |xs| == 0 then NaN
    else
      var d1 := SqDev(xs, Mean(xs));
      var d2 := SqDev(ys, Mean(ys));
      SqDevNonNegative(xs, Mean(xs));
      SqDevNonNegative(ys, Mean(ys));
      if d1 != 0.0 && d2 != 0.0 then
        assert d1 * d2 > 0.0;
        Ratio(CrossDev(xs, ys, Mean(xs), Mean(ys)), d1 * d2)
      else NaN
  }

  /** `pearsonCorr(arr1, arr2)`: the means, one pass accumulating the three sums, the guard. */
  method PearsonCorr(xs: seq<real>, ys: seq<real>) returns (c: Corr)
    requires |xs| == |ys|
    ensures c == Pearson(xs, ys)
    ensures c.NaN? <==> |xs| == 0 || Constant(xs) || Constant(ys)
  {
    PearsonNaN(xs, ys);
    if |xs| == 0 {
      return NaN;
    }
    var num, den1, den2 := Accumulate(xs, ys, Mean(xs), Mean(ys));
    if den1 != 0.0 && den2 != 0.0 {
      c := Ratio(num, den1 * den2);
    } else {
      c := NaN;
    }
  }

  /** The loop of `pearsonCorr`: the three sums over all pairs. */
  method Accumulate(xs: seq<real>, ys: seq<real>, mean1: real, mean2: real)
    returns (num: real, den1: real, den2: real)
    requires |xs| == |ys|
    ensures num == CrossDev(xs, ys, mean1, mean2)
    ensures den1 == SqDev(xs, mean1) && den2 == SqDev(ys, mean2)
  {
    num, den1, den2 := 0.0, 0.0, 0.0;
    var k := 0;
    while k < |xs|
      invariant 0 <= k <= |xs|
      invariant num == CrossDev(xs[..k], ys[..k], mean1, mean2)
      invariant den1 == SqDev(xs[..k], mean1)
      invariant den2 == SqDev(ys[..k], mean2)
    {
      var dx := xs[k] - mean1;
      var dy := ys[k] - mean2;
      Extend(xs, ys, k, mean1, mean2);
      num := num + dx * dy;
      den1 := den1 + dx * dx;
      den2 := den2 + dy * dy;
      k := k + 1;
    }
    assert xs[..k] == xs && ys[..k] == ys;
  }

  /** One more pair extends each sum by that pair's term. */
  lemma Extend(xs: seq<real>, ys: seq<real>, k: nat, mx: real, my: real)
    requires |xs| == |ys| && k < |xs|
    ensures CrossDev(xs[..k + 1], ys[..k + 1], mx, my) == CrossDev(xs[..k], ys[..k], mx, my) + Mul(xs[k] - mx, ys[k] - my)
    ensures SqDev(xs[..k + 1], mx) == SqDev(xs[..k], mx) + Mul(xs[k] - mx, xs[k] - mx)
    ensures SqDev(ys[..k + 1], my) == SqDev(ys[..k], my) + Mul(ys[k] - my, ys[k] - my)
  {
    assert xs[..k + 1][..k] == xs[..k] && ys[..k + 1][..k] == ys[..k];
  }

  /** A sum of squares is never negative. */
  lemma {:induction false} SqDevNonNegative(xs: seq<real>, m: real)
    ensures SqDev(xs, m) >= 0.0
    decreases |xs|
  {
    if |xs| > 0 {
      SqDevNonNegative(xs[..|xs| - 1], m);
      Square(xs[|xs| - 1] - m);
    }
  }

  /** A square is non-negative, and positive for a non-zero number. */
  lemma Square(d: real)
    ensures Mul(d, d) >= 0.0
    ensures d != 0.0 ==> Mul(d, d) > 0.0
  {
    if d > 0.0 {
      MulPositive(d, d);
    } else if d < 0.0 {
      MulNegative(d, d);
    }
  }

  lemma MulPositive(x: real, y: real)
    requires x > 0.0 && y > 0.0
    ensures Mul(x, y) > 0.0
  {
  }

  lemma MulNegative(x: real, y: real)
    requires x < 0.0 && y < 0.0
    ensures Mul(x, y) > 0.0
  {
  }

  /** The squared deviations sum to zero exactly when every element equals `m`. */
  lemma {:induction false} SqDevZero(xs: seq<real>, m: real)
    ensures SqDev(xs, m) == 0.0 <==> forall i :: 0 <= i < |xs| ==> xs[i] == m
    decreases |xs|
  {
    if |xs| > 0 {
      var init := xs[..|xs| - 1];
      var d := xs[|xs| - 1] - m;
      SqDevZero(init, m);
      SqDevNonNegative(init, m);
      Square(d);
      assert forall i :: 0 <= i < |init| ==> init[i] == xs[i];
      assert SqDev(xs, m) == SqDev(init, m) + Mul(d, d);
      if d != 0.0 {
        assert SqDev(xs, m) > 0.0;
        assert xs[|xs| - 1] != m;
      } else {
        assert SqDev(xs, m) == SqDev(init, m);
      }
    }
  }

  /** Summing `n` copies of `c`. */
  lemma {:induction false} SumOfEqual(xs: seq<real>, c: real)
    requires forall i :: 0 <= i < |xs| ==> xs[i] == c
    ensures Sum(xs) == (|xs| as real) * c
    decreases |xs|
  {
    if |xs| > 0 {
      SumOfEqual(xs[1..], c);
      assert (|xs| as real) * c == c + (|xs[1..]| as real) * c;
    }
  }

  /** The mean of a constant list is its value. */
  lemma ConstantMean(xs: seq<real>)
    requires |xs| > 0 && Constant(xs)
    ensures Mean(xs) == xs[0]
  {
    SumOfEqual(xs, xs[0]);
    var n := |xs| as real;
    assert (n * xs[0]) / n == xs[0];
  }

  /** A list has zero spread around its mean exactly when it is constant. */
  lemma SpreadZero(xs: seq<real>)
    requires |xs| > 0
    ensures SqDev(xs, Mean(xs)) == 0.0 <==> Constant(xs)
  {
    SqDevZero(xs, Mean(xs));
    if Constant(xs) {
      ConstantMean(xs);
    }
  }

  /** The correlation is NaN exactly for an empty sample or a side with zero variance. */
  lemma PearsonNaN(xs: seq<real>, ys: seq<real>)
    requires |xs| == |ys|
    ensures Pearson(xs, ys).NaN? <==> |xs| == 0 || Constant(xs) || Constant(ys)
  {
    if |xs| > 0 {
      SpreadZero(xs);
      SpreadZero(ys);
    }
  }

  /**
   * The cell's text, `isNaN(corr) ? '' : corr.toFixed(2)`. Number formatting is a
   * parameter; it never yields the empty string.
   */
  function CellText(c: Corr, toFixed: (real, real) -> string): (r: string)
    requires forall a, b :: toFixed(a, b) != ""
    ensures r == "" <==> c.NaN?
  {
    if c.NaN? then "" else toFixed(c.num, c.den)
  }

  /** A correlation cell is blank exactly when its pairs are none or one side is constant. */
  lemma BlankCell(xs: seq<real>, ys: seq<real>, toFixed: (real, real) -> string)
    requires |xs| == |ys|
    requires forall a, b :: toFixed(a, b) != ""
    ensures CellText(Pearson(xs, ys), toFixed) == "" <==> |xs| == 0 || Constant(xs) || Constant(ys)
  {
    PearsonNaN(xs, ys);
  }
}

=== FILE: graphs_filter.dfy ===
/**
 * The graphs page's own copy of the record filter. It reads its windows from the slider
 * inputs and differs from the shared engine in three ways: aboard count and fatality
 * percentage are always required, a NaN value passes the range test, and a selected group
 * name outside the six is skipped instead of hiding everything.
 */
module GraphsFilter {
  import opened Wrappers
  import opened Seqs
  import opened Numbers
  import opened Conditions
  import opened Records
  import opened SharedFilters

  /** What `getFilters()` reads from the page: windows and the checked groups. */
  datatype GraphsFilters = GraphsFilters(
    startY: int, endY: int,
    aboardStart: real, aboardEnd: real,
    fatalStart: real, fatalEnd: real,
    conds: set<string>)

  /** `!d.year || d.year < startY || d.year > endY` rejects. */
  predicate GraphsYearOk(f: GraphsFilters, r: Record) {
    YearTruthy(r.year) && !(r.year.value < f.startY) && !(r.year.value > f.endY)
  }

  /** `d.aboard == null || d.aboard < lo || d.aboard > hi` rejects; NaN compares false. */
  predicate GraphsAboardOk(f: GraphsFilters, r: Record) {
    !r.aboard.Null? && !Lt(r.aboard, f.aboardStart) && !Gt(r.aboard, f.aboardEnd)
  }

  /** The same test on the fatality percentage. */
  predicate GraphsFatalOk(f: GraphsFilters, r: Record) {
    !r.fatalPct.Null? && !Lt(r.fatalPct, f.fatalStart) && !Gt(r.fatalPct, f.fatalEnd)
  }

  /** Every checked group that has keywords matches; unknown groups are skipped. */
  predicate GraphsGroupsOk(conds: set<string>, r: Record) {
    |conds| > 0 ==> forall g :: g in conds && GroupKeywords(g).Some? ==> GroupOk(r, g)
  }

  predicate GraphsAdmits(f: GraphsFilters, r: Record) {
    GraphsYearOk(f, r) && GraphsAboardOk(f, r) && GraphsFatalOk(f, r) && GraphsGroupsOk(f.conds, r)
  }

  function GraphsAdmitFn(f: GraphsFilters): Record -> bool {
    r => GraphsAdmits(f, r)
  }

  /** `filterData(data)`: the records passing every clause, in order. */
  function FilterData(f: GraphsFilters, data: seq<Record>): (r: seq<Record>)
    ensures forall x :: x in r <==> x in data && GraphsAdmits(f, x)
    ensures forall x :: multiset(r)[x] == if GraphsAdmits(f, x) then multiset(data)[x] else 0
    ensures IsSubseq(r, data)
  {
    FilterMembers(data, GraphsAdmitFn(f));
    FilterCount(data, GraphsAdmitFn(f));
    FilterIsSubseq(data, GraphsAdmitFn(f));
    Filter(data, GraphsAdmitFn(f))
  }

  /** The shared state with the same windows and groups. */
  function AsState(f: GraphsFilters): (st: State)
    ensures st.conditionsSelected == f.conds
  {
    State(f.startY, f.endY, f.aboardStart, f.aboardEnd, f.fatalStart, f.fatalEnd, f.conds, true)
  }

  /** Neither number of the record is NaN. */
  predicate NoNaN(r: Record) {
    !r.aboard.NaN? && !r.fatalPct.NaN?
  }

  /** A record the graphs filter admits, with numbers present and groups known, the shared filter admits. */
  lemma GraphsAdmitsShared(f: GraphsFilters, b: Bounds, r: Record)
    requires forall g :: g in f.conds ==> GroupKeywords(g).Some?
    requires NoNaN(r) && GraphsAdmits(f, r)
    ensures Admits(AsState(f), b, r)
  {
  }

  /** With a year window excluding 0, a record the shared filter admits (both clauses on) the graphs filter admits. */
  lemma SharedAdmitsGraphs(f: GraphsFilters, b: Bounds, r: Record)
    requires b.hasAboard && b.hasFatal && 0 < f.startY
    requires Admits(AsState(f), b, r)
    ensures GraphsAdmits(f, r)
  {
  }

  /**
   * When the data has both aboard counts and percentages, every checked group is one of the
   * six and no number is NaN, the graphs page shows a subsequence of what the shared engine
   * shows for the same windows.
   */
  lemma GraphsWithinShared(f: GraphsFilters, b: Bounds, data: seq<Record>)
    requires forall g :: g in f.conds ==> GroupKeywords(g).Some?
    requires forall i :: 0 <= i < |data| ==> NoNaN(data[i])
    ensures IsSubseq(FilterData(f, data), GetFiltered(AsState(f), b, data))
  {
    forall x | x in data && GraphsAdmitFn(f)(x)
      ensures AdmitFn(AsState(f), b)(x)
    {
      GraphsAdmitsShared(f, b, x);
    }
    FilterMonotone(data, GraphsAdmitFn(f), AdmitFn(AsState(f), b));
  }

  /** Under the same conditions, with both clauses on and a year window above 0, the two filters agree. */
  lemma GraphsAgreesWithShared(f: GraphsFilters, b: Bounds, data: seq<Record>)
    requires b.hasAboard && b.hasFatal && 0 < f.startY
    requires forall g :: g in f.conds ==> GroupKeywords(g).Some?
    requires forall i :: 0 <= i < |data| ==> NoNaN(data[i])
    ensures FilterData(f, data) == GetFiltered(AsState(f), b, data)
  {
    forall x | x in data
      ensures GraphsAdmitFn(f)(x) <==> AdmitFn(AsState(f), b)(x)
    {
      if GraphsAdmits(f, x) {
        GraphsAdmitsShared(f, b, x);
      }
      if Admits(AsState(f), b, x) {
        SharedAdmitsGraphs(f, b, x);
      }
    }
    FilterExt(data, GraphsAdmitFn(f), AdmitFn(AsState(f), b));
  }

  /** A NaN aboard count passes the graphs page's range test but never the shared engine's. */
  lemma NaNAboardDiverges(f: GraphsFilters, st: State, b: Bounds, r: Record)
    requires r.aboard.NaN? && b.hasAboard
    ensures GraphsAboardOk(f, r)
    ensures !AboardOk(st, b, r)
  {
  }

  /** Checking a group name outside the six changes nothing on the graphs page. */
  lemma UnknownGroupSkipped(f: GraphsFilters, data: seq<Record>, g: string)
    requires GroupKeywords(g).None?
    ensures FilterData(f.(conds := f.conds + {g}), data) == FilterData(f, data)
  {
    FilterExt(data, GraphsAdmitFn(f.(conds := f.conds + {g})), GraphsAdmitFn(f));
  }

  /** Records without an aboard count are never shown, whatever the data holds. */
  lemma MissingAboardHidden(f: GraphsFilters, data: seq<Record>)
    requires forall i :: 0 <= i < |data| ==> data[i].aboard.Null?
    ensures FilterData(f, data) == []
  {
    FilterNone(data, GraphsAdmitFn(f));
  }

  /** `g`'s windows contain `f`'s and `g` checks no group `f` does not. */
  predicate GraphsWider(f: GraphsFilters, g: GraphsFilters) {
    && g.startY <= f.startY && f.endY <= g.endY
    && g.aboardStart <= f.aboardStart && f.aboardEnd <= g.aboardEnd
    && g.fatalStart <= f.fatalStart && f.fatalEnd <= g.fatalEnd
    && g.conds <= f.conds
  }

  /** Widening a window or unchecking groups never hides a record the graphs page showed. */
  lemma GraphsWiderShowsMore(f: GraphsFilters, g: GraphsFilters, data: seq<Record>)
    requires GraphsWider(f, g)
    ensures IsSubseq(FilterData(f, data), FilterData(g, data))
  {
    forall x | x in data && GraphsAdmitFn(f)(x)
      ensures GraphsAdmitFn(g)(x)
    {
      if |g.conds| > 0 {
        var h :| h in g.conds;
        assert h in f.conds;
      }
    }
    FilterMonotone(data, GraphsAdmitFn(f), GraphsAdmitFn(g));
  }
}

=== FILE: map_filter.dfy ===
/**
 * The map page: the records it plots, its global `filters` object, and the events that change
 * that object (year sliders, aboard and fatality sliders, condition checkboxes, route toggle).
 * `js/mapfilter.js` is a copy of `mapfilter.js` with the same behaviour.
 *
 * Unlike the shared engine, the map page always applies its aboard and fatality windows once
 * they are set, so a record without a numeric aboard count or percentage is never plotted, and
 * a selected condition must occur verbatim among a record's tags.
 */
module MapFilter {
  import opened Wrappers
  import opened Seqs
  import opened Text
  import opened Numbers
  import opened Records
  import opened Sliders
  import opened SharedFilters

  /** The `filters` object: each property present or `undefined`. */
  datatype MapFilters = MapFilters(
    yearStart: Option<int>, yearEnd: Option<int>,
    aboardStart: Option<real>, aboardEnd: Option<real>,
    fatalStart: Option<real>, fatalEnd: Option<real>,
    conditionsSelected: Option<set<string>>,
    showRoutes: Option<bool>)

  /** `{}`, what the page holds before the data has loaded. */
  const NoFilters := MapFilters(None, None, None, None, None, None, None, None)

  /** `f.showRoutes` in a condition: `undefined` is falsy. */
  predicate ShowsRoutes(f: MapFilters) {
    f.showRoutes == Some(true)
  }

  // ---------------------------------------------------------------------------------------
  // drawDots

  /** `d.year >= f.yearStart && d.year <= f.yearEnd`: a comparison with `undefined` is false. */
  predicate MapYearOk(f: MapFilters, r: Record) {
    f.yearStart.Some? && f.yearEnd.Some? && f.yearStart.value <= YearNum(r.year) <= f.yearEnd.value
  }

  /** Once both aboard limits are set, the count must be present and inside them. */
  predicate MapAboardOk(f: MapFilters, r: Record) {
    f.aboardStart.Some? && f.aboardEnd.Some? ==>
      !r.aboard.Null? && Ge(r.aboard, f.aboardStart.value) && Le(r.aboard, f.aboardEnd.value)
  }

  /** Once both percentage limits are set, the percentage must be present and inside them. */
  predicate MapFatalOk(f: MapFilters, r: Record) {
    f.fatalStart.Some? && f.fatalEnd.Some? ==>
      !r.fatalPct.Null? && Ge(r.fatalPct, f.fatalStart.value) && Le(r.fatalPct, f.fatalEnd.value)
  }

  /** Every selected condition is one of the record's tags. */
  predicate HasAll(sel: set<string>, tags: seq<string>) {
    forall s :: s in sel ==> s in tags
  }

  /** The condition clause applies only to a non-empty selection. */
  predicate MapConditionsOk(f: MapFilters, r: Record) {
    f.conditionsSelected.Some? && |f.conditionsSelected.value| > 0 ==>
      HasAll(f.conditionsSelected.value, r.conditions)
  }

  predicate MapAdmits(f: MapFilters, r: Record) {
    MapYearOk(f, r) && MapAboardOk(f, r) && MapFatalOk(f, r) && MapConditionsOk(f, r)
  }

  function MapAdmitFn(f: MapFilters): Record -> bool {
    r => MapAdmits(f, r)
  }

  function YearFn(f: MapFilters): Record -> bool {
    r => MapYearOk(f, r)
  }

  function AboardFn(f: MapFilters): Record -> bool {
    r => MapAboardOk(f, r)
  }

  function FatalFn(f: MapFilters): Record -> bool {
    r => MapFatalOk(f, r)
  }

  function ConditionsFn(f: MapFilters): Record -> bool {
    r => MapConditionsOk(f, r)
  }

  function UpToAboardFn(f: MapFilters): Record -> bool {
    r => MapYearOk(f, r) && MapAboardOk(f, r)
  }

  function UpToFatalFn(f: MapFilters): Record -> bool {
    r => MapYearOk(f, r) && MapAboardOk(f, r) && MapFatalOk(f, r)
  }

  /** A record with numeric start coordinates gets a route line. */
  predicate HasRoute(r: Record) {
    r.startLat.Val? && r.startLon.Val?
  }

  function HasRouteFn(): Record -> bool {
    r => HasRoute(r)
  }

  /** The four filters of `drawDots`, applied in turn as the page does. */
  function FilterChain(f: MapFilters, all: seq<Record>): seq<Record> {
    var byYear := Filter(all, YearFn(f));
    var byAboard := if f.aboardStart.Some? && f.aboardEnd.Some? then Filter(byYear, AboardFn(f)) else byYear;
    var byFatal := if f.fatalStart.Some? && f.fatalEnd.Some? then Filter(byAboard, FatalFn(f)) else byAboard;
    if f.conditionsSelected.Some? && |f.conditionsSelected.value| > 0 then Filter(byFatal, ConditionsFn(f))
    else byFatal
  }

  /** Applying the filters in turn keeps exactly the records all four clauses admit. */
  lemma ChainIsConjunction(f: MapFilters, all: seq<Record>)
    ensures FilterChain(f, all) == Filter(all, MapAdmitFn(f))
  {
    var byYear := Filter(all, YearFn(f));
    if f.aboardStart.Some? && f.aboardEnd.Some? {
      FilterThen(all, YearFn(f), AboardFn(f), UpToAboardFn(f));
    } else {
      FilterExt(all, YearFn(f), UpToAboardFn(f));
    }
    var byAboard := Filter(all, UpToAboardFn(f));
    if f.fatalStart.Some? && f.fatalEnd.Some? {
      FilterThen(all, UpToAboardFn(f), FatalFn(f), UpToFatalFn(f));
    } else {
      FilterExt(all, UpToAboardFn(f), UpToFatalFn(f));
    }
    if f.conditionsSelected.Some? && |f.conditionsSelected.value| > 0 {
      FilterThen(all, UpToFatalFn(f), ConditionsFn(f), MapAdmitFn(f));
    } else {
      FilterExt(all, UpToFatalFn(f), MapAdmitFn(f));
    }
  }

  /** What one call of `drawDots` leaves on the map. */
  datatype Drawing =
    | Unchanged
      /** The plotted records, counted in the crash total, and the routes drawn. */
    | Drawing(dots: seq<Record>, routes: seq<Record>)

  /**
   * `drawDots()`: nothing while `filters` is `{}`; otherwise the filtered records as dots and,
   * when routes are shown, those of them with numeric start coordinates as routes (the routes
   * are removed otherwise).
   */
  function DrawDots(f: MapFilters, all: seq<Record>): (d: Drawing)
    ensures d.Unchanged? <==> f == NoFilters
    ensures d.Drawing? ==> forall x :: x in d.dots <==> x in all && MapAdmits(f, x)
    ensures d.Drawing? ==> IsSubseq(d.dots, all)
    ensures d.Drawing? ==> forall x :: x in d.routes <==> x in d.dots && ShowsRoutes(f) && HasRoute(x)
    ensures d.Drawing? ==> IsSubseq(d.routes, d.dots)
  {
    if f == NoFilters then Unchanged
    else
      var dots := FilterChain(f, all);
      ChainIsConjunction(f, all);
      FilterMembers(all, MapAdmitFn(f));
      FilterIsSubseq(all, MapAdmitFn(f));
      FilterMembers(dots, HasRouteFn());
      FilterIsSubseq(dots, HasRouteFn());
      if ShowsRoutes(f) then Drawing(dots, Filter(dots, HasRouteFn()))
      else
        assert IsSubseq([], dots);
        Drawing(dots, [])
  }

  /** The dots are the records the conjunction of the clauses admits, in order. */
  lemma DotsAreFiltered(f: MapFilters, all: seq<Record>)
    requires f != NoFilters
    ensures DrawDots(f, all).dots == Filter(all, MapAdmitFn(f))
  {
    ChainIsConjunction(f, all);
  }

  // ---------------------------------------------------------------------------------------
  // Loading

  /** The lat, lon or date column is missing. */
  predicate MissingColumns(cols: Columns) {
    cols.lat.None? || cols.lon.None? || cols.date.None?
  }

  /** `allLocations`: each row parsed, then the row filter. */
  function MapRecords(cols: Columns, rows: seq<Row>, yearOf: YearOf): (r: seq<Record>)
    ensures forall i :: 0 <= i < |r| ==> Accept(r[i])
    ensures forall x :: x in MapRows(cols, rows, yearOf) && Accept(x) ==> x in r
    ensures forall x :: multiset(r)[x] == if Accept(x) then multiset(MapRows(cols, rows, yearOf))[x] else 0
    ensures IsSubseq(r, MapRows(cols, rows, yearOf))
  {
    Accepted(MapRows(cols, rows, yearOf))
  }

  /** Every row parsed for the map, in order. */
  function MapRows(cols: Columns, rows: seq<Row>, yearOf: YearOf): (r: seq<Record>)
    ensures |r| == |rows|
    ensures forall i :: 0 <= i < |rows| ==> r[i] == ParseMapRecord(cols, rows[i], yearOf)
  {
    seq(|rows|, i requires 0 <= i < |rows| => ParseMapRecord(cols, rows[i], yearOf))
  }

  /** Every tag of every record, in record order. */
  function AllTags(data: seq<Record>): (r: seq<string>)
    ensures forall c :: c in r <==> exists i :: 0 <= i < |data| && c in data[i].conditions
    decreases |data|
  {
    if |data| == 0 then []
    else
      var rest := AllTags(data[1..]);
      assert forall c :: c in rest ==> exists i :: 0 <= i < |data| && c in data[i].conditions by {
        forall c | c in rest
          ensures exists i :: 0 <= i < |data| && c in data[i].conditions
        {
          var j :| 0 <= j < |data[1..]| && c in data[1..][j].conditions;
          assert c in data[j + 1].conditions;
        }
      }
      forall c, i | 0 <= i < |data| && c in data[i].conditions
        ensures c in data[0].conditions + rest
      {
        if i > 0 {
          assert data[1..][i - 1] == data[i];
        }
      }
      data[0].conditions + rest
  }

  /** `Array.from(condSet).sort()`: each tag once, in ascending order. */
  function ConditionList(data: seq<Record>): (r: seq<string>)
    ensures StrictlySorted(r)
    ensures forall c :: c in r <==> exists i :: 0 <= i < |data| && c in data[i].conditions
  {
    SortedDistinct(AllTags(data))
  }

  /**
   * The filters the page sets after loading: the year sliders' values, the aboard window from
   * the least to the greatest count (0 to 0 without counts), 0 to 100 percent, routes shown,
   * and an empty condition selection only when there are conditions to list.
   */
  function InitFilters(startYear: int, endYear: int, all: seq<Record>, conds: seq<string>): (f: MapFilters)
    ensures f != NoFilters
    ensures f.yearStart == Some(startYear) && f.yearEnd == Some(endYear)
    ensures f.aboardStart.Some? && f.aboardEnd.Some?
    ensures forall i :: 0 <= i < |all| && all[i].aboard.Val? ==>
      f.aboardStart.value <= all[i].aboard.v <= f.aboardEnd.value
    ensures SomeAboard(all) ==> exists i :: 0 <= i < |all| && all[i].aboard == Val(f.aboardStart.value)
    ensures SomeAboard(all) ==> exists i :: 0 <= i < |all| && all[i].aboard == Val(f.aboardEnd.value)
    ensures !SomeAboard(all) ==> f.aboardStart == Some(0.0) && f.aboardEnd == Some(0.0)
    ensures f.fatalStart == Some(0.0) && f.fatalEnd == Some(100.0) && f.showRoutes == Some(true)
    ensures f.conditionsSelected.None? <==> |conds| == 0
    ensures f.conditionsSelected.Some? ==> f.conditionsSelected.value == {}
  {
    var span := AboardSpan(all, 0.0, 0.0);
    MapFilters(
      Some(startYear), Some(endYear), Some(span.1), Some(span.2), Some(0.0), Some(100.0),
      if |conds| == 0 then None else Some({}), Some(true))
  }

  /** The page once loaded: its records, the condition names and the filters. */
  datatype MapPage = MapPage(
    all: seq<Record>, conds: seq<string>, hasAboard: bool, hasFatal: bool, filters: MapFilters)

  /**
   * Loading the crash table. `crashData[0]` must exist and the lat, lon and date columns must
   * be found; otherwise the handler stops and `filters` stays `{}`. The year sliders' values
   * are parameters.
   */
  function LoadMap(t: Table, yearOf: YearOf, startYear: int, endYear: int): (p: Option<MapPage>)
    ensures p.None? <==> |t.rows| == 0 || MissingColumns(DetectColumns(t.columns))
    ensures p.Some? ==> p.value.filters == InitFilters(startYear, endYear, p.value.all, p.value.conds)
    ensures p.Some? ==> p.value.hasAboard == SomeAboard(p.value.all) && p.value.hasFatal == SomeFatal(p.value.all)
    ensures p.Some? ==> forall i :: 0 <= i < |p.value.all| ==> Accept(p.value.all[i])
    ensures p.Some? ==> p.value.all == MapRecords(DetectColumns(t.columns), t.rows, yearOf)
    ensures p.Some? ==> p.value.conds == ConditionList(p.value.all)
  {
    var cols := DetectColumns(t.columns);
    if |t.rows| == 0 || MissingColumns(cols) then None
    else
      var all := MapRecords(cols, t.rows, yearOf);
      var conds := ConditionList(all);
      Some(MapPage(all, conds, SomeAboard(all), SomeFatal(all), InitFilters(startYear, endYear, all, conds)))
  }

  /** Without the lat, lon or date column nothing is ever drawn. */
  lemma MissingColumnDrawsNothing(t: Table, yearOf: YearOf, startYear: int, endYear: int, data: seq<Record>)
    requires MissingColumns(DetectColumns(t.columns))
    ensures LoadMap(t, yearOf, startYear, endYear).None?
    ensures DrawDots(NoFilters, data) == Unchanged
  {
  }

  /**
   * The first drawing: exactly the records in the year sliders' window with a numeric aboard
   * count and a percentage between 0 and 100, with every route shown.
   */
  lemma InitialDots(startYear: int, endYear: int, all: seq<Record>, conds: seq<string>)
    ensures DrawDots(InitFilters(startYear, endYear, all, conds), all).Drawing?
    ensures forall x :: x in DrawDots(InitFilters(startYear, endYear, all, conds), all).dots <==>
      && x in all && startYear <= YearNum(x.year) <= endYear
      && x.aboard.Val? && x.fatalPct.Val? && 0.0 <= x.fatalPct.v <= 100.0
    ensures var d := DrawDots(InitFilters(startYear, endYear, all, conds), all);
      forall x :: x in d.routes <==> x in d.dots && HasRoute(x)
  {
    forall x | x in all
      ensures MapAdmits(InitFilters(startYear, endYear, all, conds), x) <==>
        startYear <= YearNum(x.year) <= endYear && x.aboard.Val? && x.fatalPct.Val? && 0.0 <= x.fatalPct.v <= 100.0
    {
      var i :| 0 <= i < |all| && all[i] == x;
      InitialAdmits(startYear, endYear, all, conds, i);
    }
  }

  /** One record under the initial filters: the aboard window spans every count in the data. */
  lemma InitialAdmits(startYear: int, endYear: int, all: seq<Record>, conds: seq<string>, i: nat)
    requires i < |all|
    ensures MapAdmits(InitFilters(startYear, endYear, all, conds), all[i]) <==>
      && startYear <= YearNum(all[i].year) <= endYear
      && all[i].aboard.Val? && all[i].fatalPct.Val? && 0.0 <= all[i].fatalPct.v <= 100.0
  {
    var f := InitFilters(startYear, endYear, all, conds);
    var span := AboardSpan(all, 0.0, 0.0);
    assert f.aboardStart == Some(span.1) && f.aboardEnd == Some(span.2);
    assert MapAboardOk(f, all[i]) <==> all[i].aboard.Val?;
    assert MapFatalOk(f, all[i]) <==> all[i].fatalPct.Val? && 0.0 <= all[i].fatalPct.v <= 100.0;
    assert MapConditionsOk(f, all[i]);
  }

  /** Data without a single numeric aboard count leaves the map empty. */
  lemma NoAboardShowsNothing(startYear: int, endYear: int, all: seq<Record>, conds: seq<string>)
    requires !SomeAboard(all)
    ensures DrawDots(InitFilters(startYear, endYear, all, conds), all).dots == []
  {
    var f := InitFilters(startYear, endYear, all, conds);
    DotsAreFiltered(f, all);
    FilterNone(all, MapAdmitFn(f));
  }

  // ---------------------------------------------------------------------------------------
  // Events

  /** The route button: `filters.showRoutes = !filters.showRoutes`. */
  function ToggleRoutes(f: MapFilters): (r: MapFilters)
    ensures ShowsRoutes(r) <==> !ShowsRoutes(f)
    ensures r != NoFilters
  {
    f.(showRoutes := Some(!ShowsRoutes(f)))
  }

  /** Two clicks restore the filters; a click keeps the dots and shows or hides every route. */
  lemma ToggleTwice(f: MapFilters, all: seq<Record>)
    requires f.showRoutes.Some? && f != NoFilters
    ensures ToggleRoutes(ToggleRoutes(f)) == f
    ensures DrawDots(ToggleRoutes(f), all).dots == DrawDots(f, all).dots
    ensures ShowsRoutes(f) ==> DrawDots(ToggleRoutes(f), all).routes == []
    ensures !ShowsRoutes(f) ==> DrawDots(ToggleRoutes(f), all).routes == Filter(DrawDots(f, all).dots, HasRouteFn())
  {
    if f.showRoutes.value {
      assert ShowsRoutes(f);
    } else {
      assert !ShowsRoutes(f);
    }
    ChainIsConjunction(f, all);
    ChainIsConjunction(ToggleRoutes(f), all);
    FilterExt(all, MapAdmitFn(f), MapAdmitFn(ToggleRoutes(f)));
  }

  /**
   * A condition checkbox: a checked box adds its condition to the selection, an unchecked one
   * removes it. The boxes exist only when the selection does.
   */
  function CheckCondition(f: MapFilters, c: string, checked: bool): (r: MapFilters)
    requires f.conditionsSelected.Some?
    ensures r.conditionsSelected.Some?
    ensures c in r.conditionsSelected.value <==> checked
    ensures forall s :: s != c ==> (s in r.conditionsSelected.value <==> s in f.conditionsSelected.value)
    ensures r.(conditionsSelected := f.conditionsSelected) == f
  {
    var sel := f.conditionsSelected.value;
    f.(conditionsSelected := Some(if checked then sel + {c} else sel - {c}))
  }

  function HasTagFn(c: string): Record -> bool {
    (r: Record) => c in r.conditions
  }

  /** Checking a condition keeps exactly the dots that carry it. */
  lemma CheckNarrows(f: MapFilters, c: string, all: seq<Record>)
    requires f.conditionsSelected.Some?
    ensures DrawDots(CheckCondition(f, c, true), all).dots == Filter(DrawDots(f, all).dots, HasTagFn(c))
  {
    var g := CheckCondition(f, c, true);
    ChainIsConjunction(f, all);
    ChainIsConjunction(g, all);
    forall x | x in all
      ensures MapAdmits(g, x) <==> MapAdmits(f, x) && c in x.conditions
    {
      CheckAdmits(f, c, x);
    }
    FilterThen(all, MapAdmitFn(f), HasTagFn(c), MapAdmitFn(g));
  }

  /** A record passes with one more condition checked exactly when it passed and carries it. */
  lemma CheckAdmits(f: MapFilters, c: string, x: Record)
    requires f.conditionsSelected.Some?
    ensures MapAdmits(CheckCondition(f, c, true), x) <==> MapAdmits(f, x) && c in x.conditions
  {
    var g := CheckCondition(f, c, true);
    if MapAdmits(f, x) && c in x.conditions && |f.conditionsSelected.value| > 0 {
      assert HasAll(g.conditionsSelected.value, x.conditions);
    }
  }

  /** Unchecking a box just checked restores the selection. */
  lemma UncheckUndoes(f: MapFilters, c: string)
    requires f.conditionsSelected.Some? && c !in f.conditionsSelected.value
    ensures CheckCondition(CheckCondition(f, c, true), c, false) == f
  {
    assert f.conditionsSelected.value + {c} - {c} == f.conditionsSelected.value;
  }

  /**
   * `updateYear()`: the start is lowered to the end when it passes it, and both slider values
   * become the year window.
   */
  function UpdateYear(f: MapFilters, start: int, end: int): (r: MapFilters)
    ensures r.yearStart.Some? && r.yearEnd.Some? && r.yearStart.value <= r.yearEnd.value
    ensures r.yearEnd.value == end
    ensures start <= end ==> r.yearStart.value == start
    ensures start > end ==> r.yearStart.value == end
    ensures (r.yearStart.value, r.yearEnd.value) == OrderYears(start, end)
    ensures r.(yearStart := f.yearStart, yearEnd := f.yearEnd) == f
  {
    var w := OrderYears(start, end);
    f.(yearStart := Some(w.0), yearEnd := Some(w.1))
  }

  /** The corrected values written back to the sliders give the same window again. */
  lemma UpdateYearStable(f: MapFilters, start: int, end: int)
    ensures var r := UpdateYear(f, start, end);
      UpdateYear(r, r.yearStart.value, r.yearEnd.value) == r
  {
  }

  /** A start year past the end year shows the end year alone. */
  lemma CrossedYearsShowOneYear(f: MapFilters, start: int, end: int, all: seq<Record>)
    requires start > end
    ensures forall x :: x in DrawDots(UpdateYear(f, start, end), all).dots ==> YearNum(x.year) == end
  {
  }

  /** A wider year window never hides a dot a narrower one showed. */
  lemma WiderYearsShowMore(f: MapFilters, s1: int, e1: int, s2: int, e2: int, all: seq<Record>)
    requires s2 <= s1 && e1 <= e2
    ensures IsSubseq(DrawDots(f.(yearStart := Some(s1), yearEnd := Some(e1)), all).dots,
                     DrawDots(f.(yearStart := Some(s2), yearEnd := Some(e2)), all).dots)
  {
    var a := f.(yearStart := Some(s1), yearEnd := Some(e1));
    var b := f.(yearStart := Some(s2), yearEnd := Some(e2));
    ChainIsConjunction(a, all);
    ChainIsConjunction(b, all);
    FilterMonotone(all, MapAdmitFn(a), MapAdmitFn(b));
  }

  // ---------------------------------------------------------------------------------------
  // The aboard and fatality sliders

  /** `s.replace(/^p/, "")`. */
  function StripPrefix(s: string, p: string): (r: string)
    ensures StartsWith(s, p) ==> p + r == s
    ensures !StartsWith(s, p) ==> r == s
  {
    if StartsWith(s, p) then s[|p|..] else s
  }

  /** The property a slider writes: its id without the prefix, lower-cased, with the suffix. */
  function DualKey(id: string, prefix: string, suffix: string): string {
    Lower(StripPrefix(id, prefix)) + suffix
  }

  /** `filters[key] = v` for the four window properties; other keys are not read by the page. */
  function SetByKey(f: MapFilters, key: string, v: real): (r: MapFilters)
    ensures key == "aboardStart" ==> r == f.(aboardStart := Some(v))
    ensures key == "aboardEnd" ==> r == f.(aboardEnd := Some(v))
    ensures key == "fatalStart" ==> r == f.(fatalStart := Some(v))
    ensures key == "fatalEnd" ==> r == f.(fatalEnd := Some(v))
  {
    if key == "aboardStart" then f.(aboardStart := Some(v))
    else if key == "aboardEnd" then f.(aboardEnd := Some(v))
    else if key == "fatalStart" then f.(fatalStart := Some(v))
    else if key == "fatalEnd" then f.(fatalEnd := Some(v))
    else f
  }

  /**
   * The start thumb of a dual slider (set up only when the data has values): the start value,
   * capped at the end value, is stored under the key derived from the id.
   */
  function StartInput(f: MapFilters, hasValues: bool, startId: string, sv: real, ev: real): MapFilters {
    if hasValues then SetByKey(f, DualKey(startId, "start", "Start"), CapStart(sv, ev)) else f
  }

  /** The end thumb: the end value, raised to the start value, is stored likewise. */
  function EndInput(f: MapFilters, hasValues: bool, endId: string, sv: real, ev: real): MapFilters {
    if hasValues then SetByKey(f, DualKey(endId, "end", "End"), RaiseEnd(sv, ev)) else f
  }

  /** Removing a prefix the string has leaves the rest. */
  lemma StripOwnPrefix(p: string, rest: string)
    ensures StripPrefix(p + rest, p) == rest
  {
    assert (p + rest)[..|p|] == p;
  }

  lemma LowerAboard()
    ensures Lower("Aboard") == "aboard"
  {
    assert LowerChar('A') == 'a';
  }

  lemma LowerFatal()
    ensures Lower("Fatal") == "fatal"
  {
    assert LowerChar('F') == 'f';
  }

  /** The page's slider ids name the window properties `drawDots` reads. */
  lemma SliderKeys()
    ensures DualKey("startAboard", "start", "Start") == "aboardStart"
    ensures DualKey("endAboard", "end", "End") == "aboardEnd"
    ensures DualKey("startFatal", "start", "Start") == "fatalStart"
    ensures DualKey("endFatal", "end", "End") == "fatalEnd"
  {
    StripOwnPrefix("start", "Aboard");
    StripOwnPrefix("end", "Aboard");
    StripOwnPrefix("start", "Fatal");
    StripOwnPrefix("end", "Fatal");
    LowerAboard();
    LowerFatal();
  }

  /**
   * Moving the aboard thumbs: the start thumb stores a start no greater than the end thumb's
   * value and the end thumb an end no smaller than the start thumb's; nothing else changes,
   * and without aboard counts the thumbs do nothing.
   */
  lemma AboardThumbs(f: MapFilters, hasAboard: bool, sv: real, ev: real)
    ensures hasAboard ==> StartInput(f, hasAboard, "startAboard", sv, ev) == f.(aboardStart := Some(CapStart(sv, ev)))
    ensures hasAboard ==> EndInput(f, hasAboard, "endAboard", sv, ev) == f.(aboardEnd := Some(RaiseEnd(sv, ev)))
    ensures !hasAboard ==> StartInput(f, hasAboard, "startAboard", sv, ev) == f
    ensures !hasAboard ==> EndInput(f, hasAboard, "endAboard", sv, ev) == f
  {
    SliderKeys();
  }

  /** The same for the fatality-percentage thumbs. */
  lemma FatalThumbs(f: MapFilters, hasFatal: bool, sv: real, ev: real)
    ensures hasFatal ==> StartInput(f, hasFatal, "startFatal", sv, ev) == f.(fatalStart := Some(CapStart(sv, ev)))
    ensures hasFatal ==> EndInput(f, hasFatal, "endFatal", sv, ev) == f.(fatalEnd := Some(RaiseEnd(sv, ev)))
    ensures !hasFatal ==> StartInput(f, hasFatal, "startFatal", sv, ev) == f
    ensures !hasFatal ==> EndInput(f, hasFatal, "endFatal", sv, ev) == f
  {
    SliderKeys();
  }

  // ---------------------------------------------------------------------------------------
  // Against the shared engine

  /** The map page's filter object holding the shared state's windows and selection. */
  function FromState(st: State): (f: MapFilters)
    ensures f != NoFilters
  {
    MapFilters(
      Some(st.yearStart), Some(st.yearEnd), Some(st.aboardStart), Some(st.aboardEnd),
      Some(st.fatalStart), Some(st.fatalEnd), Some(st.conditionsSelected), Some(st.showRoutes))
  }

  /** With no condition selected, every dot of the map page is a record the shared engine passes. */
  lemma MapWithinShared(st: State, b: Bounds, data: seq<Record>)
    requires st.conditionsSelected == {}
    ensures IsSubseq(DrawDots(FromState(st), data).dots, GetFiltered(st, b, data))
  {
    var f := FromState(st);
    ChainIsConjunction(f, data);
    FilterMonotone(data, MapAdmitFn(f), AdmitFn(st, b));
  }

  /**
   * With no condition selected and data holding both aboard counts and percentages, the map
   * page plots exactly the shared engine's records.
   */
  lemma MapAgreesWithShared(st: State, b: Bounds, data: seq<Record>)
    requires st.conditionsSelected == {} && b.hasAboard && b.hasFatal
    ensures DrawDots(FromState(st), data).dots == GetFiltered(st, b, data)
  {
    var f := FromState(st);
    ChainIsConjunction(f, data);
    FilterExt(data, MapAdmitFn(f), AdmitFn(st, b));
  }

  /** A record without an aboard count is in the shared engine's result but never on the map. */
  lemma MissingAboardDiverges(st: State, b: Bounds, data: seq<Record>, x: Record)
    requires st.conditionsSelected == {} && !b.hasAboard
    requires x in data && x.aboard.Null? && Admits(st, b, x)
    ensures x in GetFiltered(st, b, data)
    ensures x !in DrawDots(FromState(st), data).dots
  {
  }
}

=== FILE: numbers.dfy ===
/**
 * Numeric fields as the page scripts see them: `null`, `NaN` or a number, the comparisons
 * and coercions applied to them, `parseFloat` on the text left after the `[^\d.\-]` strip,
 * and the three comma conventions the parsers follow.
 */
module Numbers {
  import opened Wrappers
  import opened Seqs
  import opened Text

  /** A numeric record field: `null`, `NaN`, or a finite number. */
  datatype Num = Null | NaN | Val(v: real)

  /** `v != null && !isNaN(v)`. */
  predicate IsNumber(n: Num) {
    n.Val?
  }

  /** `n >= c` in JavaScript: `null` coerces to 0 and `NaN` compares false. */
  predicate Ge(n: Num, c: real) {
    match n
    case Null => 0.0 >= c
    case NaN => false
    case Val(v) => v >= c
  }

  /** `n <= c` in JavaScript. */
  predicate Le(n: Num, c: real) {
    match n
    case Null => 0.0 <= c
    case NaN => false
    case Val(v) => v <= c
  }

  /** `n < c` in JavaScript. */
  predicate Lt(n: Num, c: real) {
    match n
    case Null => 0.0 < c
    case NaN => false
    case Val(v) => v < c
  }

  /** `n > c` in JavaScript. */
  predicate Gt(n: Num, c: real) {
    match n
    case Null => 0.0 > c
    case NaN => false
    case Val(v) => v > c
  }

  /** `n || 0`: `null`, `NaN` and 0 all give 0. */
  function OrZero(n: Num): real {
    if n.Val? then n.v else 0.0
  }

  /** The `isNaN(n) ? null : n` step of `parseNum`, with `null` kept as `null`. */
  function AsOption(n: Num): (r: Option<real>)
    ensures r.Some? <==> n.Val?
    ensures r.Some? ==> r.value == n.v
  {
    if n.Val? then Some(n.v) else None
  }

  predicate IsDigit(c: char) {
    '0' <= c <= '9'
  }

  predicate AllDigits(s: string) {
    forall i :: 0 <= i < |s| ==> IsDigit(s[i])
  }

  function DigitValue(c: char): nat
    requires IsDigit(c)
  {
    c as int - '0' as int
  }

  /** The digit character of `d`. */
  function DigitChar(d: nat): (c: char)
    requires d < 10
    ensures IsDigit(c) && DigitValue(c) == d
  {
    ('0' as int + d) as char
  }

  /** Length of the leading run of digits. */
  function DigitRun(s: string): (n: nat)
    ensures n <= |s|
    ensures forall i :: 0 <= i < n ==> IsDigit(s[i])
    ensures n == |s| || !IsDigit(s[n])
    decreases |s|
  {
    if |s| > 0 && IsDigit(s[0]) then 1 + DigitRun(s[1..]) else 0
  }

  /** The value of a decimal digit string, most significant digit first; the empty string is 0. */
  function NatOf(ds: string): nat
    requires AllDigits(ds)
    decreases |ds|
  {
    if |ds| == 0 then 0 else NatOf(ds[..|ds| - 1]) * 10 + DigitValue(ds[|ds| - 1])
  }

  function Pow10(k: nat): (p: nat)
    ensures p >= 1
  {
    if k == 0 then 1 else 10 * Pow10(k - 1)
  }

  /** The shortest decimal spelling of `n`. */
  function ShowNat(n: nat): (s: string)
    ensures |s| > 0 && AllDigits(s)
    decreases n
  {
    if n < 10 then [DigitChar(n)] else ShowNat(n / 10) + [DigitChar(n % 10)]
  }

  /** Reading back the decimal spelling of a natural number gives the number. */
  lemma {:induction false} NatOfShowNat(n: nat)
    ensures NatOf(ShowNat(n)) == n
    decreases n
  {
    if n >= 10 {
      NatOfShowNat(n / 10);
      var s := ShowNat(n);
      assert s[..|s| - 1] == ShowNat(n / 10);
    }
  }

  /** A number can start here: a digit, or a `.` followed by a digit. */
  predicate StartsNumber(t: string) {
    |t| > 0 && (IsDigit(t[0]) || (t[0] == '.' && |t| > 1 && IsDigit(t[1])))
  }

  /** The text after an optional leading minus sign. */
  function Unsigned(s: string): string {
    if |s| > 0 && s[0] == '-' then s[1..] else s
  }

  /** `ip.fp` as a number. */
  function DecimalValue(ip: string, fp: string): (r: real)
    requires AllDigits(ip) && AllDigits(fp)
    ensures r >= 0.0
  {
    NatOf(ip) as real + NatOf(fp) as real / Pow10(|fp|) as real
  }

  /** The digits after a leading `.`, if any. */
  function FracDigits(rest: string): (r: string)
    ensures AllDigits(r)
    ensures |r| > 0 <==> |rest| > 1 && rest[0] == '.' && IsDigit(rest[1])
  {
    if |rest| > 0 && rest[0] == '.' then rest[1..][..DigitRun(rest[1..])] else ""
  }

  /**
   * The unsigned decimal at the head of `t`: digits, then optionally `.` and digits, the
   * longest such prefix; `None` when it holds no digit.
   */
  function Magnitude(t: string): (r: Option<real>)
    ensures r.Some? <==> StartsNumber(t)
    ensures r.Some? ==> r.value >= 0.0
  {
    var k := DigitRun(t);
    var frac := FracDigits(t[k..]);
    if k == 0 && |frac| == 0 then None else Some(DecimalValue(t[..k], frac))
  }

  /**
   * `parseFloat(s)` for text over digits, `.` and `-` (every call site strips all other
   * characters first): an optional minus, then the longest decimal prefix; `NaN` when none.
   */
  function ParseFloat(s: string): (r: Num)
    ensures !r.Null?
    ensures r.NaN? <==> !StartsNumber(Unsigned(s))
    ensures r.Val? && (|s| == 0 || s[0] != '-') ==> r.v >= 0.0
  {
    var neg := |s| > 0 && s[0] == '-';
    match Magnitude(Unsigned(s))
    case None => NaN
    case Some(m) => Val(if neg then -m else m)
  }

  /** A digit string is all magnitude. */
  lemma MagnitudeOfDigits(ds: string)
    requires |ds| > 0 && AllDigits(ds)
    ensures Magnitude(ds) == Some(DecimalValue(ds, ""))
  {
    assert DigitRun(ds) == |ds|;
    assert ds[|ds|..] == "";
    assert ds[..|ds|] == ds;
    assert FracDigits("") == "";
  }

  /** A digit string reads as its value. */
  lemma ParseDigits(ds: string)
    requires |ds| > 0 && AllDigits(ds)
    ensures ParseFloat(ds) == Val(NatOf(ds) as real)
  {
    assert IsDigit(ds[0]);
    assert Unsigned(ds) == ds;
    MagnitudeOfDigits(ds);
    WholeDecimal(ds);
    assert ParseFloat(ds) == Val(DecimalValue(ds, ""));
  }

  /** Digits without a fractional part read as their whole value. */
  lemma WholeDecimal(ds: string)
    requires AllDigits(ds)
    ensures DecimalValue(ds, "") == NatOf(ds) as real
  {
    assert NatOf("") == 0 && Pow10(0) == 1;
  }

  /** A digit run stops at the first non-digit. */
  lemma DigitRunStops(x: string, y: string)
    requires AllDigits(x) && (|y| == 0 || !IsDigit(y[0]))
    ensures DigitRun(x + y) == |x|
  {
    var t := x + y;
    assert forall i :: 0 <= i < |x| ==> IsDigit(t[i]);
    assert |y| > 0 ==> t[|x|] == y[0];
  }

  /** `ip.fp` followed by anything not starting with a digit reads as `ip.fp`. */
  lemma MagnitudeOfDecimal(ip: string, fp: string, tail: string)
    requires AllDigits(ip) && AllDigits(fp) && |ip| + |fp| > 0
    requires |tail| == 0 || !IsDigit(tail[0])
    ensures Magnitude(ip + "." + fp + tail) == Some(DecimalValue(ip, fp))
  {
    var t := ip + "." + fp + tail;
    assert t == ip + ("." + fp + tail);
    DigitRunStops(ip, "." + fp + tail);
    assert t[..|ip|] == ip;
    var rest := t[|ip|..];
    assert rest == "." + fp + tail && rest[1..] == fp + tail;
    DigitRunStops(fp, tail);
    assert (fp + tail)[..|fp|] == fp;
    assert FracDigits(rest) == fp;
  }

  /** `ip.fp` reads as `ip + fp / 10^|fp|`, and a leading minus negates it. */
  lemma ParseDecimal(ip: string, fp: string)
    requires AllDigits(ip) && AllDigits(fp) && |ip| + |fp| > 0
    ensures ParseFloat(ip + "." + fp) == Val(DecimalValue(ip, fp))
    ensures ParseFloat("-" + ip + "." + fp) == Val(-DecimalValue(ip, fp))
  {
    var t := ip + "." + fp;
    UnsignedDecimal(ip, fp);
    NegatedDecimal(ip, fp);
  }

  /** The text `ip.fp` carries no sign and its magnitude is the decimal's value. */
  lemma UnsignedDecimal(ip: string, fp: string)
    requires AllDigits(ip) && AllDigits(fp) && |ip| + |fp| > 0
    ensures Unsigned(ip + "." + fp) == ip + "." + fp
    ensures Magnitude(ip + "." + fp) == Some(DecimalValue(ip, fp))
  {
    var t := ip + "." + fp;
    MagnitudeOfDecimal(ip, fp, "");
    assert t + "" == t;
    assert |ip| > 0 ==> t[0] == ip[0];
    assert |ip| == 0 ==> t[0] == '.';
  }

  /** The minus sign in front of `ip.fp` is what `Unsigned` removes. */
  lemma NegatedDecimal(ip: string, fp: string)
    ensures Unsigned("-" + ip + "." + fp) == ip + "." + fp
  {
    var t := ip + "." + fp;
    assert "-" + ip + "." + fp == "-" + t;
    assert ("-" + t)[1..] == t;
  }

  /** Printing a natural number and parsing it back gives the number, with either sign. */
  lemma ParseShowNat(n: nat)
    ensures ParseFloat(ShowNat(n)) == Val(n as real)
    ensures ParseFloat("-" + ShowNat(n)) == Val(-(n as real))
  {
    var s := ShowNat(n);
    NatOfShowNat(n);
    ParseDigits(s);
    assert ("-" + s)[1..] == s;
  }

  /**
   * lat/lon: `(v ?? "").toString().trim().replace(",", ".")`, then the `[^\d.\-]` strip and
   * `parseFloat`. Only the FIRST comma becomes a decimal point; later ones are stripped.
   */
  function ParseCoord(v: Option<string>): (r: Num)
    ensures !r.Null?
    ensures v.None? ==> r == NaN
    ensures ',' !in v.GetOr("") ==> r == ParseFloat(KeepNumeric(v.GetOr("")))
  {
    var s := v.GetOr("");
    assert ',' !in s ==> KeepNumeric(ReplaceFirst(Trim(s), ',', '.')) == KeepNumeric(s) by {
      if ',' !in s {
        CommaFreeStrip(s);
      }
    }
    ParseFloat(KeepNumeric(ReplaceFirst(Trim(s), ',', '.')))
  }

  /** Optional start coordinates: as `ParseCoord`, but `null` for a missing or all-stripped value. */
  function ParseOptCoord(v: Option<string>): (r: Num)
    ensures r.Null? <==> v.None? || KeepNumeric(ReplaceFirst(Trim(v.value), ',', '.')) == ""
    ensures !r.Null? ==> r == ParseCoord(v)
  {
    match v
    case None => Null
    case Some(s) =>
      var raw := KeepNumeric(ReplaceFirst(Trim(s), ',', '.'));
      if raw == "" then Null else ParseFloat(raw)
  }

  /**
   * aboard/fatal: trim, delete EVERY comma (a thousands separator), strip, then `parseFloat`;
   * `null` for a missing or all-stripped value.
   */
  function ParseCount(v: Option<string>): (r: Num)
    ensures r.Null? <==> v.None? || KeepNumeric(v.value) == ""
    ensures !r.Null? ==> r == ParseFloat(KeepNumeric(v.value))
  {
    match v
    case None => Null
    case Some(s) =>
      KeepNumericIgnoresTrimAndCommas(s);
      var raw := KeepNumeric(DeleteAll(Trim(s), ','));
      if raw == "" then Null else ParseFloat(raw)
  }

  /** The graphs page's aboard/fatal parsing: as `ParseCount` but without the `trim()`. */
  function ParseCountUntrimmed(v: Option<string>): (r: Num)
    ensures r == ParseCount(v)
  {
    assert v.Some? ==> KeepNumeric(DeleteAll(v.value, ',')) == KeepNumeric(DeleteAll(Trim(v.value), ',')) by {
      if v.Some? {
        KeepNumericIgnoresTrimAndCommas(v.value);
        KeepNumericDeleteAll(v.value, ',');
      }
    }
    match v
    case None => Null
    case Some(s) =>
      var raw := KeepNumeric(DeleteAll(s, ','));
      if raw == "" then Null else ParseFloat(raw)
  }

  /**
   * `parseNum(v)`: `null` for `null`, for text with nothing left after the strip and for
   * text that does not parse; otherwise the number, read with EVERY comma turned into a dot.
   */
  function ParseNum(v: Option<string>): (r: Option<real>)
    ensures v.None? ==> r.None?
    ensures r.Some? ==> ParseFloat(KeepNumeric(ReplaceAll(Trim(v.value), ',', '.'))) == Val(r.value)
    ensures v.Some? && r.None? ==> !ParseFloat(KeepNumeric(ReplaceAll(Trim(v.value), ',', '.'))).Val?
  {
    match v
    case None => None
    case Some(s) =>
      var raw := KeepNumeric(ReplaceAll(Trim(s), ',', '.'));
      if raw == "" then None else AsOption(ParseFloat(raw))
  }

  /** Not a comma. */
  predicate NotComma(c: char) {
    c != ','
  }

  /**
   * The strip keeps only digits, `.` and `-`, so neither the `trim()` nor the comma deletion
   * before it changes what is parsed.
   */
  lemma KeepNumericIgnoresTrimAndCommas(s: string)
    ensures KeepNumeric(Trim(s)) == KeepNumeric(s)
    ensures KeepNumeric(DeleteAll(Trim(s), ',')) == KeepNumeric(s)
  {
    KeepNumericTrim(s);
    KeepNumericDeleteAll(Trim(s), ',');
  }

  /** The strip removes whitespace anyway. */
  lemma KeepNumericTrim(s: string)
    ensures KeepNumeric(Trim(s)) == KeepNumeric(s)
  {
    var lead, trail := TrimSplit(s);
    KeepNumericSpaces(lead);
    KeepNumericSpaces(trail);
    FilterConcat(lead + Trim(s), trail, IsNumChar);
    FilterConcat(lead, Trim(s), IsNumChar);
  }

  /** `s` is its trim with whitespace on either side. */
  lemma TrimSplit(s: string) returns (lead: string, trail: string)
    ensures s == lead + Trim(s) + trail
    ensures forall k :: 0 <= k < |lead| ==> IsSpace(lead[k])
    ensures forall k :: 0 <= k < |trail| ==> IsSpace(trail[k])
  {
    var t := TrimStart(s);
    lead, trail := SpaceAround(s, t, TrimEnd(t));
  }

  /** Cutting whitespace off the front of `s` and then off the back leaves `r` with both cuts around it. */
  lemma SpaceAround(s: string, t: string, r: string) returns (lead: string, trail: string)
    requires |t| <= |s| && t == s[|s| - |t|..] && forall i :: 0 <= i < |s| - |t| ==> IsSpace(s[i])
    requires |r| <= |t| && r == t[..|r|] && forall i :: |r| <= i < |t| ==> IsSpace(t[i])
    ensures s == lead + r + trail
    ensures forall k :: 0 <= k < |lead| ==> IsSpace(lead[k])
    ensures forall k :: 0 <= k < |trail| ==> IsSpace(trail[k])
  {
    lead, trail := s[..|s| - |t|], t[|r|..];
    SliceSplit(s, |s| - |t|);
    SliceSplit(t, |r|);
    Regroup(s, t, lead, r, trail);
  }

  /** A run of whitespace has nothing numeric in it. */
  lemma {:induction false} KeepNumericSpaces(s: string)
    requires forall i :: 0 <= i < |s| ==> IsSpace(s[i])
    ensures KeepNumeric(s) == ""
    decreases |s|
  {
    if |s| > 0 {
      KeepNumericSpaces(s[1..]);
    }
  }

  /** Deleting a non-numeric character before the strip changes nothing. */
  lemma {:induction false} KeepNumericDeleteAll(s: string, a: char)
    requires !IsNumChar(a)
    ensures KeepNumeric(DeleteAll(s, a)) == KeepNumeric(s)
    decreases |s|
  {
    if |s| > 0 {
      KeepNumericDeleteAll(s[1..], a);
      assert DeleteAll(s, a) == (if s[0] != a then [s[0]] else []) + DeleteAll(s[1..], a);
      FilterConcat(if s[0] != a then [s[0]] else [], DeleteAll(s[1..], a), IsNumChar);
    }
  }


  /** How many times `a` occurs. */
  function Occurrences(s: string, a: char): nat
    decreases |s|
  {
    if |s| == 0 then 0 else (if s[0] == a then 1 else 0) + Occurrences(s[1..], a)
  }

  /** With at most one `a`, replacing the first `a` is replacing all of them. */
  lemma {:induction false} ReplaceFirstIsAll(s: string, a: char, b: char)
    requires Occurrences(s, a) <= 1
    ensures ReplaceFirst(s, a, b) == ReplaceAll(s, a, b)
    decreases |s|
  {
    if |s| > 0 {
      if s[0] == a {
        OccurrencesZero(s[1..], a);
        ReplaceAbsent(s[1..], a, b);
      } else {
        ReplaceFirstIsAll(s[1..], a, b);
      }
    }
  }

  lemma {:induction false} OccurrencesZero(s: string, a: char)
    requires Occurrences(s, a) == 0
    ensures a !in s
    decreases |s|
  {
    if |s| > 0 {
      OccurrencesZero(s[1..], a);
    }
  }

  /**
   * `parseNum` agrees with the coordinate parser on text with at most one comma: the two
   * comma conventions part only at the second comma.
   */
  lemma ParseNumAgreesWithCoord(s: string)
    requires Occurrences(s, ',') <= 1
    ensures ParseNum(Some(s)) == AsOption(ParseOptCoord(Some(s)))
  {
    TrimKeepsAtMostOne(s);
    ReplaceFirstIsAll(Trim(s), ',', '.');
  }

  /** Trimming never adds an occurrence. */
  lemma TrimKeepsAtMostOne(s: string)
    requires Occurrences(s, ',') <= 1
    ensures Occurrences(Trim(s), ',') <= 1
  {
    var t := Trim(s);
    var i := TrimOffset(s);
    var lead, trail := s[..i], s[i + |t|..];
    assert s == lead + (t + trail);
    OccurrencesConcat(lead, t + trail, ',');
    OccurrencesConcat(t, trail, ',');
  }

  lemma {:induction false} OccurrencesConcat(x: string, y: string, a: char)
    ensures Occurrences(x + y, a) == Occurrences(x, a) + Occurrences(y, a)
    decreases |x|
  {
    if |x| > 0 {
      assert (x + y)[1..] == x[1..] + y;
      OccurrencesConcat(x[1..], y, a);
    } else {
      assert x + y == y;
    }
  }

  /**
   * On comma-free text the count and coordinate parsers agree, and `parseNum` is the count
   * parser with `NaN` read as `null`.
   */
  lemma CommaFreeParsersAgree(s: string)
    requires ',' !in s
    ensures ParseOptCoord(Some(s)) == ParseCount(Some(s))
    ensures ParseNum(Some(s)) == AsOption(ParseCount(Some(s)))
  {
    CommaFreeStrip(s);
    var raw := KeepNumeric(s);
    assert ParseOptCoord(Some(s)) == ParseCount(Some(s)) by {
      assert KeepNumeric(ReplaceFirst(Trim(s), ',', '.')) == raw;
    }
    assert ParseNum(Some(s)) == AsOption(ParseCount(Some(s))) by {
      assert KeepNumeric(ReplaceAll(Trim(s), ',', '.')) == raw;
    }
  }

  /** Without a comma, the comma handling of the coordinate and `parseNum` strips changes nothing. */
  lemma CommaFreeStrip(s: string)
    requires ',' !in s
    ensures KeepNumeric(ReplaceFirst(Trim(s), ',', '.')) == KeepNumeric(s)
    ensures KeepNumeric(ReplaceAll(Trim(s), ',', '.')) == KeepNumeric(s)
  {
    var t := Trim(s);
    var i := TrimOffset(s);
    assert ',' !in t by {
      assert forall k :: 0 <= k < |t| ==> t[k] == s[i + k];
    }
    ReplaceAbsent(t, ',', '.');
    KeepNumericTrim(s);
  }

  /** The count parser is the start-coordinate parser applied after deleting every comma. */
  lemma ParseCountAsCoord(v: Option<string>)
    requires v.Some?
    ensures ParseCount(v) == ParseOptCoord(Some(DeleteAll(v.value, ',')))
  {
    var t := DeleteAll(v.value, ',');
    CommaFreeParsersAgree(t);
    KeepNumericDeleteAll(v.value, ',');
  }


  /** Keeping every element. */
  lemma KeepDigits(ds: string)
    requires AllDigits(ds)
    ensures KeepNumeric(ds) == ds
  {
    FilterKeepsAll(ds, IsNumChar);
  }

  /** Digits, a comma, digits, a comma, digits: no whitespace at either end. */
  lemma TrimOfTwoCommas(a: string, b: string, c: string)
    requires |a| > 0 && |c| > 0 && AllDigits(a) && AllDigits(c)
    ensures Trim(a + "," + b + "," + c) == a + "," + b + "," + c
  {
    var s := a + "," + b + "," + c;
    assert s[0] == a[0] && s[|s| - 1] == c[|c| - 1];
    TrimOfTrimmed(s);
  }

  /** The coordinate parser reads `a,b,c` as `a.bc`: the second comma is stripped. */
  lemma CoordOfTwoCommas(a: string, b: string, c: string)
    requires |a| > 0 && |c| > 0 && AllDigits(a) && AllDigits(b) && AllDigits(c)
    ensures AllDigits(b + c)
    ensures ParseCoord(Some(a + "," + b + "," + c)) == Val(DecimalValue(a, b + c))
  {
    TrimOfTwoCommas(a, b, c);
    CoordStripOfTwoCommas(a, b, c);
    ParseDecimal(a, b + c);
  }

  lemma CoordStripOfTwoCommas(a: string, b: string, c: string)
    requires |a| > 0 && AllDigits(a) && AllDigits(b) && AllDigits(c)
    ensures KeepNumeric(ReplaceFirst(a + "," + b + "," + c, ',', '.')) == a + "." + (b + c)
  {
    TwoCommasRegrouped(a, b, c);
    ReplaceFirstAfter(a, b + "," + c);
    KeepNumericAroundComma(a + "." + b, c);
    KeepDigitsAndDots(a + "." + b);
    KeepDigits(c);
  }

  lemma TwoCommasRegrouped(a: string, b: string, c: string)
    ensures a + "," + b + "," + c == a + "," + (b + "," + c)
    ensures a + "." + (b + "," + c) == (a + "." + b) + "," + c
    ensures (a + "." + b) + c == a + "." + (b + c)
  {
  }

  /** The count parser reads `a,b,c` as the integer `abc`: every comma is a thousands separator. */
  lemma CountOfTwoCommas(a: string, b: string, c: string)
    requires |a| > 0 && |c| > 0 && AllDigits(a) && AllDigits(b) && AllDigits(c)
    ensures AllDigits(a + b + c)
    ensures ParseCount(Some(a + "," + b + "," + c)) == Val(NatOf(a + b + c) as real)
  {
    var s := a + "," + b + "," + c;
    TrimOfTwoCommas(a, b, c);
    KeepNumericDeleteAll(s, ',');
    CountStripOfTwoCommas(a, b, c);
    ParseDigits(a + b + c);
  }

  lemma CountStripOfTwoCommas(a: string, b: string, c: string)
    requires AllDigits(a) && AllDigits(b) && AllDigits(c)
    ensures KeepNumeric(a + "," + b + "," + c) == a + b + c
  {
    KeepNumericAroundComma(a, b);
    KeepNumericAroundComma(a + "," + b, c);
    KeepDigits(a);
    KeepDigits(b);
    KeepDigits(c);
  }

  /** `parseNum` reads `a,b,c` as `a.b.c`, which `parseFloat` cuts at the second point: `a.b`. */
  lemma ParseNumOfTwoCommas(a: string, b: string, c: string)
    requires |a| > 0 && |c| > 0 && AllDigits(a) && AllDigits(b) && AllDigits(c)
    ensures ParseNum(Some(a + "," + b + "," + c)) == Some(DecimalValue(a, b))
  {
    TrimOfTwoCommas(a, b, c);
    ParseNumStripOfTwoCommas(a, b, c);
  }

  lemma ParseNumStripOfTwoCommas(a: string, b: string, c: string)
    requires |a| > 0 && AllDigits(a) && AllDigits(b) && AllDigits(c)
    ensures KeepNumeric(ReplaceAll(a + "," + b + "," + c, ',', '.')) == a + "." + b + "." + c
    ensures ParseFloat(a + "." + b + "." + c) == Val(DecimalValue(a, b))
  {
    var s := a + "," + b + "," + c;
    assert ReplaceAll(s, ',', '.') == a + "." + b + "." + c;
    KeepDigitsAndDots(a + "." + b + "." + c);
    MagnitudeOfDecimal(a, b, "." + c);
    assert a + "." + b + ("." + c) == a + "." + b + "." + c;
    assert (a + "." + b + "." + c)[0] == a[0];
  }

  lemma KeepDigitsAndDots(s: string)
    requires forall i :: 0 <= i < |s| ==> IsDigit(s[i]) || s[i] == '.'
    ensures KeepNumeric(s) == s
  {
    FilterKeepsAll(s, IsNumChar);
  }

  /** The strip deletes a comma and keeps what is numeric on either side of it. */
  lemma KeepNumericAroundComma(x: string, y: string)
    ensures KeepNumeric(x + "," + y) == KeepNumeric(x) + KeepNumeric(y)
  {
    FilterConcat(x + ",", y, IsNumChar);
    FilterConcat(x, ",", IsNumChar);
    assert Filter(",", IsNumChar) == "";
  }

  /** The strip joins the digits on either side of a comma. */
  lemma KeepNumericDropsComma(x: string, y: string)
    requires forall i :: 0 <= i < |x| ==> IsNumChar(x[i])
    requires AllDigits(y)
    ensures KeepNumeric(x + "," + y) == x + y
  {
    KeepNumericAroundComma(x, y);
    FilterKeepsAll(x, IsNumChar);
    FilterKeepsAll(y, IsNumChar);
  }

  /** The first comma of `x,y` for a comma-free `x` is the one after `x`. */
  lemma {:induction false} ReplaceFirstAfter(x: string, y: string)
    requires AllDigits(x)
    ensures ReplaceFirst(x + "," + y, ',', '.') == x + "." + y
    decreases |x|
  {
    if |x| == 0 {
      assert x + "," + y == [','] + y;
    } else {
      assert (x + "," + y)[1..] == x[1..] + "," + y;
      ReplaceFirstAfter(x[1..], y);
      assert [x[0]] + (x[1..] + "." + y) == x + "." + y;
    }
  }
}

=== FILE: records.dfy ===
/**
 * Crash records: how a row of the `;`-separated crash table becomes a record, and which
 * records are kept.
 *
 * Columns are found by name: the first header name whose lower-cased text contains a word
 * (`lat`, `date`, ...). The shared filter engine and the map page build identical records; the
 * graphs page builds its own variant (no trimming of counts, no whitespace collapsing, optional
 * coordinates, parsed weather measurements).
 */
module Records {
  import opened Wrappers
  import opened Seqs
  import opened Text
  import opened Numbers
  import opened Conditions
  import opened WeatherColumns

  /** One row as `d3.dsv` yields it: column name to cell text. */
  type Row = map<string, string>

  /** A loaded table: the header's column names, in order, and the rows. */
  datatype Table = Table(columns: seq<string>, rows: seq<Row>)

  /** `d[key]` for a key that may be `undefined`. */
  function Cell(row: Row, key: Option<string>): (r: Option<string>)
    ensures r.Some? <==> key.Some? && key.value in row
  {
    if key.Some? && key.value in row then Some(row[key.value]) else None
  }

  /** The lower-cased name mentions `word`. */
  predicate Mentions(k: string, word: string) {
    Contains(Lower(k), word)
  }

  predicate LatCol(k: string) { Mentions(k, "lat") }
  predicate LonCol(k: string) { Mentions(k, "lon") }
  predicate DateCol(k: string) { Mentions(k, "date") }
  predicate TimeCol(k: string) { Mentions(k, "time") }
  predicate LocationCol(k: string) { Mentions(k, "location") }
  predicate OperatorCol(k: string) { Mentions(k, "operator") }
  predicate RouteCol(k: string) { Mentions(k, "route") }
  predicate TypeCol(k: string) { Mentions(k, "type") }
  predicate SummaryCol(k: string) { Mentions(k, "summary") }

  predicate AboardCol(k: string) {
    Mentions(k, "aboard") || Mentions(k, "abo")
  }

  predicate FatalCol(k: string) {
    Mentions(k, "fatal") || Mentions(k, "death") || Mentions(k, "fat")
  }

  predicate StartLatCol(k: string) {
    (Mentions(k, "start") && Mentions(k, "lat"))
    || (Mentions(k, "origin") && Mentions(k, "lat"))
    || (Mentions(k, "orig") && Mentions(k, "lat"))
  }

  predicate StartLonCol(k: string) {
    (Mentions(k, "start") && Mentions(k, "lon"))
    || (Mentions(k, "origin") && Mentions(k, "lon"))
    || (Mentions(k, "orig") && Mentions(k, "lon"))
  }

  /** The detected column of each field; `None` where no header name matched. */
  datatype Columns = Columns(
    lat: Option<string>, lon: Option<string>, date: Option<string>, time: Option<string>,
    location: Option<string>, operator: Option<string>, route: Option<string>,
    kind: Option<string>, summary: Option<string>, general: Option<string>,
    aboard: Option<string>, fatal: Option<string>,
    startLat: Option<string>, startLon: Option<string>)

  /** Column detection over `Object.keys` of the first row. */
  function DetectColumns(keys: seq<string>): (r: Columns)
    ensures r.lat.None? <==> forall j :: 0 <= j < |keys| ==> !LatCol(keys[j])
    ensures r.date.None? <==> forall j :: 0 <= j < |keys| ==> !DateCol(keys[j])
    ensures r.aboard.Some? ==> r.aboard.value in keys && AboardCol(r.aboard.value)
  {
    Columns(
      Find(keys, LatCol), Find(keys, LonCol), Find(keys, DateCol), Find(keys, TimeCol),
      Find(keys, LocationCol), Find(keys, OperatorCol), Find(keys, RouteCol),
      Find(keys, TypeCol), Find(keys, SummaryCol), Find(keys, GeneralCol),
      Find(keys, AboardCol), Find(keys, FatalCol),
      Find(keys, StartLatCol), Find(keys, StartLonCol))
  }

  /** The weather part of a record. */
  datatype Weather =
    | NoWeather
      /** The shared records keep the raw `Temp_Max` ... `Pressure` cells. */
    | RawCells(tempMax: Option<string>, tempMin: Option<string>, precipitation: Option<string>,
               windMax: Option<string>, cloudCover: Option<string>, pressure: Option<string>)
      /** The graphs records hold parsed measurements. */
    | Measured(tempAvg: Option<real>, precip: Option<real>, wind: Option<real>,
               cloud: Option<real>, press: Option<real>)

  /** One crash. */
  datatype Record = Record(
    lat: Num, lon: Num, year: Option<int>, dateStr: Option<string>,
    timeStr: string, locationStr: string, operatorStr: string, routeStr: string,
    typeStr: string, summaryStr: string, conditions: seq<string>,
    aboard: Num, fatal: Num, fatalPct: Num, startLat: Num, startLon: Num,
    weather: Weather)

  /**
   * The fatality percentage: `fatal / aboard * 100` when aboard is a positive number and
   * fatal a number; `null` otherwise.
   */
  function FatalPct(aboard: Num, fatal: Num): (r: Num)
    ensures r.Val? <==> aboard.Val? && aboard.v > 0.0 && fatal.Val?
    ensures !r.NaN?
    ensures r.Val? ==> r.v * aboard.v == fatal.v * 100.0
    ensures r.Val? && 0.0 <= fatal.v <= aboard.v ==> 0.0 <= r.v <= 100.0
  {
    if aboard.Val? && aboard.v > 0.0 && fatal.Val? then Val(fatal.v / aboard.v * 100.0) else Null
  }

  /** `date ? (new Date(date)).getFullYear() : null`, supplied by the caller. */
  type YearOf = string -> Option<int>

  /** A truthy year: present and not 0. */
  predicate YearTruthy(y: Option<int>) {
    y.Some? && y.value != 0
  }

  /** `d.year` in a numeric comparison: `null` counts as 0. */
  function YearNum(y: Option<int>): int {
    y.GetOr(0)
  }

  /** The record of one row, as the shared filters and the map page build it. */
  function ParseRecord(cols: Columns, row: Row, yearOf: YearOf): (r: Record)
    ensures r.lat == ParseCoord(Cell(row, cols.lat)) && r.lon == ParseCoord(Cell(row, cols.lon))
    ensures r.dateStr.Some? <==> Cell(row, cols.date).Some? && Cell(row, cols.date).value != ""
    ensures r.dateStr.None? ==> r.year.None?
    ensures forall i :: 0 <= i < |r.conditions| ==> IsTag(r.conditions[i])
    ensures r.fatalPct == FatalPct(r.aboard, r.fatal)
    ensures cols.aboard.None? ==> r.aboard.Null?
    ensures r.aboard == ParseCount(Cell(row, cols.aboard)) && r.fatal == ParseCount(Cell(row, cols.fatal))
    ensures r.dateStr.Some? ==> r.year == yearOf(r.dateStr.value)
    ensures r.startLat == ParseOptCoord(Cell(row, cols.startLat)) && r.startLon == ParseOptCoord(Cell(row, cols.startLon))
  {
    var date := Cell(row, cols.date);
    var dateStr := if date.Some? && date.value != "" then date else None;
    var aboard := ParseCount(Cell(row, cols.aboard));
    var fatal := ParseCount(Cell(row, cols.fatal));
    Record(
      ParseCoord(Cell(row, cols.lat)), ParseCoord(Cell(row, cols.lon)),
      if dateStr.Some? then yearOf(dateStr.value) else None, dateStr,
      Cell(row, cols.time).GetOr(""), Cell(row, cols.location).GetOr(""),
      Cell(row, cols.operator).GetOr(""), Cell(row, cols.route).GetOr(""),
      Cell(row, cols.kind).GetOr(""), Cell(row, cols.summary).GetOr(""),
      ParseConditions(Cell(row, cols.general).GetOr("")),
      aboard, fatal, FatalPct(aboard, fatal),
      ParseOptCoord(Cell(row, cols.startLat)), ParseOptCoord(Cell(row, cols.startLon)),
      RawCells(Cell(row, Some("Temp_Max")), Cell(row, Some("Temp_Min")),
               Cell(row, Some("Precipitation")), Cell(row, Some("Wind_Max")),
               Cell(row, Some("Cloud_Cover")), Cell(row, Some("Pressure"))))
  }

  /** A parsed record's conditions are the tags of its row's weather description. */
  lemma ParseRecordConditions(cols: Columns, row: Row, yearOf: YearOf)
    ensures ParseRecord(cols, row, yearOf).conditions == ParseConditions(Cell(row, cols.general).GetOr(""))
  {
  }

  /**
   * The map page's row parse: the shared parse without the weather cells, so the two agree
   * on every other field and on the row filter.
   */
  function ParseMapRecord(cols: Columns, row: Row, yearOf: YearOf): (r: Record)
    ensures r.weather == NoWeather
    ensures r.(weather := ParseRecord(cols, row, yearOf).weather) == ParseRecord(cols, row, yearOf)
    ensures Accept(r) <==> Accept(ParseRecord(cols, row, yearOf))
  {
    ParseRecord(cols, row, yearOf).(weather := NoWeather)
  }

  /**
   * The row filter every page applies after parsing: coordinates not `NaN` and within
   * range (`null` passes as 0), and a truthy year.
   */
  predicate Accept(r: Record): (ok: bool)
    ensures ok ==> YearTruthy(r.year) && !r.lat.NaN? && !r.lon.NaN?
    ensures ok && r.lat.Val? ==> -90.0 <= r.lat.v <= 90.0
    ensures ok && r.lon.Val? ==> -180.0 <= r.lon.v <= 180.0
    ensures r.lat.Null? && r.lon.Null? ==> (ok <==> YearTruthy(r.year))
  {
    && !r.lat.NaN? && !r.lon.NaN?
    && Ge(r.lat, -90.0) && Le(r.lat, 90.0)
    && Ge(r.lon, -180.0) && Le(r.lon, 180.0)
    && YearTruthy(r.year)
  }

  /** `rows.map(parse)`. */
  function ParseRows(cols: Columns, rows: seq<Row>, yearOf: YearOf): (r: seq<Record>)
    ensures |r| == |rows|
    ensures forall i :: 0 <= i < |rows| ==> r[i] == ParseRecord(cols, rows[i], yearOf)
  {
    seq(|rows|, i requires 0 <= i < |rows| => ParseRecord(cols, rows[i], yearOf))
  }

  /**
   * The row filter applied to parsed rows: exactly the rows that pass, every copy of each,
   * in their original order.
   */
  function Accepted(parsed: seq<Record>): (r: seq<Record>)
    ensures forall i :: 0 <= i < |r| ==> Accept(r[i])
    ensures forall x :: x in parsed && Accept(x) ==> x in r
    ensures forall x :: multiset(r)[x] == if Accept(x) then multiset(parsed)[x] else 0
    ensures IsSubseq(r, parsed)
  {
    FilterMembers(parsed, Accept);
    FilterCount(parsed, Accept);
    FilterIsSubseq(parsed, Accept);
    Filter(parsed, Accept)
  }

  /** The records the shared filters load from a non-empty table. */
  function LoadShared(t: Table, yearOf: YearOf): (r: seq<Record>)
    ensures forall i :: 0 <= i < |r| ==> Accept(r[i])
    ensures forall x :: x in ParseRows(DetectColumns(t.columns), t.rows, yearOf) && Accept(x) ==> x in r
    ensures forall x ::
      multiset(r)[x] == if Accept(x) then multiset(ParseRows(DetectColumns(t.columns), t.rows, yearOf))[x] else 0
    ensures IsSubseq(r, ParseRows(DetectColumns(t.columns), t.rows, yearOf))
  {
    Accepted(ParseRows(DetectColumns(t.columns), t.rows, yearOf))
  }

  /** The records of the shared filters, characterised: each is a parsed row that passed. */
  predicate WellFormed(r: Record) {
    && r.lat.Val? && -90.0 <= r.lat.v <= 90.0
    && r.lon.Val? && -180.0 <= r.lon.v <= 180.0
    && YearTruthy(r.year) && r.dateStr.Some?
    && !r.fatalPct.NaN?
    && (r.fatalPct.Val? ==> r.aboard.Val? && r.aboard.v > 0.0 && r.fatal.Val?
                            && r.fatalPct.v * r.aboard.v == r.fatal.v * 100.0)
    && forall i :: 0 <= i < |r.conditions| ==> IsTag(r.conditions[i])
  }

  /** A parsed row that passes the row filter is well formed. */
  lemma AcceptedIsWellFormed(cols: Columns, row: Row, yearOf: YearOf)
    ensures Accept(ParseRecord(cols, row, yearOf)) ==> WellFormed(ParseRecord(cols, row, yearOf))
  {
    var r := ParseRecord(cols, row, yearOf);
    AcceptedShape(r);
  }

  /** What the row filter adds to the facts every parsed record satisfies. */
  lemma AcceptedShape(r: Record)
    requires !r.lat.Null? && !r.lon.Null? && (r.dateStr.None? ==> r.year.None?)
    requires r.fatalPct == FatalPct(r.aboard, r.fatal)
    requires forall i :: 0 <= i < |r.conditions| ==> IsTag(r.conditions[i])
    ensures Accept(r) ==> WellFormed(r)
  {
  }

  /** Every loaded record has numeric in-range coordinates, a year, and a consistent percentage. */
  lemma LoadedWellFormed(t: Table, yearOf: YearOf)
    ensures forall i :: 0 <= i < |LoadShared(t, yearOf)| ==> WellFormed(LoadShared(t, yearOf)[i])
  {
    var cols := DetectColumns(t.columns);
    var parsed := ParseRows(cols, t.rows, yearOf);
    forall i | 0 <= i < |parsed|
      ensures Accept(parsed[i]) ==> WellFormed(parsed[i])
    {
      AcceptedIsWellFormed(cols, t.rows[i], yearOf);
    }
    FilterImplies(parsed, Accept, WellFormed);
  }

  /** `parseFloat("")` is `NaN`. */
  lemma ParseFloatEmpty()
    ensures ParseFloat("") == NaN
    ensures ParseCoord(None) == NaN
  {
    TrimOfTrimmed("");
    assert KeepNumeric("") == "";
    assert ReplaceFirst("", ',', '.') == "";
  }

  /** A row parsed without a latitude column has a `NaN` latitude and fails the row filter. */
  lemma NoLatRejected(cols: Columns, row: Row, yearOf: YearOf)
    requires cols.lat.None?
    ensures !Accept(ParseRecord(cols, row, yearOf))
  {
    var r := ParseRecord(cols, row, yearOf);
    assert Cell(row, cols.lat) == None;
    assert ParseCoord(None) == NaN;
    assert r.lat.NaN?;
  }

  /** A row parsed without a date column has no date and fails the row filter. */
  lemma NoDateRejected(cols: Columns, row: Row, yearOf: YearOf)
    requires cols.date.None?
    ensures !Accept(ParseRecord(cols, row, yearOf))
  {
    assert ParseRecord(cols, row, yearOf).dateStr.None?;
  }

  /**
   * Without a latitude column every latitude is `NaN` and nothing is loaded; the map page
   * stops before parsing in the same case.
   */
  lemma NoLatColumnLoadsNothing(t: Table, yearOf: YearOf)
    requires DetectColumns(t.columns).lat.None?
    ensures LoadShared(t, yearOf) == []
  {
    var cols := DetectColumns(t.columns);
    var parsed := ParseRows(cols, t.rows, yearOf);
    forall i | 0 <= i < |parsed|
      ensures !Accept(parsed[i])
    {
      NoLatRejected(cols, t.rows[i], yearOf);
    }
    FilterNone(parsed, Accept);
  }

  /** Without a date column no record has a year, and nothing is loaded. */
  lemma NoDateColumnLoadsNothing(t: Table, yearOf: YearOf)
    requires DetectColumns(t.columns).date.None?
    ensures LoadShared(t, yearOf) == []
  {
    var cols := DetectColumns(t.columns);
    var parsed := ParseRows(cols, t.rows, yearOf);
    forall i | 0 <= i < |parsed|
      ensures !Accept(parsed[i])
    {
      NoDateRejected(cols, t.rows[i], yearOf);
    }
    FilterNone(parsed, Accept);
  }

  /** The `aboard` alternative of the aboard column adds nothing: it contains `abo`. */
  lemma AboardColIsAbo(k: string)
    ensures AboardCol(k) <==> Mentions(k, "abo")
  {
    if Mentions(k, "aboard") {
      ContainsAt("aboard", "abo", 0);
      ContainsTrans(Lower(k), "aboard", "abo");
    }
  }

  /** The `fatal` alternative of the fatalities column adds nothing: it contains `fat`. */
  lemma FatalColIsFatOrDeath(k: string)
    ensures FatalCol(k) <==> Mentions(k, "fat") || Mentions(k, "death")
  {
    if Mentions(k, "fatal") {
      ContainsAt("fatal", "fat", 0);
      ContainsTrans(Lower(k), "fatal", "fat");
    }
  }

  /** The `origin` alternative of the start-latitude column adds nothing: it contains `orig`. */
  lemma StartLatColIsStartOrOrig(k: string)
    ensures StartLatCol(k) <==> Mentions(k, "lat") && (Mentions(k, "start") || Mentions(k, "orig"))
  {
    if Mentions(k, "origin") {
      ContainsAt("origin", "orig", 0);
      ContainsTrans(Lower(k), "origin", "orig");
    }
  }

  // ---------------------------------------------------------------------------------------
  // The graphs page's records

  /** `rawLat === '' ? NaN : parseFloat(rawLat)` under `if (latKey)`; `null` without the column. */
  function GraphsCoord(cols: Option<string>, row: Row): (r: Num)
    ensures cols.None? <==> r.Null?
  {
    if cols.None? then Null else ParseCoord(Cell(row, cols))
  }

  /** The graphs page's weather measurements, with `parseNum` on each detected column. */
  function Measure(w: WeatherCols, row: Row): (r: Weather)
    ensures r.Measured?
    ensures r.tempAvg.None? <==> ParseNum(Cell(row, w.tempMax)).None? && ParseNum(Cell(row, w.tempMin)).None?
    ensures r.tempAvg == TempAvg(ParseNum(Cell(row, w.tempMax)), ParseNum(Cell(row, w.tempMin)))
    ensures r.precip == ParseNum(Cell(row, w.precip)) && r.wind == ParseNum(Cell(row, w.wind))
    ensures r.cloud == ParseNum(Cell(row, w.cloud)) && r.press == ParseNum(Cell(row, w.pressure))
  {
    Measured(
      TempAvg(ParseNum(Cell(row, w.tempMax)), ParseNum(Cell(row, w.tempMin))),
      ParseNum(Cell(row, w.precip)), ParseNum(Cell(row, w.wind)),
      ParseNum(Cell(row, w.cloud)), ParseNum(Cell(row, w.pressure)))
  }

  /** The record of one row, as the graphs page builds it. */
  function ParseGraphsRecord(cols: Columns, w: WeatherCols, row: Row, yearOf: YearOf): (r: Record)
    ensures cols.lat.None? ==> r.lat.Null?
    ensures cols.lon.None? ==> r.lon.Null?
    ensures r.dateStr == Cell(row, cols.date)
    ensures r.year.Some? ==> r.dateStr.Some? && r.dateStr.value != ""
    ensures r.fatalPct.Val? ==> r.aboard.Val? && r.aboard.v > 0.0 && r.fatal.Val?
    ensures r.startLat.Null? && r.startLon.Null? && r.summaryStr == ""
    ensures r.lat == GraphsCoord(cols.lat, row) && r.lon == GraphsCoord(cols.lon, row)
    ensures r.aboard == ParseCount(Cell(row, cols.aboard)) && r.fatal == ParseCount(Cell(row, cols.fatal))
    ensures r.fatalPct == FatalPct(r.aboard, r.fatal)
    ensures r.dateStr.Some? && r.dateStr.value != "" ==> r.year == yearOf(r.dateStr.value)
    ensures r.conditions == SplitTags(Cell(row, cols.general).GetOr(""))
    ensures r.weather == Measure(w, row)
  {
    var date := Cell(row, cols.date);
    var aboard := ParseCountUntrimmed(Cell(row, cols.aboard));
    var fatal := ParseCountUntrimmed(Cell(row, cols.fatal));
    Record(
      GraphsCoord(cols.lat, row), GraphsCoord(cols.lon, row),
      if date.Some? && date.value != "" then yearOf(date.value) else None, date,
      Cell(row, cols.time).GetOr(""), Cell(row, cols.location).GetOr(""),
      Cell(row, cols.operator).GetOr(""), Cell(row, cols.route).GetOr(""),
      Cell(row, cols.kind).GetOr(""), "",
      SplitTags(Cell(row, cols.general).GetOr("")),
      aboard, fatal, FatalPct(aboard, fatal), Null, Null,
      Measure(w, row))
  }

  /** The graphs page's records: nothing for an empty table, else parse and filter. */
  function LoadGraphs(t: Table, yearOf: YearOf): (r: seq<Record>)
    ensures |t.rows| == 0 ==> r == []
    ensures forall i :: 0 <= i < |r| ==> Accept(r[i])
    ensures |t.rows| > 0 ==> forall x :: x in GraphsRows(t, yearOf) && Accept(x) ==> x in r
    ensures forall x :: multiset(r)[x] == if Accept(x) then multiset(GraphsRows(t, yearOf))[x] else 0
    ensures IsSubseq(r, GraphsRows(t, yearOf))
  {
    if |t.rows| == 0 then [] else Accepted(GraphsRows(t, yearOf))
  }

  /** Row `i` of the table as the graphs page parses it. */
  function GraphsRow(t: Table, i: nat, yearOf: YearOf): Record
    requires i < |t.rows|
  {
    ParseGraphsRecord(DetectColumns(t.columns), DetectWeatherCols(t.columns), t.rows[i], yearOf)
  }

  /** Every row of the table as the graphs page parses it, in order. */
  function GraphsRows(t: Table, yearOf: YearOf): (r: seq<Record>)
    ensures |r| == |t.rows|
    ensures forall i :: 0 <= i < |t.rows| ==> r[i] == GraphsRow(t, i, yearOf)
  {
    seq(|t.rows|, i requires 0 <= i < |t.rows| => GraphsRow(t, i, yearOf))
  }

  /** A record with `null` coordinates passes the row filter exactly when its year is truthy. */
  lemma NullCoordinatesPass(r: Record)
    requires r.lat.Null? && r.lon.Null?
    ensures Accept(r) <==> YearTruthy(r.year)
  {
  }

  /**
   * Unlike the other pages, the graphs page keeps rows when the table has no coordinate
   * columns at all: a `null` coordinate passes the range test as 0.
   */
  lemma GraphsKeepsRowsWithoutCoordinates(cols: Columns, w: WeatherCols, row: Row, yearOf: YearOf)
    requires cols.lat.None? && cols.lon.None?
    ensures Accept(ParseGraphsRecord(cols, w, row, yearOf)) <==> YearTruthy(ParseGraphsRecord(cols, w, row, yearOf).year)
    ensures !Accept(ParseRecord(cols, row, yearOf))
  {
    NullCoordinatesPass(ParseGraphsRecord(cols, w, row, yearOf));
    ParseFloatEmpty();
    assert ParseRecord(cols, row, yearOf).lat == ParseCoord(None);
  }
}

=== FILE: scatter.dfy ===
/**
 * The scatter-matrix pages: the weather-description classifier and legend, the five
 * plotted weather variables of each record, the rows kept for plotting, the pairs of one
 * cell, and the axis extent rule.
 */
module Scatter {
  import opened Wrappers
  import opened Seqs
  import opened Text
  import opened Numbers
  import opened WeatherColumns
  import opened Records

  // ---------------------------------------------------------------------------------------
  // categorizeCondition

  /** The eight legend categories. */
  datatype Category = Severe | Rain | Snow | Fog | Windy | Cloudy | Clear | Other

  /** A line of the classifier: if the lower-cased text contains one of `words`, answer `cat`. */
  datatype Rule = Rule(words: seq<string>, cat: Category)

  /** The classifier's tests, in the order they are tried. */
  const Rules: seq<Rule> := [
    Rule(["storm", "severe", "thunder", "hurricane", "cyclone", "tornado"], Severe),
    Rule(["rain"], Rain),
    Rule(["snow", "sleet", "blizzard", "ice"], Snow),
    Rule(["fog", "mist"], Fog),
    Rule(["wind"], Windy),
    Rule(["overcast", "cloud", "cloudy"], Cloudy),
    Rule(["clear"], Clear)
  ]

  /** `/w1|w2|.../.test(low)` for literal alternatives. */
  function MentionsAny(low: string, words: seq<string>): (r: bool)
    ensures r <==> exists j :: 0 <= j < |words| && Contains(low, words[j])
    decreases |words|
  {
    if |words| == 0 then false
    else Contains(low, words[0]) || MentionsAny(low, words[1..])
  }

  /** The category of the first rule in `rules` that fires on `low`, if any. */
  function FirstFiring(rules: seq<Rule>, low: string): (r: Option<Category>)
    ensures r.None? <==> forall i :: 0 <= i < |rules| ==> !MentionsAny(low, rules[i].words)
    ensures r.Some? ==> exists i :: 0 <= i < |rules| && rules[i].cat == r.value
    decreases |rules|
  {
    if |rules| == 0 then None
    else if MentionsAny(low, rules[0].words) then Some(rules[0].cat)
    else FirstFiring(rules[1..], low)
  }

  /** The rule at `i` fires and none before it does: its category is the answer. */
  lemma {:induction false} FirstFiringAt(rules: seq<Rule>, low: string, i: nat)
    requires i < |rules| && MentionsAny(low, rules[i].words)
    requires forall j :: 0 <= j < i ==> !MentionsAny(low, rules[j].words)
    ensures FirstFiring(rules, low) == Some(rules[i].cat)
    decreases i
  {
    if i > 0 {
      FirstFiringAt(rules[1..], low, i - 1);
    }
  }

  /**
   * `categorizeCondition(s)`: `Other` for a missing or empty description; otherwise the
   * category of the first rule whose words the lower-cased text contains, `Other` if none.
   */
  function Categorize(s: Option<string>): (r: Category)
    ensures s.None? || s.value == "" ==> r == Other
  {
    if s.None? || s.value == "" then Other
    else
      match FirstFiring(Rules, Lower(s.value))
      case None => Other
      case Some(c) => c
  }

  /**
   * Priority: when the rule at index `i` fires and no earlier rule does, the description
   * gets rule `i`'s category, whatever later rules would say.
   */
  lemma CategorizeFirstMatch(s: string, i: nat)
    requires s != "" && i < |Rules|
    requires MentionsAny(Lower(s), Rules[i].words)
    requires forall j :: 0 <= j < i ==> !MentionsAny(Lower(s), Rules[j].words)
    ensures Categorize(Some(s)) == Rules[i].cat
  {
    FirstFiringAt(Rules, Lower(s), i);
  }

  /** A non-empty description is `Other` exactly when no rule fires. */
  lemma CategorizeOther(s: string)
    requires s != ""
    ensures Categorize(Some(s)) == Other <==> forall i :: 0 <= i < |Rules| ==> !MentionsAny(Lower(s), Rules[i].words)
  {
    assert forall i :: 0 <= i < |Rules| ==> Rules[i].cat != Other;
  }

  /** A description naming a thunderstorm with rain is severe: the severe test comes first. */
  lemma ThunderstormRainIsSevere()
    ensures Categorize(Some("thunderstorm rain")) == Severe
  {
    var s := "thunderstorm rain";
    LowerOfLowerCase(s);
    assert s[7..12] == "storm";
    ContainsAt(s, "storm", 7);
    assert MentionsAny(Lower(s), Rules[0].words);
  }

  /** A description mentioning rain is classified as severe or as rain, never lower. */
  lemma RainIsSevereOrRain(s: string)
    requires Contains(Lower(s), "rain")
    ensures Categorize(Some(s)) in {Severe, Rain}
  {
    if MentionsAny(Lower(s), Rules[0].words) {
      CategorizeFirstMatch(s, 0);
    } else {
      assert MentionsAny(Lower(s), Rules[1].words);
      CategorizeFirstMatch(s, 1);
    }
  }

  /** The `cloudy` alternative of the cloud test never decides anything `cloud` does not. */
  lemma CloudyAlternativeRedundant(low: string)
    requires Contains(low, "cloudy")
    ensures Contains(low, "cloud")
  {
    assert "cloudy"[0..5] == "cloud";
    ContainsAt("cloudy", "cloud", 0);
    ContainsTrans(low, "cloudy", "cloud");
  }

  /** The legend label of a category. */
  function CategoryName(c: Category): (r: string)
    ensures r in ["Clear", "Cloudy", "Fog", "Other", "Rain", "Severe", "Snow", "Windy"]
  {
    match c
    case Severe => "Severe"
    case Rain => "Rain"
    case Snow => "Snow"
    case Fog => "Fog"
    case Windy => "Windy"
    case Cloudy => "Cloudy"
    case Clear => "Clear"
    case Other => "Other"
  }

  /** Distinct categories have distinct labels. */
  lemma CategoryNameInjective(c: Category, d: Category)
    requires CategoryName(c) == CategoryName(d)
    ensures c == d
  {
  }

  function CategoryNames(cats: seq<Category>): (r: seq<string>)
    ensures |r| == |cats|
    ensures forall i :: 0 <= i < |cats| ==> r[i] == CategoryName(cats[i])
  {
    seq(|cats|, i requires 0 <= i < |cats| => CategoryName(cats[i]))
  }

  /**
   * `Array.from(new Set(parsed.map(d => d._cat))).sort()`: the legend lists each category
   * some record has, once, in ascending order, and nothing else.
   */
  function Legend(cats: seq<Category>): (r: seq<string>)
    ensures StrictlySorted(r)
    ensures forall c :: CategoryName(c) in r <==> c in cats
    ensures forall y :: y in r ==> exists c :: c in cats && y == CategoryName(c)
  {
    var names := CategoryNames(cats);
    var r := SortedDistinct(names);
    forall c
      ensures CategoryName(c) in r <==> c in cats
    {
      if CategoryName(c) in names {
        var i :| 0 <= i < |names| && names[i] == CategoryName(c);
        CategoryNameInjective(cats[i], c);
      }
      if c in cats {
        var i :| 0 <= i < |cats| && cats[i] == c;
        assert names[i] == CategoryName(c);
      }
    }
    forall y | y in r
      ensures exists c :: c in cats && y == CategoryName(c)
    {
      var i :| 0 <= i < |names| && names[i] == y;
      assert cats[i] in cats;
    }
    r
  }

  // ---------------------------------------------------------------------------------------
  // The plotted variables

  /** `VARS`, in matrix order. */
  datatype Variable = TempAvgVar | PrecipVar | WindVar | CloudVar | PressureVar

  const Vars: seq<Variable> := [TempAvgVar, PrecipVar, WindVar, CloudVar, PressureVar]

  /** The five plotted values of one record; `None` where `parseNum` gave `null`. */
  datatype Sample = Sample(tempAvg: Option<real>, precip: Option<real>, wind: Option<real>,
                           cloud: Option<real>, pressure: Option<real>)

  /** `d[v.key]`. */
  function Get(s: Sample, v: Variable): Option<real> {
    match v
    case TempAvgVar => s.tempAvg
    case PrecipVar => s.precip
    case WindVar => s.wind
    case CloudVar => s.cloud
    case PressureVar => s.pressure
  }

  /**
   * The scatterplot page's values of one row: `parseNum` on each detected column (`null`
   * where the column is missing), the temperature averaged from maximum and minimum.
   */
  function ColumnSample(cols: WeatherCols, row: Row): (r: Sample)
    ensures cols.precip.None? ==> r.precip.None?
    ensures cols.tempMax.None? && cols.tempMin.None? ==> r.tempAvg.None?
    ensures r.tempAvg == TempAvg(ParseNum(Cell(row, cols.tempMax)), ParseNum(Cell(row, cols.tempMin)))
    ensures r.precip == ParseNum(Cell(row, cols.precip)) && r.wind == ParseNum(Cell(row, cols.wind))
    ensures r.cloud == ParseNum(Cell(row, cols.cloud)) && r.pressure == ParseNum(Cell(row, cols.pressure))
  {
    Sample(TempAvg(ParseNum(Cell(row, cols.tempMax)), ParseNum(Cell(row, cols.tempMin))),
           ParseNum(Cell(row, cols.precip)), ParseNum(Cell(row, cols.wind)),
           ParseNum(Cell(row, cols.cloud)), ParseNum(Cell(row, cols.pressure)))
  }

  /** The graphs page's values: the measurements its records already carry. */
  function MeasuredSample(w: Weather): (r: Sample)
    ensures !w.Measured? ==> r == Sample(None, None, None, None, None)
    ensures w.Measured? ==> forall v :: v in Vars ==> Get(r, v) == MeasuredValue(w, v)
  {
    if w.Measured? then Sample(w.tempAvg, w.precip, w.wind, w.cloud, w.press)
    else Sample(None, None, None, None, None)
  }

  function MeasuredValue(w: Weather, v: Variable): Option<real>
    requires w.Measured?
  {
    match v
    case TempAvgVar => w.tempAvg
    case PrecipVar => w.precip
    case WindVar => w.wind
    case CloudVar => w.cloud
    case PressureVar => w.press
  }

  /**
   * The graphs section's values of a shared record: `parseNum` on its raw `Temp_Max`,
   * `Temp_Min`, `Precipitation`, `Wind_Max`, `Cloud_Cover` and `Pressure` cells.
   */
  function SharedSample(w: Weather): (r: Sample)
    ensures !w.RawCells? ==> r == Sample(None, None, None, None, None)
    ensures w.RawCells? ==> r.tempAvg == TempAvg(ParseNum(w.tempMax), ParseNum(w.tempMin))
    ensures w.RawCells? ==> r.pressure == ParseNum(w.pressure)
    ensures w.RawCells? ==> r.precip == ParseNum(w.precipitation) && r.wind == ParseNum(w.windMax)
    ensures w.RawCells? ==> r.cloud == ParseNum(w.cloudCover)
  {
    if w.RawCells? then
      Sample(TempAvg(ParseNum(w.tempMax), ParseNum(w.tempMin)), ParseNum(w.precipitation),
             ParseNum(w.windMax), ParseNum(w.cloudCover), ParseNum(w.pressure))
    else Sample(None, None, None, None, None)
  }

  /** The graphs page computes from its stored measurements what the scatterplot page computes from the row. */
  lemma GraphsRecordsKeepSample(cols: WeatherCols, row: Row)
    ensures MeasuredSample(Measure(cols, row)) == ColumnSample(cols, row)
  {
  }

  /**
   * When the header's detected columns are exactly the six fixed names, a shared record's
   * values are those the scatterplot page reads from the same row.
   */
  lemma SharedSampleMatchesColumns(cols: Columns, w: WeatherCols, row: Row, yearOf: YearOf)
    requires w.tempMax == Some("Temp_Max") && w.tempMin == Some("Temp_Min")
    requires w.precip == Some("Precipitation") && w.wind == Some("Wind_Max")
    requires w.cloud == Some("Cloud_Cover") && w.pressure == Some("Pressure")
    ensures SharedSample(ParseRecord(cols, row, yearOf).weather) == ColumnSample(w, row)
  {
  }

  /** `VARS.some(v => d[v.key] != null && !isNaN(d[v.key]))`. */
  predicate HasSomeValue(s: Sample) {
    exists v :: v in Vars && Get(s, v).Some?
  }

  /** Both variables of a matrix cell are present. */
  predicate HasBoth(s: Sample, x: Variable, y: Variable) {
    Get(s, x).Some? && Get(s, y).Some?
  }

  function HasSomeValueFn(): Sample -> bool {
    (s: Sample) => HasSomeValue(s)
  }

  function HasBothFn(x: Variable, y: Variable): Sample -> bool {
    (s: Sample) => HasBoth(s, x, y)
  }

  /** `parsed.filter(...)`: the samples with at least one plotted value, in order. */
  function Plotted(samples: seq<Sample>): (r: seq<Sample>)
    ensures forall s :: s in r <==> s in samples && HasSomeValue(s)
    ensures forall s :: multiset(r)[s] == if HasSomeValue(s) then multiset(samples)[s] else 0
    ensures IsSubseq(r, samples)
  {
    FilterMembers(samples, HasSomeValueFn());
    FilterCount(samples, HasSomeValueFn());
    FilterIsSubseq(samples, HasSomeValueFn());
    Filter(samples, HasSomeValueFn())
  }

  /** The samples drawn in the cell for `x` against `y`: both values present. */
  function CellSamples(samples: seq<Sample>, x: Variable, y: Variable): (r: seq<Sample>)
    ensures forall s :: s in r <==> s in samples && HasBoth(s, x, y)
    ensures forall s :: multiset(r)[s] == if HasBoth(s, x, y) then multiset(samples)[s] else 0
    ensures IsSubseq(r, samples)
  {
    FilterMembers(samples, HasBothFn(x, y));
    FilterCount(samples, HasBothFn(x, y));
    FilterIsSubseq(samples, HasBothFn(x, y));
    Filter(samples, HasBothFn(x, y))
  }

  /** Dropping the samples without any value changes no cell of the matrix. */
  lemma PlottedKeepsEveryCell(samples: seq<Sample>, x: Variable, y: Variable)
    ensures CellSamples(Plotted(samples), x, y) == CellSamples(samples, x, y)
  {
    forall s | s in samples && HasBothFn(x, y)(s)
      ensures HasSomeValueFn()(s)
    {
      assert x in Vars;
    }
    FilterAbsorb(samples, HasSomeValueFn(), HasBothFn(x, y));
  }

  /** The cell's x values, in sample order. */
  function XValues(cell: seq<Sample>, x: Variable): (r: seq<real>)
    requires forall i :: 0 <= i < |cell| ==> Get(cell[i], x).Some?
    ensures |r| == |cell|
    ensures forall i :: 0 <= i < |cell| ==> Some(r[i]) == Get(cell[i], x)
  {
    seq(|cell|, i requires 0 <= i < |cell| => Get(cell[i], x).value)
  }

  // ---------------------------------------------------------------------------------------
  // Axis extents

  /** `arr.filter(x => x != null && !isNaN(x))`: the present values, in order. */
  function Present(vals: seq<Option<real>>): (r: seq<real>)
    ensures |r| <= |vals|
    ensures forall v :: v in r <==> Some(v) in vals
    decreases |vals|
  {
    if |vals| == 0 then []
    else
      var rest := Present(vals[1..]);
      assert vals == [vals[0]] + vals[1..];
      if vals[0].Some? then [vals[0].value] + rest else rest
  }

  /**
   * `d3.extent(arr.length ? arr : [0, 1])`, with both ends moved out by one when they
   * coincide: the domain always has positive width and holds every present value.
   */
  function Extent(vals: seq<Option<real>>): (r: (real, real))
    ensures r.0 < r.1
    ensures forall v :: Some(v) in vals ==> r.0 <= v <= r.1
    ensures (forall i :: 0 <= i < |vals| ==> vals[i].None?) ==> r == (0.0, 1.0)
  {
    var arr := Present(vals);
    var src := if |arr| > 0 then arr else [0.0, 1.0];
    var lo := MinReal(src);
    var hi := MaxReal(src);
    if |arr| == 0 then
      assert 0.0 in src && 1.0 in src;
      (lo, hi)
    else if lo == hi then (lo - 1.0, hi + 1.0)
    else (lo, hi)
  }

  /** Two distinct present values: the extent's ends are the smallest and largest of them. */
  lemma ExtentOfSpreadValues(vals: seq<Option<real>>, a: real, b: real)
    requires Some(a) in vals && Some(b) in vals && a != b
    ensures Some(Extent(vals).0) in vals && Some(Extent(vals).1) in vals
  {
    var arr := Present(vals);
    assert a in arr && b in arr;
    assert MinReal(arr) <= a && b <= MaxReal(arr) && MinReal(arr) <= b && a <= MaxReal(arr);
  }

  /** All present values equal `c`: the extent is `[c - 1, c + 1]`. */
  lemma ExtentOfConstant(vals: seq<Option<real>>, c: real)
    requires Some(c) in vals
    requires forall v :: Some(v) in vals ==> v == c
    ensures Extent(vals) == (c - 1.0, c + 1.0)
  {
    var arr := Present(vals);
    assert c in arr;
  }
}

=== FILE: seqs.dfy ===
/**
 * Sequence helpers shared by every page script: `Array.prototype.filter`, order-preserving
 * subsequences, `Math.min(...xs)` / `Math.max(...xs)`, sums and `slice(0, n)`.
 */
module Seqs {
  import opened Wrappers

  /** `xs.filter(p)`: keeps, in order, the elements satisfying `p`. */
  function Filter<T>(xs: seq<T>, p: T -> bool): (r: seq<T>)
    ensures |r| <= |xs|
    ensures forall i :: 0 <= i < |r| ==> p(r[i])
    decreases |xs|
  {
    if |xs| == 0 then []
    else if p(xs[0]) then [xs[0]] + Filter(xs[1..], p)
    else Filter(xs[1..], p)
  }

  /** A concatenation starts with the first part's head, followed by its tail and the second part. */
  lemma ConcatTail<T>(x: seq<T>, y: seq<T>)
    requires |x| > 0
    ensures (x + y)[0] == x[0] && (x + y)[1..] == x[1..] + y
  {
  }

  /** Concatenation is associative. */
  lemma ConcatAssoc<T>(x: seq<T>, y: seq<T>, z: seq<T>)
    ensures x + (y + z) == x + y + z
  {
  }

  /** An element survives the filter exactly when it is in the input and satisfies `p`. */
  lemma {:induction false} FilterMembers<T>(xs: seq<T>, p: T -> bool)
    ensures forall x :: x in Filter(xs, p) <==> x in xs && p(x)
    decreases |xs|
  {
    if |xs| > 0 {
      FilterMembers(xs[1..], p);
      assert xs == [xs[0]] + xs[1..];
    }
  }

  /** The filter keeps every copy of an element satisfying `p`, and no copy of any other. */
  lemma {:induction false} FilterCount<T>(xs: seq<T>, p: T -> bool)
    ensures forall x :: multiset(Filter(xs, p))[x] == if p(x) then multiset(xs)[x] else 0
    decreases |xs|
  {
    if |xs| > 0 {
      FilterCount(xs[1..], p);
      assert xs == [xs[0]] + xs[1..];
      assert multiset(xs) == multiset([xs[0]]) + multiset(xs[1..]);
      if p(xs[0]) {
        assert Filter(xs, p) == [xs[0]] + Filter(xs[1..], p);
        assert multiset(Filter(xs, p)) == multiset([xs[0]]) + multiset(Filter(xs[1..], p));
      }
    }
  }

  /** `a` can be obtained from `b` by deleting elements, keeping the order of the rest. */
  ghost predicate IsSubseq<T>(a: seq<T>, b: seq<T>)
    decreases |b|
  {
    |a| == 0 || (|b| > 0 && ((a[0] == b[0] && IsSubseq(a[1..], b[1..])) || IsSubseq(a, b[1..])))
  }

  /** Every sequence is a subsequence of itself. */
  lemma {:induction false} SubseqRefl<T>(a: seq<T>)
    ensures IsSubseq(a, a)
    decreases |a|
  {
    if |a| > 0 {
      SubseqRefl(a[1..]);
    }
  }

  /** A filter result is an order-preserving subsequence of its input. */
  lemma {:induction false} FilterIsSubseq<T>(xs: seq<T>, p: T -> bool)
    ensures IsSubseq(Filter(xs, p), xs)
    decreases |xs|
  {
    if |xs| > 0 {
      FilterIsSubseq(xs[1..], p);
    }
  }

  /** Filtering first with a weaker predicate loses nothing a second, stronger filter keeps. */
  lemma {:induction false} FilterAbsorb<T>(xs: seq<T>, p: T -> bool, q: T -> bool)
    requires forall x :: x in xs && q(x) ==> p(x)
    ensures Filter(Filter(xs, p), q) == Filter(xs, q)
    decreases |xs|
  {
    if |xs| > 0 {
      FilterAbsorb(xs[1..], p, q);
      if p(xs[0]) {
        assert Filter(xs, p) == [xs[0]] + Filter(xs[1..], p);
        assert Filter(xs, p)[1..] == Filter(xs[1..], p);
      }
    }
  }

  /** Two predicates that agree on the elements of `xs` filter it identically. */
  lemma {:induction false} FilterExt<T>(xs: seq<T>, p: T -> bool, q: T -> bool)
    requires forall x :: x in xs ==> (p(x) <==> q(x))
    ensures Filter(xs, p) == Filter(xs, q)
    decreases |xs|
  {
    if |xs| > 0 {
      FilterExt(xs[1..], p, q);
    }
  }

  /** Filtering a list with a given head: the head, if it passes, then the filtered tail. */
  lemma FilterCons<T>(a: T, s: seq<T>, p: T -> bool)
    ensures Filter([a] + s, p) == (if p(a) then [a] else []) + Filter(s, p)
  {
    assert ([a] + s)[1..] == s;
  }

  /** Filtering with `p` and then with `q` is filtering once with their conjunction `pq`. */
  lemma {:induction false} FilterThen<T>(xs: seq<T>, p: T -> bool, q: T -> bool, pq: T -> bool)
    requires forall x :: x in xs ==> (pq(x) <==> p(x) && q(x))
    ensures Filter(Filter(xs, p), q) == Filter(xs, pq)
    decreases |xs|
  {
    if |xs| > 0 {
      assert forall x :: x in xs[1..] ==> x in xs;
      FilterThen(xs[1..], p, q, pq);
      if p(xs[0]) {
        assert Filter(xs, p) == [xs[0]] + Filter(xs[1..], p);
        assert Filter(xs, p)[1..] == Filter(xs[1..], p);
      }
    }
  }

  /** A weaker predicate keeps everything a stronger one keeps, in the same order. */
  lemma {:induction false} FilterMonotone<T>(xs: seq<T>, p: T -> bool, q: T -> bool)
    requires forall x :: x in xs && p(x) ==> q(x)
    ensures IsSubseq(Filter(xs, p), Filter(xs, q))
    decreases |xs|
  {
    if |xs| > 0 {
      FilterMonotone(xs[1..], p, q);
      var a := Filter(xs[1..], p);
      var b := Filter(xs[1..], q);
      if p(xs[0]) {
        assert Filter(xs, p) == [xs[0]] + a;
        assert Filter(xs, q) == [xs[0]] + b;
        assert (Filter(xs, p))[1..] == a;
        assert (Filter(xs, q))[1..] == b;
      } else if q(xs[0]) {
        assert Filter(xs, q) == [xs[0]] + b;
        assert (Filter(xs, q))[1..] == b;
      }
    }
  }

  /** Filtering with a predicate every element satisfies changes nothing. */
  lemma {:induction false} FilterKeepsAll<T>(xs: seq<T>, p: T -> bool)
    requires forall x :: x in xs ==> p(x)
    ensures Filter(xs, p) == xs
    decreases |xs|
  {
    if |xs| > 0 {
      FilterKeepsAll(xs[1..], p);
    }
  }

  /** Filtering commutes with concatenation. */
  lemma {:induction false} FilterConcat<T>(a: seq<T>, b: seq<T>, p: T -> bool)
    ensures Filter(a + b, p) == Filter(a, p) + Filter(b, p)
    decreases |a|
  {
    if |a| > 0 {
      assert (a + b)[1..] == a[1..] + b;
      FilterConcat(a[1..], b, p);
    } else {
      assert a + b == b;
    }
  }

  /** Whatever `p` selects satisfies `q` when every element satisfying `p` does. */
  lemma {:induction false} FilterImplies<T>(xs: seq<T>, p: T -> bool, q: T -> bool)
    requires forall i :: 0 <= i < |xs| && p(xs[i]) ==> q(xs[i])
    ensures forall i :: 0 <= i < |Filter(xs, p)| ==> q(Filter(xs, p)[i])
    decreases |xs|
  {
    if |xs| > 0 {
      FilterImplies(xs[1..], p, q);
    }
  }

  /** Nothing survives a filter no element satisfies. */
  lemma {:induction false} FilterNone<T>(xs: seq<T>, p: T -> bool)
    requires forall i :: 0 <= i < |xs| ==> !p(xs[i])
    ensures Filter(xs, p) == []
    decreases |xs|
  {
    if |xs| > 0 {
      FilterNone(xs[1..], p);
    }
  }

  /**
   * `xs.find(p)`: the first element satisfying `p`, or nothing when none does.
   */
  function Find<T>(xs: seq<T>, p: T -> bool): (r: Option<T>)
    ensures r.None? <==> forall j :: 0 <= j < |xs| ==> !p(xs[j])
    ensures r.Some? ==> exists i :: 0 <= i < |xs| && xs[i] == r.value && p(xs[i]) && forall j :: 0 <= j < i ==> !p(xs[j])
    decreases |xs|
  {
    if |xs| == 0 then None
    else if p(xs[0]) then Some(xs[0])
    else
      var r := Find(xs[1..], p);
      assert r.Some? ==> exists i :: 0 <= i < |xs[1..]| && xs[1..][i] == r.value && p(xs[1..][i]) && forall j :: 0 <= j < i ==> !p(xs[1..][j]);
      assert r.Some? ==> exists i :: 0 <= i < |xs| && xs[i] == r.value && p(xs[i]) && forall j :: 0 <= j < i ==> !p(xs[j]) by {
        if r.Some? {
          var i :| 0 <= i < |xs[1..]| && xs[1..][i] == r.value && p(xs[1..][i]) && forall j :: 0 <= j < i ==> !p(xs[1..][j]);
          assert xs[i + 1] == r.value && forall j :: 0 <= j < i + 1 ==> !p(xs[j]);
        }
      }
      r
  }

  /**
   * When `q` implies `p`, searching for `p` succeeds whenever searching for `q` does: a fallback
   * `find(q)` after `find(p)` can never be reached.
   */
  lemma {:induction false} FindWeaker<T>(xs: seq<T>, p: T -> bool, q: T -> bool)
    requires forall x :: q(x) ==> p(x)
    ensures Find(xs, q).Some? ==> Find(xs, p).Some?
  {
    if Find(xs, q).Some? {
      var i :| 0 <= i < |xs| && xs[i] == Find(xs, q).value && q(xs[i]) && forall j :: 0 <= j < i ==> !q(xs[j]);
      assert p(xs[i]);
    }
  }

  /** A sequence is its prefix followed by the rest. */
  lemma SliceSplit<T>(x: seq<T>, n: nat)
    requires n <= |x|
    ensures x == x[..n] + x[n..]
  {
  }

  /** Substituting one split inside another. */
  lemma Regroup<T>(x: seq<T>, y: seq<T>, a: seq<T>, b: seq<T>, c: seq<T>)
    requires x == a + y && y == b + c
    ensures x == a + b + c
  {
  }

  /** `xs.slice(0, n)`. */
  function Take<T>(xs: seq<T>, n: nat): (r: seq<T>)
    ensures |r| == if n < |xs| then n else |xs|
    ensures r == xs[..|r|]
  {
    if n < |xs| then xs[..n] else xs
  }

  /** `Math.min(...xs)` over a non-empty list of integers. */
  function MinInt(xs: seq<int>): (m: int)
    requires |xs| > 0
    ensures m in xs
    ensures forall x :: x in xs ==> m <= x
    decreases |xs|
  {
    if |xs| == 1 then xs[0]
    else
      assert xs == [xs[0]] + xs[1..];
      var rest := MinInt(xs[1..]);
      if xs[0] <= rest then xs[0] else rest
  }

  /** `Math.max(...xs)` over a non-empty list of integers. */
  function MaxInt(xs: seq<int>): (m: int)
    requires |xs| > 0
    ensures m in xs
    ensures forall x :: x in xs ==> x <= m
    decreases |xs|
  {
    if |xs| == 1 then xs[0]
    else
      assert xs == [xs[0]] + xs[1..];
      var rest := MaxInt(xs[1..]);
      if xs[0] >= rest then xs[0] else rest
  }

  /** `Math.min(...xs)` over a non-empty list of numbers. */
  function MinReal(xs: seq<real>): (m: real)
    requires |xs| > 0
    ensures m in xs
    ensures forall x :: x in xs ==> m <= x
    decreases |xs|
  {
    if |xs| == 1 then xs[0]
    else
      assert xs == [xs[0]] + xs[1..];
      var rest := MinReal(xs[1..]);
      if xs[0] <= rest then xs[0] else rest
  }

  /** `Math.max(...xs)` over a non-empty list of numbers. */
  function MaxReal(xs: seq<real>): (m: real)
    requires |xs| > 0
    ensures m in xs
    ensures forall x :: x in xs ==> x <= m
    decreases |xs|
  {
    if |xs| == 1 then xs[0]
    else
      assert xs == [xs[0]] + xs[1..];
      var rest := MaxReal(xs[1..]);
      if xs[0] >= rest then xs[0] else rest
  }

  /** Sum of a list of numbers, accumulated from the left as `d3.sum` does. */
  function Sum(xs: seq<real>): real
    decreases |xs|
  {
    if |xs| == 0 then 0.0 else xs[0] + Sum(xs[1..])
  }

  /** Sums split over concatenation. */
  lemma {:induction false} SumConcat(a: seq<real>, b: seq<real>)
    ensures Sum(a + b) == Sum(a) + Sum(b)
    decreases |a|
  {
    if |a| > 0 {
      assert (a + b)[1..] == a[1..] + b;
      SumConcat(a[1..], b);
    } else {
      assert a + b == b;
    }
  }
}

=== FILE: shared_filters.dfy ===
/**
 * The shared filter engine: one filter state for all views, the data bounds found when the
 * crash table loads, the filtered records every view receives, and the listener protocol
 * (register, notify, update).
 *
 * The engine is modelled as a value: each operation returns the next engine together with
 * the listener calls it makes, in order. A listener is identified by a number; a call carries
 * the records passed to it.
 */
module SharedFilters {
  import opened Wrappers
  import opened Seqs
  import opened Numbers
  import opened Conditions
  import opened Records
  import opened Sliders

  /** The filter state: year, aboard and fatality-percentage windows, groups, route toggle. */
  datatype State = State(
    yearStart: int, yearEnd: int,
    aboardStart: real, aboardEnd: real,
    fatalStart: real, fatalEnd: real,
    conditionsSelected: set<string>,
    showRoutes: bool)

  /** The state before any data is loaded. */
  const DefaultState := State(1940, 2009, 0.0, 1000.0, 0.0, 100.0, {}, true)

  /** What the loaded data spans, and whether aboard counts and fatality percentages exist. */
  datatype Bounds = Bounds(
    yearMin: int, yearMax: int,
    aboardMin: real, aboardMax: real,
    hasAboard: bool, hasFatal: bool)

  /** The bounds before any data is loaded. */
  const DefaultBounds := Bounds(1940, 2009, 0.0, 1000.0, false, false)

  /** An `updates` object for `Object.assign`: each field either supplied or absent. */
  datatype Patch = Patch(
    yearStart: Option<int>, yearEnd: Option<int>,
    aboardStart: Option<real>, aboardEnd: Option<real>,
    fatalStart: Option<real>, fatalEnd: Option<real>,
    conditionsSelected: Option<set<string>>,
    showRoutes: Option<bool>)

  /** `{}`. */
  const NoChange := Patch(None, None, None, None, None, None, None, None)

  /** Two successive `updates` objects merged into one; the later one wins. */
  function Then(p: Patch, q: Patch): Patch {
    Patch(
      q.yearStart.OrElse(p.yearStart), q.yearEnd.OrElse(p.yearEnd),
      q.aboardStart.OrElse(p.aboardStart), q.aboardEnd.OrElse(p.aboardEnd),
      q.fatalStart.OrElse(p.fatalStart), q.fatalEnd.OrElse(p.fatalEnd),
      q.conditionsSelected.OrElse(p.conditionsSelected), q.showRoutes.OrElse(p.showRoutes))
  }

  /**
   * `Object.assign(state, updates)`: supplied fields are overwritten, the others kept.
   * An empty object changes nothing; fields not supplied keep their values.
   */
  function Merge(s: State, p: Patch): (r: State)
    ensures p == NoChange ==> r == s
    ensures p.yearStart.Some? ==> r.yearStart == p.yearStart.value
    ensures p.yearStart.None? ==> r.yearStart == s.yearStart
    ensures p.yearEnd.Some? ==> r.yearEnd == p.yearEnd.value
    ensures p.yearEnd.None? ==> r.yearEnd == s.yearEnd
    ensures p.aboardStart.Some? ==> r.aboardStart == p.aboardStart.value
    ensures p.aboardStart.None? ==> r.aboardStart == s.aboardStart
    ensures p.aboardEnd.Some? ==> r.aboardEnd == p.aboardEnd.value
    ensures p.aboardEnd.None? ==> r.aboardEnd == s.aboardEnd
    ensures p.fatalStart.Some? ==> r.fatalStart == p.fatalStart.value
    ensures p.fatalStart.None? ==> r.fatalStart == s.fatalStart
    ensures p.fatalEnd.Some? ==> r.fatalEnd == p.fatalEnd.value
    ensures p.fatalEnd.None? ==> r.fatalEnd == s.fatalEnd
    ensures p.conditionsSelected.Some? ==> r.conditionsSelected == p.conditionsSelected.value
    ensures p.conditionsSelected.None? ==> r.conditionsSelected == s.conditionsSelected
    ensures p.showRoutes.Some? ==> r.showRoutes == p.showRoutes.value
    ensures p.showRoutes.None? ==> r.showRoutes == s.showRoutes
  {
    State(
      p.yearStart.GetOr(s.yearStart), p.yearEnd.GetOr(s.yearEnd),
      p.aboardStart.GetOr(s.aboardStart), p.aboardEnd.GetOr(s.aboardEnd),
      p.fatalStart.GetOr(s.fatalStart), p.fatalEnd.GetOr(s.fatalEnd),
      p.conditionsSelected.GetOr(s.conditionsSelected), p.showRoutes.GetOr(s.showRoutes))
  }

  /** Assigning the same updates twice is assigning them once. */
  lemma MergeIdempotent(s: State, p: Patch)
    ensures Merge(Merge(s, p), p) == Merge(s, p)
  {
  }

  /** Two assignments in a row are one assignment of the merged updates. */
  lemma MergeThen(s: State, p: Patch, q: Patch)
    ensures Merge(Merge(s, p), q) == Merge(s, Then(p, q))
  {
  }

  // ---------------------------------------------------------------------------------------
  // getFilteredData

  /** The year window, inclusive at both ends; a missing year counts as 0. */
  predicate InYears(st: State, r: Record) {
    st.yearStart <= YearNum(r.year) <= st.yearEnd
  }

  /** The aboard clause, applied only when the data has aboard counts. */
  predicate AboardOk(st: State, b: Bounds, r: Record) {
    b.hasAboard ==> !r.aboard.Null? && Ge(r.aboard, st.aboardStart) && Le(r.aboard, st.aboardEnd)
  }

  /** The fatality-percentage clause, applied only when the data has percentages. */
  predicate FatalOk(st: State, b: Bounds, r: Record) {
    b.hasFatal ==> !r.fatalPct.Null? && Ge(r.fatalPct, st.fatalStart) && Le(r.fatalPct, st.fatalEnd)
  }

  /** One selected group: known, and some keyword of it occurs in some tag. */
  predicate GroupOk(r: Record, g: string) {
    GroupKeywords(g).Some? && MatchesAny(r.conditions, GroupKeywords(g).value)
  }

  /** Every selected group matches (AND across groups, OR within a group). */
  predicate GroupsOk(sel: set<string>, r: Record) {
    |sel| > 0 ==> forall g :: g in sel ==> GroupOk(r, g)
  }

  /** All four clauses; applying the four filters in turn keeps exactly these records. */
  predicate Admits(st: State, b: Bounds, r: Record) {
    InYears(st, r) && AboardOk(st, b, r) && FatalOk(st, b, r) && GroupsOk(st.conditionsSelected, r)
  }

  function AdmitFn(st: State, b: Bounds): Record -> bool {
    r => Admits(st, b, r)
  }

  /** `getFilteredData()`: the records passing every clause, in their original order. */
  function GetFiltered(st: State, b: Bounds, data: seq<Record>): (r: seq<Record>)
    ensures forall x :: x in r <==> x in data && Admits(st, b, x)
    ensures forall x :: multiset(r)[x] == if Admits(st, b, x) then multiset(data)[x] else 0
    ensures IsSubseq(r, data)
  {
    FilterMembers(data, AdmitFn(st, b));
    FilterCount(data, AdmitFn(st, b));
    FilterIsSubseq(data, AdmitFn(st, b));
    Filter(data, AdmitFn(st, b))
  }

  /** `b`'s windows contain `a`'s and `b` selects no group `a` does not. */
  predicate Wider(a: State, b: State) {
    && b.yearStart <= a.yearStart && a.yearEnd <= b.yearEnd
    && b.aboardStart <= a.aboardStart && a.aboardEnd <= b.aboardEnd
    && b.fatalStart <= a.fatalStart && a.fatalEnd <= b.fatalEnd
    && b.conditionsSelected <= a.conditionsSelected
  }

  /** A comparison `n >= c` that holds still holds for a smaller `c`. */
  lemma GeLower(n: Num, c: real, d: real)
    requires Ge(n, c) && d <= c
    ensures Ge(n, d)
  {
  }

  /** A comparison `n <= c` that holds still holds for a larger `c`. */
  lemma LeHigher(n: Num, c: real, d: real)
    requires Le(n, c) && c <= d
    ensures Le(n, d)
  {
  }

  /** A record admitted by a state is admitted by every wider state. */
  lemma AdmitsWider(a: State, b: State, bounds: Bounds, r: Record)
    requires Wider(a, b) && Admits(a, bounds, r)
    ensures Admits(b, bounds, r)
  {
    if bounds.hasAboard {
      GeLower(r.aboard, a.aboardStart, b.aboardStart);
      LeHigher(r.aboard, a.aboardEnd, b.aboardEnd);
    }
    if bounds.hasFatal {
      GeLower(r.fatalPct, a.fatalStart, b.fatalStart);
      LeHigher(r.fatalPct, a.fatalEnd, b.fatalEnd);
    }
    if |b.conditionsSelected| > 0 {
      assert |a.conditionsSelected| > 0 by {
        var g :| g in b.conditionsSelected;
        assert g in a.conditionsSelected;
      }
    }
  }

  /** Widening any window or deselecting groups keeps every record shown before, in order. */
  lemma WiderShowsMore(a: State, b: State, bounds: Bounds, data: seq<Record>)
    requires Wider(a, b)
    ensures IsSubseq(GetFiltered(a, bounds, data), GetFiltered(b, bounds, data))
  {
    forall x | x in data && AdmitFn(a, bounds)(x)
      ensures AdmitFn(b, bounds)(x)
    {
      AdmitsWider(a, b, bounds, x);
    }
    FilterMonotone(data, AdmitFn(a, bounds), AdmitFn(b, bounds));
  }

  /** Without aboard data the aboard window has no effect. */
  lemma AboardWindowIgnoredWithoutData(st: State, b: Bounds, data: seq<Record>, lo: real, hi: real)
    requires !b.hasAboard
    ensures GetFiltered(st.(aboardStart := lo, aboardEnd := hi), b, data) == GetFiltered(st, b, data)
  {
    FilterExt(data, AdmitFn(st.(aboardStart := lo, aboardEnd := hi), b), AdmitFn(st, b));
  }

  /** Without fatality percentages the percentage window has no effect. */
  lemma FatalWindowIgnoredWithoutData(st: State, b: Bounds, data: seq<Record>, lo: real, hi: real)
    requires !b.hasFatal
    ensures GetFiltered(st.(fatalStart := lo, fatalEnd := hi), b, data) == GetFiltered(st, b, data)
  {
    FilterExt(data, AdmitFn(st.(fatalStart := lo, fatalEnd := hi), b), AdmitFn(st, b));
  }

  /** Selecting a group name outside the six hides every record. */
  lemma UnknownGroupHidesAll(st: State, b: Bounds, data: seq<Record>, g: string)
    requires g in st.conditionsSelected && GroupKeywords(g).None?
    ensures GetFiltered(st, b, data) == []
  {
    forall i | 0 <= i < |data|
      ensures !AdmitFn(st, b)(data[i])
    {
      assert !GroupOk(data[i], g);
    }
    FilterNone(data, AdmitFn(st, b));
  }

  /** Filtering ignores the case of the tags. */
  lemma GroupsIgnoreCase(sel: set<string>, r: Record)
    ensures GroupsOk(sel, r) <==> GroupsOk(sel, r.(conditions := LowerEach(r.conditions)))
  {
    forall g | g in sel && GroupKeywords(g).Some?
      ensures MatchesAny(r.conditions, GroupKeywords(g).value)
          <==> MatchesAny(LowerEach(r.conditions), GroupKeywords(g).value)
    {
      var kws := GroupKeywords(g).value;
      forall j | 0 <= j < |kws|
        ensures SomeTagContains(r.conditions, kws[j]) <==> SomeTagContains(LowerEach(r.conditions), kws[j])
      {
        MatchIgnoresCase(r.conditions, kws[j]);
      }
    }
  }

  // ---------------------------------------------------------------------------------------
  // Bounds

  /** The numbers among `ns`, in order (`.filter(v => v != null && !isNaN(v))`). */
  function NumValues(ns: seq<Num>): (r: seq<real>)
    ensures forall x :: x in r <==> Val(x) in ns
    decreases |ns|
  {
    if |ns| == 0 then []
    else
      assert ns == [ns[0]] + ns[1..];
      if ns[0].Val? then [ns[0].v] + NumValues(ns[1..]) else NumValues(ns[1..])
  }

  /** `data.map(d => d.year)`. */
  function Years(data: seq<Record>): (r: seq<int>)
    ensures |r| == |data| && forall i :: 0 <= i < |data| ==> r[i] == YearNum(data[i].year)
  {
    seq(|data|, i requires 0 <= i < |data| => YearNum(data[i].year))
  }

  /** `data.map(d => d.aboard)`. */
  function AboardColumn(data: seq<Record>): (r: seq<Num>)
    ensures |r| == |data| && forall i :: 0 <= i < |data| ==> r[i] == data[i].aboard
  {
    seq(|data|, i requires 0 <= i < |data| => data[i].aboard)
  }

  /** `data.map(d => d.fatalPct)`. */
  function FatalPctColumn(data: seq<Record>): (r: seq<Num>)
    ensures |r| == |data| && forall i :: 0 <= i < |data| ==> r[i] == data[i].fatalPct
  {
    seq(|data|, i requires 0 <= i < |data| => data[i].fatalPct)
  }

  /** Some record has a numeric aboard count. */
  predicate SomeAboard(data: seq<Record>) {
    exists i :: 0 <= i < |data| && data[i].aboard.Val?
  }

  /** Some record has a numeric fatality percentage. */
  predicate SomeFatal(data: seq<Record>) {
    exists i :: 0 <= i < |data| && data[i].fatalPct.Val?
  }

  /** A column has numbers exactly when some record holds one. */
  lemma NumValuesNonEmpty(ns: seq<Num>)
    ensures |NumValues(ns)| > 0 <==> exists i :: 0 <= i < |ns| && ns[i].Val?
  {
    if |NumValues(ns)| > 0 {
      assert NumValues(ns)[0] in NumValues(ns);
    }
    if exists i :: 0 <= i < |ns| && ns[i].Val? {
      var i :| 0 <= i < |ns| && ns[i].Val?;
      assert ns[i].v in NumValues(ns);
    }
  }

  /** The earliest and latest year; the empty window [1, 0] when there are no records. */
  function YearWindow(data: seq<Record>): (w: (int, int))
    ensures |data| == 0 ==> w.0 > w.1
    ensures forall i :: 0 <= i < |data| ==> w.0 <= YearNum(data[i].year) <= w.1
    ensures |data| > 0 ==> exists i :: 0 <= i < |data| && YearNum(data[i].year) == w.0
    ensures |data| > 0 ==> exists i :: 0 <= i < |data| && YearNum(data[i].year) == w.1
  {
    var years := Years(data);
    assert forall i :: 0 <= i < |data| ==> years[i] in years;
    if |data| == 0 then (1, 0) else (MinInt(years), MaxInt(years))
  }

  /**
   * The bounds computed at load time. With no records `Math.min()` is `+Infinity` and
   * `Math.max()` is `-Infinity`; the model stands these in with the empty window [1, 0].
   * Aboard limits are updated only when aboard counts exist.
   */
  function ComputeBounds(data: seq<Record>, prev: Bounds): (b: Bounds)
    ensures |data| == 0 ==> b.yearMin > b.yearMax
    ensures forall i :: 0 <= i < |data| ==> b.yearMin <= YearNum(data[i].year) <= b.yearMax
    ensures |data| > 0 ==> exists i :: 0 <= i < |data| && YearNum(data[i].year) == b.yearMin
    ensures |data| > 0 ==> exists i :: 0 <= i < |data| && YearNum(data[i].year) == b.yearMax
    ensures b.hasAboard <==> SomeAboard(data)
    ensures b.hasFatal <==> SomeFatal(data)
    ensures forall i :: 0 <= i < |data| && data[i].aboard.Val? ==> b.aboardMin <= data[i].aboard.v <= b.aboardMax
    ensures b.hasAboard ==> exists i :: 0 <= i < |data| && data[i].aboard == Val(b.aboardMin)
    ensures b.hasAboard ==> exists i :: 0 <= i < |data| && data[i].aboard == Val(b.aboardMax)
    ensures !b.hasAboard ==> b.aboardMin == prev.aboardMin && b.aboardMax == prev.aboardMax
  {
    var w := YearWindow(data);
    var a := AboardSpan(data, prev.aboardMin, prev.aboardMax);
    NumValuesNonEmpty(FatalPctColumn(data));
    Bounds(w.0, w.1, a.1, a.2, a.0, |NumValues(FatalPctColumn(data))| > 0)
  }

  /**
   * Whether some record has an aboard count, and the least and greatest count; the previous
   * limits `lo` and `hi` when there is none.
   */
  function AboardSpan(data: seq<Record>, lo: real, hi: real): (r: (bool, real, real))
    ensures r.0 <==> SomeAboard(data)
    ensures forall i :: 0 <= i < |data| && data[i].aboard.Val? ==> r.1 <= data[i].aboard.v <= r.2
    ensures r.0 ==> exists i :: 0 <= i < |data| && data[i].aboard == Val(r.1)
    ensures r.0 ==> exists i :: 0 <= i < |data| && data[i].aboard == Val(r.2)
    ensures !r.0 ==> r.1 == lo && r.2 == hi
  {
    var col := AboardColumn(data);
    var vals := NumValues(col);
    NumValuesNonEmpty(col);
    forall i | 0 <= i < |data| && data[i].aboard.Val?
      ensures data[i].aboard.v in vals
    {
      assert col[i] == Val(data[i].aboard.v);
    }
    if |vals| > 0 then
      var m, n := MinReal(vals), MaxReal(vals);
      assert Val(m) in col && Val(n) in col;
      (true, m, n)
    else (false, lo, hi)
  }

  // ---------------------------------------------------------------------------------------
  // The listener protocol

  /** One listener call and the records passed to it. */
  datatype Call = Call(listener: nat, payload: seq<Record>)

  /** The engine: state, bounds, loaded records, registered listeners in order. */
  datatype Engine = Engine(state: State, bounds: Bounds, data: seq<Record>, listeners: seq<nat>)

  /** The engine after an operation, and the calls the operation made, in order. */
  datatype Step = Step(engine: Engine, calls: seq<Call>)

  /** The engine as the page script creates it. */
  const Fresh := Engine(DefaultState, DefaultBounds, [], [])

  /** The records the views currently show. */
  function Filtered(e: Engine): seq<Record> {
    GetFiltered(e.state, e.bounds, e.data)
  }

  /** `notify()`: every listener, in registration order, receives the filtered records once. */
  function Notify(e: Engine): (r: Step)
    ensures r.engine == e
    ensures |r.calls| == |e.listeners|
    ensures forall i :: 0 <= i < |r.calls| ==> r.calls[i] == Call(e.listeners[i], Filtered(e))
  {
    Step(e, seq(|e.listeners|, i requires 0 <= i < |e.listeners| => Call(e.listeners[i], Filtered(e))))
  }

  /** `listeners.forEach(cb => cb(getFilteredData()))`, as a loop. */
  method NotifyLoop(e: Engine) returns (calls: seq<Call>)
    ensures calls == Notify(e).calls
  {
    var payload := GetFiltered(e.state, e.bounds, e.data);
    calls := [];
    var i := 0;
    while i < |e.listeners|
      invariant 0 <= i <= |e.listeners|
      invariant |calls| == i
      invariant forall k :: 0 <= k < i ==> calls[k] == Call(e.listeners[k], payload)
    {
      calls := calls + [Call(e.listeners[i], payload)];
      i := i + 1;
    }
  }

  /**
   * `addListener(cb)`: the listener is appended, and called once at once with the filtered
   * records when data is already loaded; before loading it is not called.
   */
  function AddListener(e: Engine, id: nat): (r: Step)
    ensures r.engine == e.(listeners := e.listeners + [id])
    ensures |r.calls| == 1 <==> |e.data| > 0
    ensures |r.calls| <= 1
    ensures forall c :: c in r.calls ==> c == Call(id, Filtered(e))
  {
    Step(e.(listeners := e.listeners + [id]), if |e.data| > 0 then [Call(id, Filtered(e))] else [])
  }

  /** `updateFilters(updates)`: merge, then notify every listener with the new filtered records. */
  function UpdateFilters(e: Engine, p: Patch): (r: Step)
    ensures r.engine.state == Merge(e.state, p)
    ensures r.engine.(state := e.state) == e
    ensures |r.calls| == |e.listeners|
    ensures forall i :: 0 <= i < |r.calls| ==> r.calls[i] == Call(e.listeners[i], Filtered(r.engine))
  {
    Notify(e.(state := Merge(e.state, p)))
  }

  /** Repeating an update changes nothing more, and the listeners receive the same records again. */
  lemma UpdateFiltersIdempotent(e: Engine, p: Patch)
    ensures UpdateFilters(UpdateFilters(e, p).engine, p).engine == UpdateFilters(e, p).engine
    ensures UpdateFilters(UpdateFilters(e, p).engine, p).calls == UpdateFilters(e, p).calls
  {
  }

  /** A group checkbox: add or delete the group, then notify. */
  function ToggleGroup(e: Engine, g: string, checked: bool): (r: Step)
    ensures checked ==> r.engine.state.conditionsSelected == e.state.conditionsSelected + {g}
    ensures !checked ==> r.engine.state.conditionsSelected == e.state.conditionsSelected - {g}
    ensures r.engine.(state := e.state) == e
    ensures r.engine.state.(conditionsSelected := e.state.conditionsSelected) == e.state
    ensures r == Notify(r.engine)
  {
    var sel := if checked then e.state.conditionsSelected + {g} else e.state.conditionsSelected - {g};
    Notify(e.(state := e.state.(conditionsSelected := sel)))
  }

  /** Checking a group never shows a record that was hidden. */
  lemma CheckingNarrows(e: Engine, g: string)
    ensures IsSubseq(Filtered(ToggleGroup(e, g, true).engine), Filtered(e))
  {
    WiderShowsMore(ToggleGroup(e, g, true).engine.state, e.state, e.bounds, e.data);
  }

  /** Unchecking a group never hides a record that was shown. */
  lemma UncheckingWidens(e: Engine, g: string)
    ensures IsSubseq(Filtered(e), Filtered(ToggleGroup(e, g, false).engine))
  {
    WiderShowsMore(e.state, ToggleGroup(e, g, false).engine.state, e.bounds, e.data);
  }

  /** Checking then unchecking a group that was not selected restores the engine. */
  lemma ToggleRoundTrip(e: Engine, g: string)
    requires g !in e.state.conditionsSelected
    ensures ToggleGroup(ToggleGroup(e, g, true).engine, g, false).engine == e
  {
    assert e.state.conditionsSelected + {g} - {g} == e.state.conditionsSelected;
  }

  /** The year slider handler: order the window, then `updateFilters({yearStart, yearEnd})`. */
  function UpdateYears(e: Engine, start: int, end: int): (r: Step)
    ensures r.engine.state.yearStart <= r.engine.state.yearEnd
    ensures r.engine.state.yearEnd == end
    ensures start <= end ==> r.engine.state.yearStart == start
    ensures start > end ==> r.engine.state.yearStart == end
    ensures (r.engine.state.yearStart, r.engine.state.yearEnd) == OrderYears(start, end)
    ensures r.engine.state.(yearStart := e.state.yearStart, yearEnd := e.state.yearEnd) == e.state
    ensures r == UpdateFilters(e, NoChange.(yearStart := Some(r.engine.state.yearStart), yearEnd := Some(end)))
  {
    var w := OrderYears(start, end);
    UpdateFilters(e, NoChange.(yearStart := Some(w.0), yearEnd := Some(w.1)))
  }

  /** The aboard slider handler, present only when the data has aboard counts. */
  function UpdateAboard(e: Engine, start: real, end: real): (r: Step)
    requires e.bounds.hasAboard
    ensures r.engine.state.aboardStart <= r.engine.state.aboardEnd
    ensures r.engine.state.aboardEnd == end
    ensures start <= end ==> r.engine.state.aboardStart == start
    ensures start > end ==> r.engine.state.aboardStart == end
    ensures (r.engine.state.aboardStart, r.engine.state.aboardEnd) == OrderRange(start, end)
    ensures r.engine.state.(aboardStart := e.state.aboardStart, aboardEnd := e.state.aboardEnd) == e.state
    ensures r == UpdateFilters(e, NoChange.(aboardStart := Some(r.engine.state.aboardStart), aboardEnd := Some(end)))
  {
    var w := OrderRange(start, end);
    UpdateFilters(e, NoChange.(aboardStart := Some(w.0), aboardEnd := Some(w.1)))
  }

  /** The fatality-percentage slider handler, present only when the data has percentages. */
  function UpdateFatal(e: Engine, start: real, end: real): (r: Step)
    requires e.bounds.hasFatal
    ensures r.engine.state.fatalStart <= r.engine.state.fatalEnd
    ensures r.engine.state.fatalEnd == end
    ensures start <= end ==> r.engine.state.fatalStart == start
    ensures start > end ==> r.engine.state.fatalStart == end
    ensures (r.engine.state.fatalStart, r.engine.state.fatalEnd) == OrderRange(start, end)
    ensures r.engine.state.(fatalStart := e.state.fatalStart, fatalEnd := e.state.fatalEnd) == e.state
    ensures r == UpdateFilters(e, NoChange.(fatalStart := Some(r.engine.state.fatalStart), fatalEnd := Some(end)))
  {
    var w := OrderRange(start, end);
    UpdateFilters(e, NoChange.(fatalStart := Some(w.0), fatalEnd := Some(w.1)))
  }

  // ---------------------------------------------------------------------------------------
  // init

  /** The state `init()` sets: windows spanning the data, fatality 0-100, the rest kept. */
  function InitialState(st: State, b: Bounds): (r: State)
    ensures r.yearStart == b.yearMin && r.yearEnd == b.yearMax
    ensures r.aboardStart == b.aboardMin && r.aboardEnd == b.aboardMax
    ensures r.fatalStart == 0.0 && r.fatalEnd == 100.0
    ensures r.conditionsSelected == st.conditionsSelected && r.showRoutes == st.showRoutes
  {
    st.(yearStart := b.yearMin, yearEnd := b.yearMax,
        aboardStart := b.aboardMin, aboardEnd := b.aboardMax,
        fatalStart := 0.0, fatalEnd := 100.0)
  }

  /**
   * What `init()` does once the records are loaded: compute bounds, set the state, register
   * the record-count display (listener `countId`), then notify everyone.
   */
  function Start(e: Engine, data: seq<Record>, countId: nat): (r: Step)
    ensures r.engine.data == data
    ensures r.engine.bounds == ComputeBounds(data, e.bounds)
    ensures r.engine.state == InitialState(e.state, r.engine.bounds)
    ensures r.engine.listeners == e.listeners + [countId]
    ensures |r.calls| == (if |data| > 0 then 1 else 0) + |e.listeners| + 1
    ensures forall c :: c in r.calls ==> c.payload == Filtered(r.engine)
  {
    var b := ComputeBounds(data, e.bounds);
    var e1 := Engine(InitialState(e.state, b), b, data, e.listeners);
    var s1 := AddListener(e1, countId);
    var s2 := Notify(s1.engine);
    Step(s2.engine, s1.calls + s2.calls)
  }

  /**
   * `init()`: load the table, then `Start`. An empty table makes the first-row lookup throw;
   * the error is caught and nothing changes.
   */
  function Init(e: Engine, t: Table, yearOf: YearOf, countId: nat): (r: Step)
    ensures |t.rows| == 0 ==> r == Step(e, [])
    ensures |t.rows| > 0 ==> r.engine.data == LoadShared(t, yearOf)
    ensures |t.rows| > 0 ==> r.engine.listeners == e.listeners + [countId]
    ensures |t.rows| > 0 ==> r.engine.state.fatalStart == 0.0 && r.engine.state.fatalEnd == 100.0
    ensures |t.rows| > 0 ==> r.engine.bounds == ComputeBounds(r.engine.data, e.bounds)
    ensures |t.rows| > 0 ==> r.engine.state == InitialState(e.state, r.engine.bounds)
    ensures |t.rows| > 0 ==> |r.calls| == (if |r.engine.data| > 0 then 1 else 0) + |e.listeners| + 1
    ensures |t.rows| > 0 ==> r == Start(e, LoadShared(t, yearOf), countId)
    ensures forall c :: c in r.calls ==> c.payload == Filtered(r.engine)
  {
    if |t.rows| == 0 then Step(e, []) else Start(e, LoadShared(t, yearOf), countId)
  }

  /** A record is complete for the bounds: it has whatever numbers the data has. */
  predicate Complete(b: Bounds, r: Record) {
    && (b.hasAboard ==> r.aboard.Val?)
    && (b.hasFatal ==> r.fatalPct.Val? && 0.0 <= r.fatalPct.v <= 100.0)
  }

  /** Under the state `init()` sets, a record within the bounds is shown exactly when complete. */
  lemma AdmitsAtInit(st: State, b: Bounds, r: Record)
    requires st.yearStart == b.yearMin && st.yearEnd == b.yearMax
    requires st.aboardStart == b.aboardMin && st.aboardEnd == b.aboardMax
    requires st.fatalStart == 0.0 && st.fatalEnd == 100.0 && st.conditionsSelected == {}
    requires b.yearMin <= YearNum(r.year) <= b.yearMax
    requires r.aboard.Val? ==> b.aboardMin <= r.aboard.v <= b.aboardMax
    ensures Admits(st, b, r) <==> Complete(b, r)
  {
  }

  /**
   * Right after loading, with no group selected, the views show exactly the loaded records
   * that have an aboard count (when any record has one) and a fatality percentage between
   * 0 and 100 (when any record has one).
   */
  lemma StartShowsCompleteRecords(e: Engine, data: seq<Record>, countId: nat)
    requires e.state.conditionsSelected == {}
    ensures forall r :: r in Filtered(Start(e, data, countId).engine) <==>
      r in data && Complete(Start(e, data, countId).engine.bounds, r)
  {
    var e2 := Start(e, data, countId).engine;
    var b := e2.bounds;
    forall r | r in data
      ensures Admits(e2.state, b, r) <==> Complete(b, r)
    {
      var i :| 0 <= i < |data| && data[i] == r;
      AdmitsAtInit(e2.state, b, r);
    }
  }

  /** The same, stated for `init()` on a non-empty table. */
  lemma InitShowsCompleteRecords(e: Engine, t: Table, yearOf: YearOf, countId: nat)
    requires |t.rows| > 0 && e.state.conditionsSelected == {}
    ensures forall r :: r in Filtered(Init(e, t, yearOf, countId).engine) <==>
      r in LoadShared(t, yearOf) && Complete(Init(e, t, yearOf, countId).engine.bounds, r)
  {
    var data := LoadShared(t, yearOf);
    assert Init(e, t, yearOf, countId) == Start(e, data, countId);
    StartShowsCompleteRecords(e, data, countId);
  }
}

=== FILE: sliders.dfy ===
/**
 * Two-thumb range sliders: keeping a window's start at or below its end, choosing which
 * thumb a click on the track moves, and turning a click position into a slider value.
 */
module Sliders {

  /** A thumb of a two-thumb slider. */
  datatype Thumb = StartThumb | EndThumb

  /**
   * The shared handlers' correction: `if (start > end) start = end;` then
   * `if (end < start) end = start;`. The start thumb gives way; the second step never fires.
   */
  function OrderRange(start: real, end: real): (r: (real, real))
    ensures r.0 <= r.1
    ensures r.1 == end
    ensures start <= end ==> r.0 == start
    ensures start > end ==> r.0 == end
  {
    var s := if start > end then end else start;
    var e := if end < s then s else end;
    (s, e)
  }

  /** The same correction on the year slider's whole years. */
  function OrderYears(start: int, end: int): (r: (int, int))
    ensures r.0 <= r.1
    ensures r.1 == end
    ensures start <= end ==> r.0 == start
    ensures start > end ==> r.0 == end
  {
    var w := OrderRange(start as real, end as real);
    (w.0.Floor, w.1.Floor)
  }

  /** The map page's start-thumb handler: the start value is capped at the end value. */
  function CapStart(sv: real, ev: real): (r: real)
    ensures r <= ev
    ensures sv <= ev ==> r == sv
    ensures sv > ev ==> r == ev
  {
    if sv > ev then ev else sv
  }

  /** The map page's end-thumb handler: the end value is raised to the start value. */
  function RaiseEnd(sv: real, ev: real): (r: real)
    ensures sv <= r
    ensures sv <= ev ==> r == ev
    ensures ev < sv ==> r == sv
  {
    if ev < sv then sv else ev
  }

  /**
   * Dragging the end thumb below the start thumb: the shared handler moves the start down to
   * the end, the map page's end handler pins the end at the start. Both leave an ordered
   * window, but not the same one.
   */
  lemma EndBelowStartHandlersDiffer(sv: real, ev: real)
    requires ev < sv
    ensures OrderRange(sv, ev) == (ev, ev)
    ensures RaiseEnd(sv, ev) == sv
    ensures OrderRange(sv, ev) != (sv, RaiseEnd(sv, ev))
  {
  }

  /** `Math.max(0, Math.min(1, x))`: the click position as a fraction of the track. */
  function Clamp01(x: real): (r: real)
    ensures 0.0 <= r <= 1.0
    ensures 0.0 <= x <= 1.0 ==> r == x
    ensures x < 0.0 ==> r == 0.0
    ensures x > 1.0 ==> r == 1.0
  {
    if x > 1.0 then 1.0 else if x < 0.0 then 0.0 else x
  }

  /** `Math.abs(x)`. */
  function Abs(x: real): (r: real)
    ensures r >= 0.0 && (r == x || r == -x)
  {
    if x < 0.0 then -x else x
  }

  /** The distance from a click at `pct` to a thumb. */
  function Dist(pct: real, sPct: real, ePct: real, t: Thumb): real {
    if t == StartThumb then Abs(pct - sPct) else Abs(pct - ePct)
  }

  /** The other thumb. */
  function Other(t: Thumb): Thumb {
    if t == StartThumb then EndThumb else StartThumb
  }

  /**
   * The shared filters' and graphs page's choice: the nearer thumb; on a tie, the end thumb
   * when the click is to the right of the start thumb, else the start thumb.
   */
  function NearestShared(pct: real, sPct: real, ePct: real): (r: Thumb)
    ensures Dist(pct, sPct, ePct, r) <= Dist(pct, sPct, ePct, Other(r))
    ensures Abs(pct - sPct) == Abs(pct - ePct) ==> (r == EndThumb <==> pct > sPct)
  {
    var dS := Abs(pct - sPct);
    var dE := Abs(pct - ePct);
    if dS < dE then StartThumb
    else if dE < dS then EndThumb
    else if pct > sPct then EndThumb else StartThumb
  }

  /**
   * The map page's choice: the nearer thumb, the start thumb on a tie. It differs from the
   * shared filters' choice exactly on a tie with the click right of the start thumb.
   */
  function NearestMap(pct: real, sPct: real, ePct: real): (r: Thumb)
    ensures Dist(pct, sPct, ePct, r) <= Dist(pct, sPct, ePct, Other(r))
    ensures Abs(pct - sPct) == Abs(pct - ePct) ==> r == StartThumb
    ensures r != NearestShared(pct, sPct, ePct) <==> Abs(pct - sPct) == Abs(pct - ePct) && pct > sPct
  {
    if Abs(pct - sPct) <= Abs(pct - ePct) then StartThumb else EndThumb
  }

  /** JavaScript's `Math.round`: half-way cases go up. */
  function Round(x: real): (r: int)
    ensures x - 0.5 < r as real <= x + 0.5
  {
    (x + 0.5).Floor
  }

  /** `Math.round(min + pct * (max - min))`: the slider value under a click. */
  function ValueFromPct(min: int, max: int, pct: real): (r: int)
    ensures 0.0 <= pct <= 1.0 && min <= max ==> min <= r <= max
    ensures pct == 0.0 ==> r == min
    ensures pct == 1.0 ==> r == max
  {
    var span := pct * (max - min) as real;
    if 0.0 <= pct <= 1.0 && min <= max then
      FractionOf(pct, (max - min) as real);
      Round(min as real + span)
    else
      Round(min as real + span)
  }

  /** A fraction of a non-negative amount lies between zero and the amount. */
  lemma FractionOf(a: real, b: real)
    requires 0.0 <= a <= 1.0 && 0.0 <= b
    ensures 0.0 <= a * b <= b
  {
    assert (1.0 - a) * b >= 0.0;
  }
}

=== FILE: text.dfy ===
/**
 * The string primitives the page scripts use, stated on `seq<char>`: ECMAScript `trim` and
 * the `\s` class, ASCII case mapping, `includes`, the `[^\d.\-]` strip, comma rewriting,
 * `split(/[;,]/)`, whitespace collapsing and the default (code-unit) string sort order.
 */
module Text {
  import opened Seqs

  /** ECMAScript WhiteSpace and LineTerminator code points: what `trim()` removes and `\s` matches. */
  predicate IsSpace(c: char) {
    || ('\t' <= c <= '\r') || c == ' ' || c == '\U{00A0}' || c == '\U{1680}'
    || ('\U{2000}' <= c <= '\U{200A}') || c == '\U{2028}' || c == '\U{2029}' || c == '\U{202F}'
    || c == '\U{205F}' || c == '\U{3000}' || c == '\U{FEFF}'
  }

  /** Leading whitespace removed. */
  function TrimStart(s: string): (r: string)
    ensures |r| <= |s| && r == s[|s| - |r|..]
    ensures |r| == 0 || !IsSpace(r[0])
    ensures forall i :: 0 <= i < |s| - |r| ==> IsSpace(s[i])
    decreases |s|
  {
    if |s| > 0 && IsSpace(s[0]) then TrimStart(s[1..]) else s
  }

  /** Trailing whitespace removed. */
  function TrimEnd(s: string): (r: string)
    ensures |r| <= |s| && r == s[..|r|]
    ensures |r| == 0 || !IsSpace(r[|r| - 1])
    ensures forall i :: |r| <= i < |s| ==> IsSpace(s[i])
    decreases |s|
  {
    if |s| > 0 && IsSpace(s[|s| - 1]) then TrimEnd(s[..|s| - 1]) else s
  }

  /** `r` is the infix of `s` starting at `i`, and everything of `s` outside it is whitespace. */
  predicate TrimmedAt(s: string, r: string, i: nat) {
    && i + |r| <= |s| && r == s[i..i + |r|]
    && (forall k :: 0 <= k < i ==> IsSpace(s[k]))
    && (forall k :: i + |r| <= k < |s| ==> IsSpace(s[k]))
  }

  /** `s.trim()`: the longest infix without whitespace at either end; only whitespace is cut. */
  function Trim(s: string): (r: string)
    ensures |r| == 0 || (!IsSpace(r[0]) && !IsSpace(r[|r| - 1]))
    ensures exists i: nat :: TrimmedAt(s, r, i)
  {
    var r := TrimEnd(TrimStart(s));
    assert TrimmedAt(s, r, |s| - |TrimStart(s)|);
    r
  }

  /** Where the trimmed text sits in `s`. */
  lemma TrimOffset(s: string) returns (i: nat)
    ensures i + |Trim(s)| <= |s| && Trim(s) == s[i..i + |Trim(s)|]
    ensures forall k :: 0 <= k < i ==> IsSpace(s[k])
    ensures forall k :: i + |Trim(s)| <= k < |s| ==> IsSpace(s[k])
  {
    i :| TrimmedAt(s, Trim(s), i);
  }

  /** A string with no whitespace at either end is its own trim. */
  lemma TrimOfTrimmed(s: string)
    requires |s| == 0 || (!IsSpace(s[0]) && !IsSpace(s[|s| - 1]))
    ensures Trim(s) == s
  {
  }

  /** ASCII `toLowerCase` on one character. */
  function LowerChar(c: char): char {
    if 'A' <= c <= 'Z' then (c as int + 32) as char else c
  }

  /** ASCII `toUpperCase` on one character. */
  function UpperChar(c: char): char {
    if 'a' <= c <= 'z' then (c as int - 32) as char else c
  }

  /** `s.toLowerCase()`, character by character. */
  function Lower(s: string): (r: string)
    ensures |r| == |s|
    ensures forall i :: 0 <= i < |s| ==> r[i] == LowerChar(s[i])
  {
    seq(|s|, i requires 0 <= i < |s| => LowerChar(s[i]))
  }

  /** No ASCII capital letter. */
  predicate IsLowerCase(s: string) {
    forall i :: 0 <= i < |s| ==> !('A' <= s[i] <= 'Z')
  }

  /** Lower-casing a string without capitals is the identity. */
  lemma LowerOfLowerCase(s: string)
    requires IsLowerCase(s)
    ensures Lower(s) == s
  {
  }

  /** `cond.charAt(0).toUpperCase() + cond.slice(1)`. */
  function Capitalize(s: string): (r: string)
    ensures |r| == |s|
    ensures |s| > 0 ==> r[0] == UpperChar(s[0]) && r[1..] == s[1..]
  {
    if |s| == 0 then "" else [UpperChar(s[0])] + s[1..]
  }

  /** `s.startsWith(p)`. */
  predicate StartsWith(s: string, p: string) {
    |p| <= |s| && s[..|p|] == p
  }

  /** `s.includes(sub)`, or the regular-expression test `/sub/.test(s)` for a literal pattern. */
  predicate Contains(s: string, sub: string)
    decreases |s|
  {
    StartsWith(s, sub) || (|s| > 0 && Contains(s[1..], sub))
  }

  /** An occurrence at index `i` makes `s` contain `sub`. */
  lemma {:induction false} ContainsAt(s: string, sub: string, i: nat)
    requires i + |sub| <= |s| && s[i..i + |sub|] == sub
    ensures Contains(s, sub)
    decreases i
  {
    if i > 0 {
      assert s[1..][i - 1..i - 1 + |sub|] == sub;
      ContainsAt(s[1..], sub, i - 1);
    }
  }

  /** A containment has a witness index. */
  lemma {:induction false} ContainsIndex(s: string, sub: string) returns (i: nat)
    requires Contains(s, sub)
    ensures i + |sub| <= |s| && s[i..i + |sub|] == sub
    decreases |s|
  {
    if StartsWith(s, sub) {
      i := 0;
    } else {
      var j := ContainsIndex(s[1..], sub);
      assert s[1..][j..j + |sub|] == s[j + 1..j + 1 + |sub|];
      i := j + 1;
    }
  }

  /** Containment is transitive: a string containing `m` contains everything `m` contains. */
  lemma ContainsTrans(s: string, m: string, sub: string)
    requires Contains(s, m) && Contains(m, sub)
    ensures Contains(s, sub)
  {
    var i := ContainsIndex(s, m);
    var j := ContainsIndex(m, sub);
    forall k | 0 <= k < |sub|
      ensures s[i + j + k] == sub[k]
    {
      assert s[i..i + |m|][j + k] == m[j + k];
      assert m[j..j + |sub|][k] == sub[k];
    }
    assert s[i + j..i + j + |sub|] == sub;
    ContainsAt(s, sub, i + j);
  }

  /** Characters kept by `replace(/[^\d.\-]/g, "")`: ASCII digits, `.` and `-`. */
  predicate IsNumChar(c: char) {
    ('0' <= c <= '9') || c == '.' || c == '-'
  }

  /** `s.replace(/[^\d.\-]/g, "")`. */
  function KeepNumeric(s: string): (r: string)
    ensures forall i :: 0 <= i < |r| ==> IsNumChar(r[i])
  {
    Filter(s, IsNumChar)
  }

  /** `s.replace(a, b)` with a one-character string pattern: only the FIRST `a` is replaced. */
  function ReplaceFirst(s: string, a: char, b: char): (r: string)
    ensures |r| == |s|
    decreases |s|
  {
    if |s| == 0 then ""
    else if s[0] == a then [b] + s[1..]
    else [s[0]] + ReplaceFirst(s[1..], a, b)
  }

  /** `s.replace(/a/g, b)`: every `a` becomes `b`. */
  function ReplaceAll(s: string, a: char, b: char): (r: string)
    ensures |r| == |s|
    ensures forall i :: 0 <= i < |s| ==> r[i] == (if s[i] == a then b else s[i])
  {
    seq(|s|, i requires 0 <= i < |s| => if s[i] == a then b else s[i])
  }

  /** The test "is not `a`". */
  function Unequal(a: char): char -> bool {
    c => c != a
  }

  /** `s.replace(/a/g, "")`: every `a` is deleted. */
  function DeleteAll(s: string, a: char): (r: string)
    ensures a !in r
  {
    Filter(s, Unequal(a))
  }

  /** A string with no `a` is unchanged by every form of replacement of `a`. */
  lemma {:induction false} ReplaceAbsent(s: string, a: char, b: char)
    requires a !in s
    ensures ReplaceFirst(s, a, b) == s && ReplaceAll(s, a, b) == s && DeleteAll(s, a) == s
    decreases |s|
  {
    if |s| > 0 {
      ReplaceAbsent(s[1..], a, b);
    }
    FilterKeepsAll(s, Unequal(a));
  }

  /** The separators of `split(/[;,]/)`. */
  predicate IsSep(c: char) {
    c == ';' || c == ','
  }

  /** `s.split(/[;,]/)`: always at least one piece, and no piece holds a separator. */
  function Split(s: string): (r: seq<string>)
    ensures |r| >= 1
    ensures forall i :: 0 <= i < |r| ==> forall c :: c in r[i] ==> !IsSep(c)
    decreases |s|
  {
    if |s| == 0 then [""]
    else if IsSep(s[0]) then [""] + Split(s[1..])
    else
      var rest := Split(s[1..]);
      [[s[0]] + rest[0]] + rest[1..]
  }

  /** `parts.join(";")`. */
  function Join(parts: seq<string>): string
    decreases |parts|
  {
    if |parts| == 0 then ""
    else if |parts| == 1 then parts[0]
    else parts[0] + ";" + Join(parts[1..])
  }

  /** Splitting a `;`-joined list of separator-free pieces gives the pieces back. */
  lemma {:induction false} SplitJoin(parts: seq<string>)
    requires |parts| >= 1
    requires forall i :: 0 <= i < |parts| ==> forall c :: c in parts[i] ==> !IsSep(c)
    ensures Split(Join(parts)) == parts
    decreases |parts|
  {
    if |parts| == 1 {
      SplitNoSep(parts[0]);
    } else {
      SplitJoin(parts[1..]);
      SplitPrefix(parts[0], Join(parts[1..]));
    }
  }

  /** A separator-free string splits into itself. */
  lemma {:induction false} SplitNoSep(s: string)
    requires forall c :: c in s ==> !IsSep(c)
    ensures Split(s) == [s]
    decreases |s|
  {
    if |s| > 0 {
      SplitNoSep(s[1..]);
      assert [s[0]] + s[1..] == s;
    }
  }

  /** Every separator, `;` or `,`, starts a new piece: one piece more than there are separators. */
  lemma {:induction false} SplitCount(s: string)
    ensures |Split(s)| == |Filter(s, IsSep)| + 1
    decreases |s|
  {
    if |s| > 0 {
      SplitCount(s[1..]);
    }
  }

  /** Splitting `p + ";" + t` for a separator-free `p` puts `p` first and then splits `t`. */
  lemma SplitPrefix(p: string, t: string)
    requires forall c :: c in p ==> !IsSep(c)
    ensures Split(p + ";" + t) == [p] + Split(t)
  {
    SplitAt(p, ';', t);
  }

  /**
   * Either separator ends a piece: splitting `p + [c] + t` for a separator `c` and a
   * separator-free `p` gives `p`, then the pieces of `t`.
   */
  lemma {:induction false} SplitAt(p: string, c: char, t: string)
    requires IsSep(c)
    requires forall ch :: ch in p ==> !IsSep(ch)
    ensures Split(p + [c] + t) == [p] + Split(t)
    decreases |p|
  {
    if |p| == 0 {
      assert p + [c] + t == [c] + t;
      assert (p + [c] + t)[1..] == t;
    } else {
      assert (p + [c] + t)[1..] == p[1..] + [c] + t;
      SplitAt(p[1..], c, t);
      assert [p[0]] + p[1..] == p;
    }
  }

  /** Only the plain space remains of whitespace, and never two in a row. */
  predicate SpacesNormal(s: string) {
    && (forall i :: 0 <= i < |s| && IsSpace(s[i]) ==> s[i] == ' ')
    && (forall i :: 0 <= i < |s| - 1 ==> !(s[i] == ' ' && s[i + 1] == ' '))
  }

  /** Not whitespace. */
  predicate IsInk(c: char) {
    !IsSpace(c)
  }

  /** The characters of `s` that are not whitespace. */
  function Ink(s: string): string {
    Filter(s, IsInk)
  }

  /** `s.replace(/\s+/g, " ")`: every maximal run of whitespace becomes one space. */
  function Collapse(s: string): (r: string)
    ensures SpacesNormal(r)
    ensures |s| > 0 ==> |r| > 0 && r[0] == (if IsSpace(s[0]) then ' ' else s[0])
    ensures |s| > 0 && !IsSpace(s[|s| - 1]) ==> |r| > 0 && !IsSpace(r[|r| - 1])
    decreases |s|
  {
    if |s| == 0 then ""
    else if IsSpace(s[0]) then " " + Collapse(TrimStart(s))
    else [s[0]] + Collapse(s[1..])
  }

  /** Leading whitespace before text that starts with ink is all that `TrimStart` removes. */
  lemma {:induction false} TrimStartSpaces(w: string, b: string)
    requires forall i :: 0 <= i < |w| ==> IsSpace(w[i])
    requires |b| == 0 || !IsSpace(b[0])
    ensures TrimStart(w + b) == b
    decreases |w|
  {
    if |w| > 0 {
      assert (w + b)[1..] == w[1..] + b;
      TrimStartSpaces(w[1..], b);
    } else {
      assert w + b == b;
    }
  }

  /** `TrimStart` stops inside a string that ends in ink. */
  lemma {:induction false} TrimStartConcat(x: string, y: string)
    requires |x| > 0 && !IsSpace(x[|x| - 1])
    ensures TrimStart(x + y) == TrimStart(x) + y
    decreases |x|
  {
    if IsSpace(x[0]) {
      assert (x + y)[1..] == x[1..] + y;
      TrimStartConcat(x[1..], y);
    }
  }

  /** A whitespace run never crosses the end of a string that ends in ink. */
  lemma {:induction false} CollapseConcat(x: string, y: string)
    requires |x| > 0 && !IsSpace(x[|x| - 1])
    ensures Collapse(x + y) == Collapse(x) + Collapse(y)
    decreases |x|, 1
  {
    if IsSpace(x[0]) {
      CollapseConcatSpace(x, y);
    } else {
      CollapseConcatInk(x, y);
    }
  }

  /** `CollapseConcat` when `x` starts with whitespace. */
  lemma {:induction false} CollapseConcatSpace(x: string, y: string)
    requires |x| > 0 && !IsSpace(x[|x| - 1]) && IsSpace(x[0])
    ensures Collapse(x + y) == Collapse(x) + Collapse(y)
    decreases |x|, 0
  {
    var t := TrimStart(x);
    TrimStartConcat(x, y);
    assert t == x[|x| - |t|..];
    assert |t| > 0 && t[|t| - 1] == x[|x| - 1];
    CollapseConcat(t, y);
    ConcatTail(x, y);
    ConcatAssoc(" ", Collapse(t), Collapse(y));
  }

  /** `CollapseConcat` when `x` starts with ink. */
  lemma {:induction false} CollapseConcatInk(x: string, y: string)
    requires |x| > 0 && !IsSpace(x[|x| - 1]) && !IsSpace(x[0])
    ensures Collapse(x + y) == Collapse(x) + Collapse(y)
    decreases |x|, 0
  {
    ConcatTail(x, y);
    if |x| == 1 {
      assert x[1..] + y == y;
      assert Collapse(x[1..]) == "";
    } else {
      CollapseConcat(x[1..], y);
    }
    ConcatAssoc([x[0]], Collapse(x[1..]), Collapse(y));
  }

  /** A non-empty whitespace run before ink becomes one space. */
  lemma CollapseRun(w: string, b: string)
    requires |w| > 0 && forall i :: 0 <= i < |w| ==> IsSpace(w[i])
    requires |b| == 0 || !IsSpace(b[0])
    ensures Collapse(w + b) == " " + Collapse(b)
  {
    TrimStartSpaces(w, b);
  }

  /**
   * Collapsing turns a whitespace run between two pieces of ink into one space and
   * collapses each side on its own.
   */
  lemma CollapseJoin(a: string, w: string, b: string)
    requires |a| > 0 && !IsSpace(a[|a| - 1])
    requires |w| > 0 && forall i :: 0 <= i < |w| ==> IsSpace(w[i])
    requires |b| == 0 || !IsSpace(b[0])
    ensures Collapse(a + w + b) == Collapse(a) + " " + Collapse(b)
  {
    ConcatAssoc(a, w, b);
    CollapseConcat(a, w + b);
    CollapseRun(w, b);
    ConcatAssoc(Collapse(a), " ", Collapse(b));
  }

  /** Collapsing keeps every non-whitespace character, in order. */
  lemma {:induction false} CollapseInk(s: string)
    ensures Ink(Collapse(s)) == Ink(s)
    decreases |s|
  {
    if |s| > 0 {
      if IsSpace(s[0]) {
        var t := TrimStart(s);
        var lead := s[..|s| - |t|];
        CollapseInk(t);
        InkOfSpaces(lead);
        assert lead + t == s;
        FilterConcat(lead, t, IsInk);
        FilterConcat(" ", Collapse(t), IsInk);
      } else {
        CollapseInk(s[1..]);
        FilterConcat([s[0]], Collapse(s[1..]), IsInk);
        assert [s[0]] + s[1..] == s;
        FilterConcat([s[0]], s[1..], IsInk);
      }
    }
  }

  /** A run of whitespace has no ink. */
  lemma {:induction false} InkOfSpaces(s: string)
    requires forall i :: 0 <= i < |s| ==> IsSpace(s[i])
    ensures Ink(s) == ""
    decreases |s|
  {
    if |s| > 0 {
      InkOfSpaces(s[1..]);
    }
  }

  /** Collapsing a string whose whitespace is already normal changes nothing. */
  lemma {:induction false} CollapseNormal(s: string)
    requires SpacesNormal(s)
    ensures Collapse(s) == s
    decreases |s|
  {
    if |s| > 0 {
      assert SpacesNormal(s[1..]);
      CollapseNormal(s[1..]);
      if IsSpace(s[0]) {
        assert |s| == 1 || !IsSpace(s[1]);
        assert TrimStart(s) == s[1..];
      }
      assert [s[0]] + s[1..] == s;
    }
  }

  /**
   * The default `Array.prototype.sort` order on strings: lexicographic by character, a proper
   * prefix first.
   */
  predicate StrLess(a: string, b: string): (ok: bool)
    ensures ok ==> |b| > 0
    ensures |a| < |b| && a == b[..|a|] ==> ok
    decreases |a|
  {
    |b| > 0 && (|a| == 0 || a[0] < b[0] || (a[0] == b[0] && StrLess(a[1..], b[1..])))
  }

  lemma {:induction false} StrLessIrreflexive(a: string)
    ensures !StrLess(a, a)
    decreases |a|
  {
    if |a| > 0 {
      StrLessIrreflexive(a[1..]);
    }
  }

  lemma {:induction false} StrLessTrans(a: string, b: string, c: string)
    requires StrLess(a, b) && StrLess(b, c)
    ensures StrLess(a, c)
    decreases |a|
  {
    if |a| > 0 && a[0] == b[0] && b[0] == c[0] {
      StrLessTrans(a[1..], b[1..], c[1..]);
    }
  }

  lemma {:induction false} StrLessTotal(a: string, b: string)
    requires a != b
    ensures StrLess(a, b) || StrLess(b, a)
    decreases |a|
  {
    if |a| > 0 && |b| > 0 && a[0] == b[0] {
      assert a == [a[0]] + a[1..] && b == [b[0]] + b[1..];
      StrLessTotal(a[1..], b[1..]);
    }
  }

  /** Strictly ascending in the default sort order, hence duplicate-free. */
  predicate StrictlySorted(s: seq<string>) {
    forall i, j :: 0 <= i < j < |s| ==> StrLess(s[i], s[j])
  }

  /** Insert `x` into a strictly sorted list unless it is already there. */
  function InsertSorted(x: string, s: seq<string>): (r: seq<string>)
    requires StrictlySorted(s)
    ensures StrictlySorted(r)
    ensures forall y :: y in r <==> y in s || y == x
    decreases |s|
  {
    if |s| == 0 then [x]
    else if x == s[0] then s
    else if StrLess(x, s[0]) then
      assert forall j :: 0 < j < |s| ==> StrLess(x, s[j]) by {
        forall j | 0 < j < |s| {
          StrLessTrans(x, s[0], s[j]);
        }
      }
      [x] + s
    else
      StrLessTotal(x, s[0]);
      var rest := InsertSorted(x, s[1..]);
      assert forall y :: y in rest ==> StrLess(s[0], y);
      assert s == [s[0]] + s[1..];
      [s[0]] + rest
  }

  /**
   * `Array.from(new Set(xs)).sort()`: the distinct values of `xs`, ascending. Inserting in
   * any order yields the same list, since a strictly sorted list is determined by its elements.
   */
  function SortedDistinct(xs: seq<string>): (r: seq<string>)
    ensures StrictlySorted(r)
    ensures forall y :: y in r <==> y in xs
    decreases |xs|
  {
    if |xs| == 0 then []
    else
      var rest := SortedDistinct(xs[1..]);
      assert xs == [xs[0]] + xs[1..];
      InsertSorted(xs[0], rest)
  }
}

=== FILE: weather_columns.dfy ===
/**
 * Weather columns of the crash table: how the scatter views find the temperature,
 * precipitation, wind, cloud and pressure columns by name, and how a daily average
 * temperature is formed from the maximum and minimum.
 */
module WeatherColumns {
  import opened Wrappers
  import opened Seqs
  import opened Text

  /** A column whose lower-cased name mentions both `temp` and `max`. */
  predicate TempMaxCol(k: string) {
    Contains(Lower(k), "temp") && Contains(Lower(k), "max")
  }

  /** The fallback search for the maximum temperature: `temp_max`. */
  predicate TempMaxExact(k: string) {
    Contains(Lower(k), "temp_max")
  }

  predicate TempMinCol(k: string) {
    Contains(Lower(k), "temp") && Contains(Lower(k), "min")
  }

  predicate TempMinExact(k: string) {
    Contains(Lower(k), "temp_min")
  }

  predicate PrecipCol(k: string) {
    Contains(Lower(k), "precip")
  }

  predicate PrecipExact(k: string) {
    Contains(Lower(k), "precipitation")
  }

  predicate WindCol(k: string) {
    Contains(Lower(k), "wind")
  }

  predicate WindExact(k: string) {
    Contains(Lower(k), "wind_max")
  }

  predicate CloudCol(k: string) {
    Contains(Lower(k), "cloud")
  }

  predicate CloudExact(k: string) {
    Contains(Lower(k), "cloud_cover")
  }

  predicate PressureCol(k: string) {
    Contains(Lower(k), "press")
  }

  predicate PressureExact(k: string) {
    Contains(Lower(k), "pressure")
  }

  /** The free-text weather description column: `general`, `condition` or `weather`. */
  predicate GeneralCol(k: string) {
    Contains(Lower(k), "general") || Contains(Lower(k), "condition") || Contains(Lower(k), "weather")
  }

  predicate GeneralExact(k: string) {
    Contains(Lower(k), "general_conditions")
  }

  /** The detected column names; `None` where no column matched. */
  datatype WeatherCols = WeatherCols(
    tempMax: Option<string>, tempMin: Option<string>, precip: Option<string>,
    wind: Option<string>, cloud: Option<string>, pressure: Option<string>,
    general: Option<string>)

  /**
   * `detectCols(cols)`: each column is `find(broad) || find(exact)`, searching the header in
   * order. The scatterplot page also detects the description column.
   */
  function DetectWeatherCols(keys: seq<string>): (r: WeatherCols)
    ensures r.tempMax.Some? <==> Find(keys, TempMaxCol).Some? || Find(keys, TempMaxExact).Some?
    ensures r.pressure.Some? <==> Find(keys, PressureCol).Some? || Find(keys, PressureExact).Some?
    ensures r.general.Some? ==> r.general.value in keys && (GeneralCol(r.general.value) || GeneralExact(r.general.value))
  {
    WeatherCols(
      Find(keys, TempMaxCol).OrElse(Find(keys, TempMaxExact)),
      Find(keys, TempMinCol).OrElse(Find(keys, TempMinExact)),
      Find(keys, PrecipCol).OrElse(Find(keys, PrecipExact)),
      Find(keys, WindCol).OrElse(Find(keys, WindExact)),
      Find(keys, CloudCol).OrElse(Find(keys, CloudExact)),
      Find(keys, PressureCol).OrElse(Find(keys, PressureExact)),
      Find(keys, GeneralCol).OrElse(Find(keys, GeneralExact)))
  }

  /** A name that contains `big` contains every part of `big`. */
  lemma ContainsPart(k: string, big: string, part: string, at: nat)
    requires at + |part| <= |big| && big[at..at + |part|] == part
    requires Contains(Lower(k), big)
    ensures Contains(Lower(k), part)
  {
    ContainsAt(big, part, at);
    ContainsTrans(Lower(k), big, part);
  }

  /** The temperature fallbacks `temp_max` and `temp_min` also satisfy the broad searches. */
  lemma TempExactImpliesBroad(k: string)
    ensures TempMaxExact(k) ==> TempMaxCol(k)
    ensures TempMinExact(k) ==> TempMinCol(k)
  {
    if TempMaxExact(k) {
      ContainsPart(k, "temp_max", "temp", 0);
      ContainsPart(k, "temp_max", "max", 5);
    }
    if TempMinExact(k) {
      ContainsPart(k, "temp_min", "temp", 0);
      ContainsPart(k, "temp_min", "min", 5);
    }
  }

  /** The other exact fallbacks each start with the word of their broad search. */
  lemma OtherExactImpliesBroad(k: string)
    ensures PrecipExact(k) ==> PrecipCol(k)
    ensures WindExact(k) ==> WindCol(k)
    ensures CloudExact(k) ==> CloudCol(k)
    ensures PressureExact(k) ==> PressureCol(k)
  {
    if PrecipExact(k) {
      ContainsPart(k, "precipitation", "precip", 0);
    }
    if WindExact(k) {
      ContainsPart(k, "wind_max", "wind", 0);
    }
    if CloudExact(k) {
      ContainsPart(k, "cloud_cover", "cloud", 0);
    }
    if PressureExact(k) {
      ContainsPart(k, "pressure", "press", 0);
    }
  }

  /** The description fallback `general_conditions` also satisfies the broad search. */
  lemma GeneralExactImpliesBroad(k: string)
    ensures GeneralExact(k) ==> GeneralCol(k)
  {
    if GeneralExact(k) {
      ContainsPart(k, "general_conditions", "general", 0);
    }
  }

  /** `find(broad) || find(exact)` is `find(broad)` whenever every exact name is also broad. */
  lemma FallbackUnused(keys: seq<string>, broad: string -> bool, exact: string -> bool)
    requires forall k :: exact(k) ==> broad(k)
    ensures Find(keys, broad).OrElse(Find(keys, exact)) == Find(keys, broad)
  {
    FindWeaker(keys, broad, exact);
  }

  /**
   * The exact-name fallbacks of `detectCols` are never reached: each detected column is the
   * first header name matching the broad search alone.
   */
  lemma DetectUsesBroadSearchOnly(keys: seq<string>)
    ensures DetectWeatherCols(keys) == WeatherCols(
      Find(keys, TempMaxCol), Find(keys, TempMinCol), Find(keys, PrecipCol),
      Find(keys, WindCol), Find(keys, CloudCol), Find(keys, PressureCol),
      Find(keys, GeneralCol))
  {
    forall k | true
      ensures TempMaxExact(k) ==> TempMaxCol(k)
      ensures TempMinExact(k) ==> TempMinCol(k)
      ensures PrecipExact(k) ==> PrecipCol(k)
      ensures WindExact(k) ==> WindCol(k)
      ensures CloudExact(k) ==> CloudCol(k)
      ensures PressureExact(k) ==> PressureCol(k)
      ensures GeneralExact(k) ==> GeneralCol(k)
    {
      TempExactImpliesBroad(k);
      OtherExactImpliesBroad(k);
      GeneralExactImpliesBroad(k);
    }
    FallbackUnused(keys, TempMaxCol, TempMaxExact);
    FallbackUnused(keys, TempMinCol, TempMinExact);
    FallbackUnused(keys, PrecipCol, PrecipExact);
    FallbackUnused(keys, WindCol, WindExact);
    FallbackUnused(keys, CloudCol, CloudExact);
    FallbackUnused(keys, PressureCol, PressureExact);
    FallbackUnused(keys, GeneralCol, GeneralExact);
  }

  /**
   * The average temperature: the mean of maximum and minimum when both are known, else
   * whichever one is known, else nothing.
   */
  function TempAvg(tmax: Option<real>, tmin: Option<real>): (r: Option<real>)
    ensures r.None? <==> tmax.None? && tmin.None?
    ensures r.Some? && tmax.Some? && tmin.Some? ==>
      (tmax.value <= r.value <= tmin.value || tmin.value <= r.value <= tmax.value)
    ensures r.Some? && tmax.Some? && tmin.Some? ==> r.value - tmin.value == tmax.value - r.value
    ensures tmax.None? ==> r == tmin
    ensures tmin.None? ==> r == tmax
  {
    if tmax.Some? && tmin.Some? then Some((tmax.value + tmin.value) / 2.0)
    else if tmax.Some? then tmax
    else tmin
  }
}

=== FILE: wrappers.dfy ===
/** Optional values: JavaScript's `null`/`undefined` versus a present value. */
module Wrappers {

  datatype Option<+T> = None | Some(value: T) {

    /** The value, or `default` when absent (JavaScript's `x ?? default`). */
    function GetOr(default: T): T {
      match this
      case Some(v) => v
      case None => default
    }

    /** This option, or `other` when absent (`a || b` on values that are never falsy when present). */
    function OrElse(other: Option<T>): Option<T> {
      if Some? then this else other
    }
  }
}
